=== FILE: README.md ===
# asr-eval evaluation core in Dafny

This project models the pure evaluation logic of the asr-eval benchmark, which scores speech
recognition and intent/entity extraction against labelled references. It covers:

- **Entity scoring** (`metrics.py`): the gold and predicted flatteners that turn entity values into
  lower-case token lists, `find_true_tag`, the tp/fp/fn counters of `compute_entity_metrics` with
  intent gating and cross-attribution of misfiled tokens, per-key and micro-averaged
  precision/recall/F1, `evaluate_entities`, and the label preparation of `evaluate_intents`.
- **Response similarity** (`slang_metrics.py`): `response_subtract`, `response_add`,
  `slang_accuracy_score`, `preprocess_entity_response` and the two score entry points.
- **Text transforms and WER** (`evaluate_asr.py`): `Driver.normalize_str`, `filter_entities`,
  `transform_text`, `apply_number_parser` over given spans, and `get_best_wer` over a word-level
  Levenshtein rate defined here.
- **Response decoding and the second flatteners** (`utils.py`): `parse_list_value`,
  `parse_composite_value`, the dict walk of `response_pb2dict`, the utils.py
  `convert_*_response_to_list` variants, `find_true_tag` and `Config.normalize_str`.
- **Reference expansion** (`transform_ref.py`): the loop that appends whole-word, case-insensitive
  paraphrases of each reference without duplicating them.

Modules, one per concern:

| file | module | models |
|---|---|---|
| wrappers.dfy | Wrappers | `Option`, `Result` and the Python exceptions the core can raise (`Fault`) |
| text.dfy | Text | `str.lower`, `str.split`, `str.strip`, `str.replace`, slicing, `str(int)` |
| values.dfy | Values | entity values, dicts as ordered key/value sequences, `==`, `len`, `in`, `str()` |
| metrics_flatten.dfy | MetricsFlatten | the two flatteners of metrics.py |
| entity_metrics.dfy | EntityMetrics | `find_true_tag`, the counters, the scores, `evaluate_entities` |
| intent_metrics.dfy | IntentMetrics | the label pairs and label encoding of `evaluate_intents` |
| slang_metrics.dfy | SlangMetrics | the `SlangMetrics` class |
| normalize.dfy | Normalize | both `normalize_str` methods |
| asr_eval.dfy | AsrEval | `filter_entities`, `apply_number_parser`, `transform_text` |
| wer.dfy | Wer | word error rate and `get_best_wer` |
| response_decode.dfy | ResponseDecode | the value-tree walk and `response_pb2dict` after `MessageToDict` |
| utils_flatten.dfy | UtilsFlatten | the utils.py flatteners |
| transform_ref.dfy | TransformRef | the reference-expansion script |

Modelling conventions:

- **Dicts.** A Python dict is a `seq<Field>` in insertion order with unique keys. Assigning to a
  new key appends it; assigning to an existing key replaces the value in place (`Values.Assign`).
- **Exceptions.** A raised exception is an `Err` of a `Result`, tagged with its Python class
  (`KeyError`, `IndexError`, `AttributeError`, `TypeError`, `ValueError`, `ZeroDivisionError`).
- **Equality.** Python `==` and `in` on entity values are `Values.PyEq`: dict order is ignored,
  and `1 == 1.0`. It is proved to be an equivalence relation.
- **Immutability.** Values are immutable, so the in-place mutation of the flatteners becomes a
  returned copy. The deep copies of `evaluate_entities` are automatic.
- **Numbers.** Counts are `nat`; rates and scores are `real`.

Where the code and the documented intent differ, the model follows the code:

- **Slang score.** The score of two empty responses is 1 (slang_metrics.py:24-28). With repeated
  records the score can be negative (`SlangMetrics.ScoreNegativeWithRepeats`).
- **Flattening.** Flattening is not idempotent on composites (`MetricsFlatten.PredCompositeFlattenNotIdempotent`,
  `MetricsFlatten.GoldCompositeFlattenNotIdempotent`). Gold lists are lower-cased but not split,
  while predicted lists are (`MetricsFlatten.GoldAndPredListsDiffer`).
- **Overall metrics.** They raise `ZeroDivisionError` when the summed tp is 0
  (`EntityMetrics.Overall`).
- **Number parser.** `apply_number_parser` replaces every occurrence of a span's text, not only the
  detected one (`AsrEval.NumberParserReplacesEveryOccurrence`).
- **Reference expansion.** It appends every original reference unconditionally. An original
  that equals an earlier variant is therefore repeated (`TransformRef.ExpandRepeatsOriginals`).
- **Decoded entities.** The decoded entity map has exactly one key per distinct entity key, and a
  later duplicate overwrites an earlier one. A scalar entity without `strVal` becomes `''`, but a
  scalar nested in a list or composite without `strVal` raises `KeyError`
  (`ResponseDecode.ParseItem`).
- **Intent gating.** Pairs are skipped only when their intents differ. A pair with equal intents
  and an empty predicted entity list raises `IndexError` (`EntityMetrics.ScorePair`).

## Model

| member | source | states |
|---|---|---|
| Text.IsSpace | metrics.py:23 | `str.isspace` on one character: space, tab, newline and carriage return are whitespace, and no ASCII letter or digit is |
| Text.LowerStr | metrics.py:13 | `str.lower()`: same length, each character lower-cased |
| Text.LowerStrOfLower | metrics.py:13 | lower-casing an already lower-case string changes nothing |
| Text.Split | metrics.py:23 | `str.split()`: every token is non-empty and holds no whitespace |
| Text.SplitConcat | metrics.py:23 | the tokens of `s`, concatenated, are `s` with all whitespace removed |
| Text.SplitOfToken | metrics.py:30 | a non-empty word without whitespace splits into itself alone |
| Text.SplitAtSpace | metrics.py:23 | splitting at a whitespace character splits the two sides separately; with `Text.SplitOfToken` this fixes the tokens as the maximal runs of non-whitespace |
| Text.SplitTwoWords | metrics.py:41 | `"a b".split()` is `[a, b]` for two words `a`, `b` |
| Text.SplitOfLower | metrics.py:30 | the tokens of a lower-case string are lower-case |
| Text.LStrip | evaluate_asr.py:86 | a suffix of `s`; everything dropped is whitespace; starts with a non-space |
| Text.RStrip | evaluate_asr.py:86 | a prefix of `s`; everything dropped is whitespace; ends with a non-space |
| Text.Strip | evaluate_asr.py:86 | a slice of `s` with no whitespace at either end, all whitespace outside it |
| Text.StripOfStripped | evaluate_asr.py:86 | stripping a stripped string changes nothing |
| Text.IsSubstringAt | metrics.py:57 | `x in s` holds when `x` occurs at some position of `s` |
| Text.ReplaceLength | evaluate_asr.py:141 | `str.replace` grows the text by the occurrence count times the length difference |
| Text.ReplaceAbsent | evaluate_asr.py:141 | replacing a pattern that does not occur changes nothing |
| Text.ReplaceSelf | evaluate_asr.py:141 | replacing a pattern by itself changes nothing |
| Text.Replace | evaluate_asr.py:141 | `str.replace`: an empty pattern inserts the substitute at each of the `len(s) + 1` positions; a text shorter than a non-empty pattern is unchanged |
| Text.PySlice | evaluate_asr.py:140 | `s[a:b]`: with `lo`, `hi` the normalized bounds, `hi - lo` items (none when `hi <= lo`), item `i` being `s[lo + i]`; `s[-k:]` is the last `k` items and an end past `len(s)` reads to the end |
| Text.SliceBound | evaluate_asr.py:140 | a slice bound: a negative one counts from the end, one below `-len(s)` becomes 0, one above `len(s)` becomes `len(s)` |
| Text.IntToString | evaluate_asr.py:141 | `str(int)`: the decimal digits of the magnitude, prefixed with `-` exactly when the integer is negative |
| Text.IntToStringParses | evaluate_asr.py:141 | reading the text of `str(i)` back as a decimal gives `i`; no leading zero except in `0`, and no `-0` |
| Text.DigitsValueOfDigits | metrics.py:52 | the decimal digits of `n`, read back, are `n` |
| Text.Trunc | metrics.py:52 | `int(float)`: truncation toward zero |
| Values.Get | metrics.py:83-84 | a lookup succeeds exactly on keys present and returns the stored value |
| Values.PyEq | slang_metrics.py:7 | Python `==` on entity values: strings by content, ints and floats by numeric value, lists item-wise and dicts key by key; `Values.PyEqReflexive`, `PyEqSymmetric` and `PyEqTransitive` make it an equivalence |
| Values.GetAt | utils.py:54 | with unique keys, looking up the `i`-th key returns the `i`-th value |
| Values.Assign | utils.py:54 | `d[k] = v`: existing keys keep their places, a new key is appended, `d[k]` is then `v` |
| Values.AssignHasKey | utils.py:54 | after `d[k] = v` the keys are those of `d` plus `k` |
| Values.AssignUnique | utils.py:54 | assignment keeps keys unique |
| Values.AssignOther | utils.py:54 | assignment to `k` leaves every other key's value alone |
| Values.PyEqReflexive | slang_metrics.py:7 | Python `==` on entity values is reflexive |
| Values.PyEqSymmetric | slang_metrics.py:7 | `==` is symmetric |
| Values.PyEqTransitive | slang_metrics.py:7 | `==` is transitive, including through nested lists and dicts |
| Values.Len | metrics.py:84 | `len(v)` is defined exactly on strings, lists and dicts |
| Values.Iterate | metrics.py:92 | `for x in v` is defined exactly where `len` is and yields `len(v)` items |
| Values.Contains | metrics.py:93 | `x in v` raises exactly on numbers; on a list it is list membership |
| Values.PyStr | metrics.py:23 | `str(v)` is the string itself for a string and the decimal form for an int |
| MetricsFlatten.Tokens | metrics.py:23 | `str(v).lower().split()`: lower-case non-empty words whose concatenation is the lower-cased text without spaces |
| MetricsFlatten.TokensAtSpace | metrics.py:23 | the tokens of a text split at a whitespace character are the tokens of each side, in order |
| MetricsFlatten.TokensOfWord | metrics.py:23 | a non-empty word without whitespace gives exactly its lower-cased self |
| MetricsFlatten.LowerItems | metrics.py:13 | lower-casing every item succeeds exactly when all items are strings, keeping length and order |
| MetricsFlatten.SplitEach | metrics.py:39-42 | the `extend(i.split())` loop yields only non-empty space-free words |
| MetricsFlatten.FlattenGoldValue | metrics.py:12-23 | gold rule: a list keeps its length and is lower-cased item-wise (`AttributeError` on a non-string), a composite becomes its lower-cased values, a string or int its tokens |
| MetricsFlatten.FlattenPredValue | metrics.py:29-52 | predicted rule: string to tokens, list of dicts unchanged, other lists need all strings, composite to lower-cased values, float to `[str(int(v))]`, int unchanged |
| MetricsFlatten.PredListIsTokensOfItems | metrics.py:35-42 | a predicted list of strings becomes the tokens of its lower-cased items, concatenated in order |
| MetricsFlatten.FlattenGoldDict | metrics.py:9-23 | succeeds exactly when every non-ignored value flattens; keys unchanged; ignored values untouched, the rest flattened |
| MetricsFlatten.FlattenGold | metrics.py:8-24 | the intent and the key set are unchanged, ignored entities are untouched, every other entity becomes a list |
| MetricsFlatten.FlattenPredDict | metrics.py:28-52 | succeeds exactly when every value flattens; keys unchanged; each value flattened by the predicted rule |
| MetricsFlatten.FlattenPred | metrics.py:27-53 | `IndexError` without a first entity dict; otherwise only the first dict changes, with the same keys |
| MetricsFlatten.GoldStrFlattenIdempotent | metrics.py:12-23 | flattening a gold string twice gives what flattening once gives |
| MetricsFlatten.PredStrFlattenIdempotent | metrics.py:29-42 | flattening a predicted string twice gives what flattening once gives |
| MetricsFlatten.PredCompositeFlattenNotIdempotent | metrics.py:43-50 | a composite holding a two-word phrase flattens to one item, and flattening again splits it |
| MetricsFlatten.GoldCompositeFlattenNotIdempotent | metrics.py:14-21 | a composite holding an int flattens to `[n]`, and flattening again raises `AttributeError` |
| MetricsFlatten.GoldAndPredListsDiffer | metrics.py:12-42 | the gold rule keeps a two-word list item whole while the predicted rule splits it |
| EntityMetrics.FirstHolder | metrics.py:56-58 | the first gold slot whose value contains the word, none when no slot does, an error when a membership test raises |
| EntityMetrics.FindTrueTag | metrics.py:55-59 | a key other than "missing" holds the stripped word; "missing" means no slot holds it or a slot named "missing" does; errors exactly when a membership test raises |
| EntityMetrics.FindTrueTagOnLists | utils.py:140-144 | on list-valued gold slots: the first key in dict order whose list holds the stripped word, else "missing" |
| EntityMetrics.Bump | metrics.py:84 | `counts[k][x] += n` on a defaultdict: existing keys keep their places and `k` is present afterwards |
| EntityMetrics.BumpTotal | metrics.py:102-106 | a bump adds its amounts to the summed counters |
| EntityMetrics.BumpTallyOf | metrics.py:84 | a bump changes only the counters of its own key |
| EntityMetrics.Hits | metrics.py:93-94 | the number of predicted tokens found in the gold list is at most the number of tokens |
| EntityMetrics.ScoreToken | metrics.py:92-100 | a non-string token raises `AttributeError`; otherwise exactly one tp, or one fn plus one fp elsewhere |
| EntityMetrics.CountHit | metrics.py:93-94 | a found token adds one tp to its entity and nothing else |
| EntityMetrics.CountMiss | metrics.py:95-98 | a misfiled token adds one fn to its entity and one fp to the true tag's key |
| EntityMetrics.MissFalsePositives | metrics.py:97-98 | a miss adds one fp to the key it is filed under and none to any other key |
| EntityMetrics.ScoreTokenHit | metrics.py:93-94 | a token found in the gold value is one tp of its entity, with no key's fp changed, whether or not the gold item has an `index` |
| EntityMetrics.ScoreTokenMiss | metrics.py:95-100 | a token not found scores exactly when `find_true_tag` answers and the gold item has an `index` (`KeyError` otherwise); its fp goes to the key `find_true_tag` names and to no other |
| EntityMetrics.ScoreTokens | metrics.py:92-100 | the token loop succeeds only when every token is a string |
| EntityMetrics.ScoreTokensCounts | metrics.py:92-100 | over all tokens: the entity gains one tp per hit and one fn per miss, total fp rises by the misses, and no other key gains tp or fn |
| EntityMetrics.ScoreTokensFalsePositives | metrics.py:92-100 | over all tokens, each key gains exactly one fp per missed token that `find_true_tag` files under it |
| EntityMetrics.ScoreEntity | metrics.py:80-82 | an untracked entity changes nothing |
| EntityMetrics.PredictedOnlyCountsFalsePositives | metrics.py:83-86 | an entity only predicted adds `len(values)` to its fp and nothing else; `KeyError` when the gold item has no `index` |
| EntityMetrics.GoldOnlyCountsFalseNegatives | metrics.py:87-90 | an entity only in gold adds `len(values)` to its fn and nothing else; `KeyError` when the gold item has no `index` |
| EntityMetrics.BothSidesConservesTokens | metrics.py:91-100 | with both sides, each predicted token adds one tp or one fn to the entity, and total fp rises exactly as total fn does |
| EntityMetrics.ScoreEntityAdvances | metrics.py:80-100 | scoring one entity only adds to the counters, and never gives tp or fn to an untracked key |
| EntityMetrics.GoldOnlyKeys | metrics.py:79 | exactly the gold keys not predicted, each once |
| EntityMetrics.EntityNames | metrics.py:79 | exactly the keys of either side, each once, as the union of the two key sets |
| EntityMetrics.ScoreEntities | metrics.py:80-100 | the loop over entity names only adds to the counters, and never gives tp or fn to an untracked key |
| EntityMetrics.ScorePair | metrics.py:73-77 | a pair with different intents adds nothing; equal intents without a predicted entity dict raise `IndexError`; a scored pair only adds to the counters |
| EntityMetrics.MissingIndexRaises | metrics.py:83-86 | a matched pair that logs an error raises `KeyError` when its gold item has no `index`, and counts one fp when it has one |
| EntityMetrics.CountPairs | metrics.py:72-100 | the loop over all pairs only adds to the counters, and never gives tp or fn to an untracked key |
| EntityMetrics.CountPairsTruncates | metrics.py:72 | `zip` scores only the first `min(len(gold), len(pred))` pairs |
| EntityMetrics.MismatchedIntentsCountNothing | metrics.py:73-74 | when no paired intents agree, the counters do not change |
| EntityMetrics.AllTokensHit | metrics.py:92-94 | tokens that are all in the gold list all score tp |
| EntityMetrics.SelfScoreHasNoErrors | metrics.py:80-100 | scoring flattened entities against themselves succeeds, with or without an `index`, and adds no fp and no fn |
| EntityMetrics.PerfectPairHasNoErrors | metrics.py:73-100 | a pair whose prediction equals its flattened gold adds no fp and no fn |
| EntityMetrics.PerfectRunHasNoErrors | metrics.py:72-100 | a run of perfect pairs adds no fp and no fn |
| EntityMetrics.Ratio | metrics.py:108-115 | `a / b`, or 0 on a zero denominator, lies in [0, 1] |
| EntityMetrics.F1 | metrics.py:116-119 | the harmonic mean, or 0 on a zero denominator, lies in [0, 1] |
| EntityMetrics.F1Bound | metrics.py:117 | `2pr / (p + r)` lies in [0, 1] for p, r in [0, 1] |
| EntityMetrics.KeyScores | metrics.py:108-123 | per-key scores lie in [0, 1] and are 0 on a zero denominator; when tp > 0, precision is 1 iff there are no fp and recall is 1 iff there are no fn |
| EntityMetrics.KeyF1ClosedForm | metrics.py:108-119 | per-key F1 equals `2tp / (2tp + fp + fn)`, or 0 when tp is 0 |
| EntityMetrics.F1ClosedForm | metrics.py:130-133 | the harmonic mean of `tp/(tp+fp)` and `tp/(tp+fn)` is `2tp / (2tp + fp + fn)` |
| EntityMetrics.Overall | metrics.py:130-133 | micro-averaged scores raise exactly when the summed tp is 0, else lie in (0, 1] |
| EntityMetrics.Details | metrics.py:125-128 | `details` maps every counted key, in counter order, to its F1 |
| EntityMetrics.ComputeEntityMetrics | metrics.py:61-140 | fails when counting fails or the summed tp is 0; otherwise reports the counters' details and micro-averaged scores |
| EntityMetrics.PerfectRunScoresOne | metrics.py:130-133 | a run of perfect pairs scores precision, recall and F1 of 1, or raises `ZeroDivisionError` when nothing was counted |
| EntityMetrics.FlattenGoldAll | metrics.py:151-162 | every gold response flattened with nothing ignored, element-wise |
| EntityMetrics.FlattenPredAll | metrics.py:164-171 | every predicted response flattened, element-wise |
| EntityMetrics.EvaluateEntities | metrics.py:142-184 | fails when any flattening fails; otherwise equals `compute_entity_metrics` on the element-wise flattened lists |
| IntentMetrics.LexLessTransitive | metrics.py:201 | Python string ordering is transitive |
| IntentMetrics.ClassesAreSortedValidIntents | metrics.py:187-201 | the encoder's classes are the five valid intents in strictly increasing order |
| IntentMetrics.ClassesDistinct | metrics.py:201 | no class occurs twice |
| IntentMetrics.PredictedLabel | metrics.py:198 | an empty predicted intent becomes `no_intent`; a non-empty one is kept |
| IntentMetrics.LabelPairs | metrics.py:195-199 | pairs never carry the gold label `n/a` and are no more than either input; which items survive and how they pair is fixed by `LabelPairsOne` and `LabelPairsConcat` |
| IntentMetrics.LabelPairsOne | metrics.py:196-199 | one zipped item gives its own `(predicted, gold)` labels, or nothing when its gold label is `n/a` |
| IntentMetrics.LabelPairsConcat | metrics.py:195-199 | the pairs of two runs of items are the first run's pairs followed by the second's, so each kept gold label stays with its own response, in input order |
| IntentMetrics.LabelPairsKeepLabelled | metrics.py:195-199 | one pair per zipped item not labelled `n/a`; with none such, pair `i` is the `i`-th predicted and gold label |
| IntentMetrics.Encode | metrics.py:202-203 | `transform` succeeds exactly on valid intents, giving the index of that class, else `ValueError` |
| IntentMetrics.EncodeRoundTrip | metrics.py:201-204 | decoding an encoded intent gives it back, and two intents encode alike exactly when equal |
| IntentMetrics.EncodeAll | metrics.py:202-203 | a list encodes exactly when all labels are valid, element-wise |
| IntentMetrics.EncodePairs | metrics.py:202-203 | both columns encode exactly when all labels are valid, giving equal-length code lists |
| IntentMetrics.EncodedIntents | metrics.py:186-203 | codes exist exactly when every kept label is valid, and both lists have one code per kept pair |
| IntentMetrics.ExactIntentsEncodeEqual | metrics.py:195-203 | when every prediction matches its label, the two code lists are equal |
| IntentMetrics.ExactPairsAgree | metrics.py:195-199 | when every prediction matches its label, each pair has equal sides |
| SlangMetrics.MemberOfOwn | slang_metrics.py:7 | every item of a list is `in` it |
| SlangMetrics.Member | slang_metrics.py:7 | `x in xs` on a list: some item is `==` to `x`; `MemberOfOwn` and `MemberOfEqual` are its partner facts |
| SlangMetrics.MemberOfEqual | slang_metrics.py:14 | an item equal to a member is a member |
| SlangMetrics.Subtract | slang_metrics.py:4-9 | the items of `A` with no equal in `B`, and all of them |
| SlangMetrics.SubtractInOrder | slang_metrics.py:4-9 | the kept items appear in their order in `A` |
| SlangMetrics.SubtractCounts | slang_metrics.py:4-9 | each kept value occurs as often as in `A`, each dropped one not at all |
| SlangMetrics.SubtractNoDup | slang_metrics.py:4-9 | subtracting from a duplicate-free list gives a duplicate-free list |
| SlangMetrics.SubtractEmpty | slang_metrics.py:4-9 | `A - B` is empty exactly when every item of `A` is in `B` |
| SlangMetrics.Dedup | slang_metrics.py:13-15 | the loop keeps what it has seen, adds only new items and ends with every item present |
| SlangMetrics.DedupNoDup | slang_metrics.py:13-15 | the loop keeps its output duplicate-free |
| SlangMetrics.Add | slang_metrics.py:11-16 | `A + B` without duplicates, holding an equal of every item of `A` or `B`, at most `len(A) + len(B)` long and non-empty when they are |
| SlangMetrics.AddIsFirstOccurrences | slang_metrics.py:11-16 | `A + B` is `A` followed by `B` with every item dropped that equals an earlier one, in order |
| SlangMetrics.FirstOccurrencesMember | slang_metrics.py:11-16 | dropping later duplicates keeps every value: `x in` the result exactly when `x in` the input |
| SlangMetrics.CoverLength | slang_metrics.py:22-23 | a duplicate-free list whose items all occur in `t` is no longer than `t` |
| SlangMetrics.AddLengthSymmetric | slang_metrics.py:11-16 | `len(A + B)` equals `len(B + A)` after deduplication |
| SlangMetrics.ScoreOf | slang_metrics.py:24-28 | `1 - n/d` is at most 1, is 1 exactly when `n` is 0, and is at least 0 when `n <= d` |
| SlangMetrics.Score | slang_metrics.py:18-28 | the score is at most 1, and is 1 exactly when every item of each side is in the other |
| SlangMetrics.ScoreSymmetric | slang_metrics.py:18-28 | the score does not depend on the order of its arguments |
| SlangMetrics.ScoreNonNegative | slang_metrics.py:18-28 | with duplicate-free sides the score is at least 0 |
| SlangMetrics.ScoreNegativeWithRepeats | slang_metrics.py:18-28 | `[x, x]` against `[y]` with `x != y` scores -0.5 |
| SlangMetrics.FieldRecords | slang_metrics.py:33-37 | a list entity gives the record of item `i` at position `i`; any other entity gives exactly its one record |
| SlangMetrics.Records | slang_metrics.py:32-37 | the records of all entities, one per list item or scalar, nothing else |
| SlangMetrics.RecordsConcat | slang_metrics.py:32-37 | the records of two dicts in a row are the first dict's records followed by the second's, so the output follows entity order |
| SlangMetrics.Preprocess | slang_metrics.py:30-38 | `IndexError` without an entity dict; otherwise the records of the first dict |
| SlangMetrics.ResponseScore | slang_metrics.py:40-50 | defined exactly when both responses have an entity dict, and at most 1 |
| SlangMetrics.SelfScoreIsOne | slang_metrics.py:40-44 | a response scored against itself gets 1 |
| SlangMetrics.ResponseScoreSymmetric | slang_metrics.py:46-50 | the score of two responses does not depend on their order |
| Normalize.SpecialsHavePunctuationOnly | evaluate_asr.py:84 | both removed character classes (with and without '.') are punctuation: no letter, digit, space or parenthesis |
| Normalize.RemoveChars | evaluate_asr.py:84 | the result holds exactly the characters of `s` outside the class |
| Normalize.NormalizeWith | evaluate_asr.py:83-86 | the normalized text is no longer than the input, lower-case and stripped |
| Normalize.ParensToSpaces | evaluate_asr.py:85 | every parenthesis becomes a space and every other character stays |
| Normalize.DriverNormalize | evaluate_asr.py:83-86 | the result has no special character (including '.'), no parenthesis, no upper case, no outer whitespace |
| Normalize.ConfigNormalize | utils.py:234-237 | the same, for the class without '.' |
| Normalize.NormalizeShape | evaluate_asr.py:83-86 | normalizing with any punctuation class gives a normal string |
| Normalize.NormalizeIdempotent | evaluate_asr.py:83-86 | normalizing twice gives what normalizing once gives |
| Normalize.NormalOfNormal | evaluate_asr.py:83-86 | normalizing a normal string changes nothing |
| Normalize.NormalizeKeeps | evaluate_asr.py:83-86 | a digit or other kept character occurs in the result exactly when it occurs in the input |
| Normalize.ConfigKeepsDots | utils.py:235 | `Config.normalize_str` keeps '.' exactly when the input has one; `Driver.normalize_str` never keeps it |
| Normalize.NormalizersAgreeWithoutDots | utils.py:234-237 | on text without '.', the two normalizers agree |
| AsrEval.Project | evaluate_asr.py:103-111 | the tracked-name projection of a dict has unique keys |
| AsrEval.ProjectInto | evaluate_asr.py:105-107 | the loop only appends: earlier keys keep their places, and nothing changes when no key of `d` is tracked |
| AsrEval.ProjectKeys | evaluate_asr.py:105-111 | a key is in the projection exactly when it is tracked and in the input |
| AsrEval.ProjectValues | evaluate_asr.py:105-111 | projected values are copied unchanged |
| AsrEval.ProjectIdempotent | evaluate_asr.py:103-111 | projecting twice gives what projecting once gives |
| AsrEval.ProjectKeysAll | evaluate_asr.py:105-111 | the projection's keys are the tracked keys of the input |
| AsrEval.FilterPredEntities | evaluate_asr.py:102-117 | one dict, with unique keys, holding exactly the tracked keys of `entities[0]`; `[{}]` when there is none |
| AsrEval.FilterGoldEntities | evaluate_asr.py:108-117 | one dict holding exactly the tracked keys of the gold entity map |
| AsrEval.FilterEntities | evaluate_asr.py:89-119 | same length, intents unchanged, each item with exactly one entity dict |
| AsrEval.FilterGold | evaluate_asr.py:89-119 | same length, each gold item with exactly one entity dict |
| AsrEval.FilterEntitiesKeepsTracked | evaluate_asr.py:104-107 | a tracked key keeps its value, an untracked one is gone |
| AsrEval.FilterEntitiesIdempotent | evaluate_asr.py:89-119 | filtering twice gives what filtering once gives |
| AsrEval.ApplyNumberParser | evaluate_asr.py:135-142 | with no spans the text is unchanged |
| AsrEval.Surface | evaluate_asr.py:140 | `text[start:end+1]`: the span's characters when in range, empty when the span is reversed, never longer than the text |
| AsrEval.ReplaceSpans | evaluate_asr.py:138-141 | when every span's number is written no longer than its surface text, the text does not grow |
| AsrEval.ReplaceSpansSnoc | evaluate_asr.py:138-141 | each further span replaces every occurrence of its original surface text in the running text |
| AsrEval.ApplyNumberParserSnoc | evaluate_asr.py:138-141 | the parser is `str.replace` of the spans' surfaces, applied in span order |
| AsrEval.ReplaceSpansOfDigits | evaluate_asr.py:138-141 | spans already written as their numbers change nothing |
| AsrEval.NumberParserReplacesEveryOccurrence | evaluate_asr.py:141 | one detected "one" in "one one" turns both into "1" |
| AsrEval.TransformText | evaluate_asr.py:121-132 | with every stage off the text is unchanged; with only the normalizer on the result is normal |
| AsrEval.TransformNormalizeOnlyIdempotent | evaluate_asr.py:121-132 | the normalizer-only transform is idempotent |
| AsrEval.TransformDigitsUnchanged | evaluate_asr.py:129-130 | the parser-only transform leaves text whose spans are already digits unchanged |
| Wer.EditDistance | evaluate_asr.py:263 | the table computation returns the word-level Levenshtein distance |
| Wer.Dist | evaluate_asr.py:263 | the word-level Levenshtein distance; `Wer.EditDistance` computes it, `Wer.DistStep` gives its recurrence and `Wer.DistBounds` its bounds |
| Wer.DistBounds | evaluate_asr.py:263 | the distance is at most the longer length and at least the difference of the lengths |
| Wer.NextRow | evaluate_asr.py:263 | each row of the table holds the distances from one reference prefix |
| Wer.DistStep | evaluate_asr.py:263 | each cell is the minimum over deletion, insertion and substitution |
| Wer.DistSelf | evaluate_asr.py:263 | a word list is at distance 0 from itself |
| Wer.DistZero | evaluate_asr.py:263 | distance 0 means equal word lists |
| Wer.DistSymmetric | evaluate_asr.py:263 | the distance does not depend on the order of its arguments |
| Wer.WordErrorRate | evaluate_asr.py:263 | the rate raises `ValueError` exactly on an empty reference, and is otherwise at least 0 |
| Wer.WordErrorRateZero | evaluate_asr.py:263 | the rate is 0 exactly when the hypothesis has the reference's words |
| Wer.MinRate | evaluate_asr.py:261-264 | fails exactly when some reference fails; otherwise at most every rate and equal to one of them |
| Wer.BestWer | evaluate_asr.py:260-264 | `ValueError` on no references or a failing one; otherwise the minimum rate, attained by some reference |
| Wer.BestWerOfExactMatch | evaluate_asr.py:260-264 | a hypothesis with the words of one reference has best rate 0 |
| ResponseDecode.ParseItem | utils.py:41-46 | a list node gives a list of its length, a composite a dict, a scalar its `strVal` or `KeyError` |
| ResponseDecode.ParseListValue | utils.py:38-47 | one value per entry of `listValues` |
| ResponseDecode.ParseItems | utils.py:40-46 | one value per node |
| ResponseDecode.ParseCompositeValue | utils.py:50-59 | at most one key per entry of `compositeValues`, and `{}` when there are none |
| ResponseDecode.ParseFields | utils.py:52-58 | the loop only assigns: keys already present keep their places and at most one key is added per field |
| ResponseDecode.ParseItemsPointwise | utils.py:40-46 | item `i` is node `i` parsed, and the loop fails exactly when some node fails |
| ResponseDecode.ParseFieldsKeys | utils.py:52-58 | the keys of the parsed dict are the names of `compositeValues` |
| ResponseDecode.ParseFieldsUnique | utils.py:52-58 | the parsed dict has unique keys |
| ResponseDecode.ParseFieldsOrder | utils.py:52-58 | with distinct names the keys come out in the input's order |
| ResponseDecode.CompositeKeys | utils.py:50-59 | a composite keeps exactly its field names as keys, uniquely, and in order when they are distinct |
| ResponseDecode.ParseEncode | utils.py:38-59 | parsing the tree of any value the JSON form carries intact (non-empty strings, lists, key-unique dicts) gives the value back |
| ResponseDecode.EntityValueIsItem | utils.py:75-80 | an entity parses like a nested node, except that a missing `strVal` becomes `''` |
| ResponseDecode.EntityValue | utils.py:75-80 | the value of a top-level entity: a list or composite is walked as a nested node, a scalar is its `strVal` or `''`; `EntityValueIsItem` relates it to `ParseItem` |
| ResponseDecode.EntityPairs | utils.py:73-80 | one key/value pair per entity; fails exactly when some entity has no `key` or a value that does not decode |
| ResponseDecode.EntityPairsKeys | utils.py:74 | pair `i` carries entity `i`'s key |
| ResponseDecode.EntityPairsAt | utils.py:75-80 | pair `i` carries entity `i`'s value |
| ResponseDecode.AssignAllKeys | utils.py:72-80 | the entity map has exactly the keys of the pairs |
| ResponseDecode.AssignAllUnique | utils.py:72-80 | the entity map has unique keys |
| ResponseDecode.AssignAllKeeps | utils.py:72-80 | a key no pair names keeps its earlier value |
| ResponseDecode.AssignAllLastWins | utils.py:76-80 | a key ends with the value of its last pair |
| ResponseDecode.AssignAll | utils.py:76-80 | `d[k] = v` for each pair: earlier keys keep their places, at most one key added per pair |
| ResponseDecode.EntityMap | utils.py:72-80 | fails exactly when some entity has no `key` or a value that does not decode; otherwise key-unique and no longer than the entity list |
| ResponseDecode.ResponseToDict | utils.py:67-82 | `{}` without `intentResponse`; else the intent (default `''`) and one entity map, succeeding exactly when every entity decodes |
| ResponseDecode.EntityMapLast | utils.py:72-80 | an entity with no later duplicate key determines that key's value in the map |
| ResponseDecode.ResponseEntities | utils.py:67-82 | in the decoded response, each entity's key maps to that entity's value unless a later entity overwrites it |
| ResponseDecode.ResponseKeys | utils.py:67-82 | the decoded entity map has a key exactly when some entity has it |
| UtilsFlatten.UtilsGoldValue | utils.py:107-110 | lists are lower-cased item-wise, anything else becomes the tokens of `str(v)`; agrees with metrics.py off composites |
| UtilsFlatten.UtilsGoldDict | utils.py:88-110 | succeeds exactly when every non-ignored value flattens; keys unchanged; ignored values untouched |
| UtilsFlatten.UtilsGoldAgrees | utils.py:87-111 | without composite entities the utils.py and metrics.py gold flatteners agree |
| UtilsFlatten.UtilsPredValue | utils.py:116-136 | the metrics.py rule, except that a composite becomes its values without lower-casing |
| UtilsFlatten.CompositeDiffersOnlyInCase | utils.py:130-134 | on a composite the metrics.py rule gives the utils.py items lower-cased |
| UtilsFlatten.UtilsPredDict | utils.py:115-136 | succeeds exactly when every value flattens; keys unchanged |
| UtilsFlatten.UtilsPred | utils.py:114-137 | `IndexError` without a first dict; only the first dict changes, with the same keys |
| UtilsFlatten.PredValueAgrees | utils.py:116-136 | one value whose composite strings are lower-case flattens alike under both rules |
| UtilsFlatten.UtilsPredDictAgrees | utils.py:115-136 | dicts whose composites hold only lower-case strings flatten alike |
| UtilsFlatten.UtilsPredAgrees | utils.py:114-137 | the two predicted flatteners agree unless a composite holds an upper-case string |
| UtilsFlatten.PredFlattenersDiffer | utils.py:130-134 | a composite holding "A" gives "A" under utils.py and "a" under metrics.py |
| TransformRef.SubFromNoMatch | transform_ref.py:23 | with no whole-word match from position `i` on, the rest of the text is copied |
| TransformRef.SubFrom | transform_ref.py:23 | the `re.sub` scan from position `i`; a same-length replacement keeps the length. Its meaning is in `SubFromNoMatch` and `SubWordLeftmost` |
| TransformRef.SubWord | transform_ref.py:23 | `re.sub` of a whole-word, case-insensitive pattern; a same-length replacement keeps the length. `SubWordLeftmost` and `SubWordNoMatch` state which matches it replaces |
| TransformRef.SubWordNoMatch | transform_ref.py:23 | with no whole-word match, `re.sub` leaves the text unchanged |
| TransformRef.SubWordLeftmost | transform_ref.py:23 | the leftmost whole-word match is replaced and scanning resumes after it |
| TransformRef.SubWordIgnoresCase | transform_ref.py:23 | "qr" replaces "QR" |
| TransformRef.SubWordWholeWords | transform_ref.py:23 | "dr" does not match inside "dry" |
| TransformRef.ApplyReplacementsSnoc | transform_ref.py:22-23 | replacements apply one after another, in list order |
| TransformRef.ApplyReplacementsNoMatch | transform_ref.py:22-23 | when no pattern matches, the reference is unchanged |
| TransformRef.ApplyReplacements | transform_ref.py:22-23 | the replacements applied one after another; same-length ones keep the length. `ApplyReplacementsSnoc` states the order |
| TransformRef.Step | transform_ref.py:20-25 | the reference is appended, and then its variant when the variant is not yet in the list |
| TransformRef.Expand | transform_ref.py:18-26 | between `n` and `2n` references come out |
| TransformRef.ExpandCorpus | transform_ref.py:17-26 | every item's references are expanded with the seven fixed replacements |
| TransformRef.ExpandKeepsOriginals | transform_ref.py:20-21 | every original appears in the output, at increasing positions |
| TransformRef.ExpandIsSupersequence | transform_ref.py:18-26 | the input is a subsequence of the output |
| TransformRef.ExpandMembers | transform_ref.py:18-26 | the output holds exactly the originals and their variants |
| TransformRef.ExpandUnchanged | transform_ref.py:18-26 | when no replacement changes any reference, the output is the input |
| TransformRef.ExpandRepeatsOriginals | transform_ref.py:20-25 | an original equal to an earlier variant is appended a second time |

## Left out

- Audio transcription, URL checks and audio conversion (evaluate_asr.py:68-76, 144-258) are left out. They are network, subprocess and file I/O.
- `Driver.__init__`, `Driver.run`, the hypothesis cache, the DataFrame, the JSON/CSV dumps, `main` and argument parsing are left out. They are I/O glue around the modelled functions.
- NeMo's inverse normalizer is left out. `AsrEval.TransformText` takes it as a function parameter.
- slanglabs' `parse_numbers` is left out. `AsrEval.TransformText` takes it as a function parameter, and `AsrEval.ApplyNumberParser` takes the detected spans as input.
- The jiwer library is left out. Word error rate is defined here as word-level Levenshtein distance over the reference word count.
- Wer.WordErrorRate: words are separated as `str.split()` separates them. jiwer's default transform may treat tabs and newlines differently.
- sklearn's `LabelEncoder` fit and `classification_report` are left out. They are library code with floating-point output. The model covers the label pairs, the class order (sorted valid intents) and `transform`, whose `ValueError` on an unseen label is `IntentMetrics.Encode`.
- Protobuf messages are left out: `create_pb_request`, `ParseFromString` and `MessageToDict` (utils.py:18-35, 62-65). Decoding starts from the dict `MessageToDict` produces, as a `ResponseDecode.Message`. Absent protobuf fields read as `false`, `[]` or a missing `strVal`.
- `Config` YAML loading, URL formatting and `send_and_time_request` (utils.py:147-232, 239-257) are left out. They are configuration and network I/O.
- The reprocess branch of utils.py's `convert_gold_response_to_list` (utils.py:91-106) is left out. It issues a network request; the model takes an empty reprocess list.
- `str()` of floats and dicts is left out, because Python's float and dict formatting is not modelled. The gold flatteners take it as a function parameter `other`. Ints use `Text.IntToString`.
- Text.LowerStr lower-cases ASCII letters only. Unicode case mapping is left out.
- `str.split()` and `str.strip()` use the fixed whitespace set of `str.isspace` (`Text.IsSpace`). Unicode database lookups are not modelled.
- TransformRef.SubWord: `\b` and `re.IGNORECASE` are modelled with ASCII word characters and ASCII case folding. The patterns are treated as literal text; the seven fixed patterns contain no regex metacharacters.
- Set iteration order is modelled as predicted keys first, then gold-only keys (`EntityMetrics.EntityNames`). Python leaves the iteration order of `set(p) | set(e)` unspecified. The counters' key order, and so the order of `details`, depends on it; their values do not.
- The `errors` list of `compute_entity_metrics` and its `debug` output are left out; they do not feed the scores. Building an error line reads `e['index']`, and that read is modelled: `GoldResponse.hasIndex` says whether the key is there, and the scorer raises `KeyError` at each error line when it is not.
- AsrEval.ApplyNumberParser: a detected number's value is an integer (`NumberSpan.value`), so `str(number[0])` is always the decimal form of an int. A float value from the number parser, which `str()` writes with a fractional part, is not modelled.
- Float entity values in gold data, and floats compared with ints, are modelled as mathematical reals.
- combine_referrences.py, rca.py and create_reference_data.py are not part of this model. They copy columns between files.
- tqdm progress bars and `print` calls are left out. They do not affect results.

=== FILE: asr_eval.dfy ===
/** The pure steps of the ASR driver: projecting NLU responses onto the tracked entity names, the
    configurable text transform applied to transcripts and references, and the replacement of
    spelled-out numbers by digits.

    The inverse text normalizer and the number detector are external libraries; they enter as
    function parameters. */
module AsrEval {
  import opened Text
  import opened Values
  import opened Normalize
  import opened Wrappers
  import EntityMetrics

  /** `obj[k] = v` for every entry `k: v` of `d`, in order, whose key is one of `names`. */
  function ProjectInto(names: seq<string>, obj: Dict, d: Dict): (r: Dict)
    ensures |obj| <= |r| <= |obj| + |d|
    ensures forall i :: 0 <= i < |obj| ==> r[i].key == obj[i].key
    ensures (forall i :: 0 <= i < |d| ==> d[i].key !in names) ==> r == obj
    decreases |d|
  {
    if |d| == 0 then obj
    else if d[0].key in names then ProjectInto(names, Assign(obj, d[0].key, d[0].value), d[1..])
    else ProjectInto(names, obj, d[1..])
  }

  /** Projection keeps the target's keys unique. */
  lemma {:induction false} ProjectUnique(names: seq<string>, obj: Dict, d: Dict)
    requires UniqueKeys(obj)
    ensures UniqueKeys(ProjectInto(names, obj, d))
    decreases |d|
  {
    if |d| > 0 {
      if d[0].key in names {
        AssignUnique(obj, d[0].key, d[0].value);
        ProjectUnique(names, Assign(obj, d[0].key, d[0].value), d[1..]);
      } else {
        ProjectUnique(names, obj, d[1..]);
      }
    }
  }

  /** The entity map of one response restricted to the six tracked names. */
  function Project(d: Dict): (r: Dict)
    ensures UniqueKeys(r)
  {
    ProjectUnique(EntityMetrics.Tracked, [], d);
    ProjectInto(EntityMetrics.Tracked, [], d)
  }

  /** The keys of a projection are the selected keys of its source. */
  lemma {:induction false} ProjectKeys(names: seq<string>, obj: Dict, d: Dict, k: string)
    ensures HasKey(ProjectInto(names, obj, d), k) <==> HasKey(obj, k) || (k in names && HasKey(d, k))
    decreases |d|
  {
    if |d| > 0 {
      HasKeyCons(d, k);
      if d[0].key in names {
        AssignHasKey(obj, d[0].key, d[0].value, k);
        ProjectKeys(names, Assign(obj, d[0].key, d[0].value), d[1..], k);
      } else {
        ProjectKeys(names, obj, d[1..], k);
      }
    }
  }

  /** A projection copies the values of the selected keys unchanged. */
  lemma {:induction false} ProjectValues(names: seq<string>, obj: Dict, d: Dict, k: string)
    requires UniqueKeys(d)
    ensures Get(ProjectInto(names, obj, d), k) == if k in names && HasKey(d, k) then Get(d, k) else Get(obj, k)
    decreases |d|
  {
    if |d| > 0 {
      var k0 := d[0].key;
      HasKeyCons(d, k);
      assert UniqueKeys(d[1..]);
      if k0 in names {
        var obj' := Assign(obj, k0, d[0].value);
        ProjectValues(names, obj', d[1..], k);
        if k0 == k {
          forall j | 0 <= j < |d[1..]|
            ensures d[1..][j].key != k
          {
            assert d[1..][j] == d[j + 1];
          }
        } else {
          AssignOther(obj, k0, d[0].value, k);
        }
      } else {
        ProjectValues(names, obj, d[1..], k);
      }
    }
  }

  /** In a key-unique `obj + e`, the first key of `e` is not held by `obj`. */
  lemma FirstIsNew(obj: Dict, e: Dict)
    requires |e| > 0 && UniqueKeys(obj + e)
    ensures !HasKey(obj, e[0].key)
  {
    forall j | 0 <= j < |obj|
      ensures obj[j].key != e[0].key
    {
      assert (obj + e)[j] == obj[j] && (obj + e)[|obj|] == e[0];
    }
  }

  /** A selected key that `obj` does not hold yet is appended to it. */
  lemma ProjectNewStep(names: seq<string>, obj: Dict, e: Dict)
    requires |e| > 0 && e[0].key in names && !HasKey(obj, e[0].key)
    ensures ProjectInto(names, obj, e) == ProjectInto(names, obj + [e[0]], e[1..])
  {
  }

  /** Projecting selected keys that keep `obj + e` key-unique appends them. */
  lemma {:induction false} ProjectSelected(names: seq<string>, obj: Dict, e: Dict)
    requires UniqueKeys(obj + e)
    requires forall i :: 0 <= i < |e| ==> e[i].key in names
    ensures ProjectInto(names, obj, e) == obj + e
    decreases |e|
  {
    if |e| > 0 {
      var obj' := obj + [e[0]];
      assert obj' + e[1..] == obj + e;
      FirstIsNew(obj, e);
      ProjectNewStep(names, obj, e);
      ProjectSelected(names, obj', e[1..]);
    } else {
      assert obj + e == obj;
    }
  }

  /** Projection is idempotent. */
  lemma ProjectIdempotent(d: Dict)
    ensures Project(Project(d)) == Project(d)
  {
    var names := EntityMetrics.Tracked;
    var p := Project(d);
    forall i | 0 <= i < |p|
      ensures p[i].key in names
    {
      assert HasKey(p, p[i].key);
      ProjectKeys(names, [], d, p[i].key);
    }
    assert [] + p == p;
    ProjectSelected(names, [], p);
  }

  /** `filter_entities` on one predicted response: the first candidate entity map restricted to
      the tracked names, or a single empty map when there is no candidate. */
  function FilterPredEntities(entities: seq<Dict>): (r: seq<Dict>)
    ensures |r| == 1 && UniqueKeys(r[0])
    ensures |entities| == 0 ==> r[0] == []
    ensures |entities| > 0 ==> forall k :: HasKey(r[0], k) <==> k in EntityMetrics.Tracked && HasKey(entities[0], k)
  {
    if |entities| > 0 then
      ProjectKeysAll(entities[0]);
      [Project(entities[0])]
    else [[]]
  }

  lemma ProjectKeysAll(d: Dict)
    ensures forall k :: HasKey(Project(d), k) <==> k in EntityMetrics.Tracked && HasKey(d, k)
  {
    forall k
      ensures HasKey(Project(d), k) <==> k in EntityMetrics.Tracked && HasKey(d, k)
    {
      ProjectKeys(EntityMetrics.Tracked, [], d, k);
    }
  }

  /** `filter_entities` on one gold item, whose entities are a single map. */
  function FilterGoldEntities(entities: Dict): (r: seq<Dict>)
    ensures |r| == 1 && UniqueKeys(r[0])
    ensures |entities| == 0 ==> r[0] == []
    ensures forall k :: HasKey(r[0], k) <==> k in EntityMetrics.Tracked && HasKey(entities, k)
  {
    ProjectKeysAll(entities);
    if |entities| > 0 then [Project(entities)] else [[]]
  }

  /** `filter_entities(responses, pred_response=True)`. */
  function FilterEntities(responses: seq<PredResponse>): (r: seq<PredResponse>)
    ensures |r| == |responses|
    ensures forall i :: 0 <= i < |r| ==> r[i].intent == responses[i].intent && |r[i].entities| == 1
  {
    seq(|responses|, i requires 0 <= i < |responses| =>
      responses[i].(entities := FilterPredEntities(responses[i].entities)))
  }

  /** `filter_entities(entities, pred_response=False)`, over each item's entity map. */
  function FilterGold(entityMaps: seq<Dict>): (r: seq<seq<Dict>>)
    ensures |r| == |entityMaps|
    ensures forall i :: 0 <= i < |r| ==> |r[i]| == 1
  {
    seq(|entityMaps|, i requires 0 <= i < |entityMaps| => FilterGoldEntities(entityMaps[i]))
  }

  /** Each filtered response keeps, from the first candidate map, exactly the tracked entities with
      their values. */
  lemma FilterEntitiesKeepsTracked(responses: seq<PredResponse>, i: nat, k: string)
    requires i < |responses| && |responses[i].entities| > 0 && UniqueKeys(responses[i].entities[0])
    ensures var e := FilterEntities(responses)[i].entities[0];
      Get(e, k) == if k in EntityMetrics.Tracked then Get(responses[i].entities[0], k) else None
  {
    var d := responses[i].entities[0];
    ProjectValues(EntityMetrics.Tracked, [], d, k);
    if k in EntityMetrics.Tracked && !HasKey(d, k) {
      assert Get(d, k) == None;
    }
  }

  /** Filtering twice is filtering once. */
  lemma FilterEntitiesIdempotent(responses: seq<PredResponse>)
    ensures FilterEntities(FilterEntities(responses)) == FilterEntities(responses)
  {
    var once := FilterEntities(responses);
    forall i | 0 <= i < |responses|
      ensures FilterEntities(once)[i] == once[i]
    {
      var es := responses[i].entities;
      if |es| > 0 {
        ProjectIdempotent(es[0]);
      }
    }
  }

  /** A number the detector found: its value and the inclusive character span it came from. */
  datatype NumberSpan = NumberSpan(value: int, start: int, end: int)

  /** The text of a span, cut from `text` with Python slicing, end index inclusive. */
  function Surface(text: string, sp: NumberSpan): (r: string)
    ensures 0 <= sp.start <= sp.end < |text| ==> r == text[sp.start..sp.end + 1]
    ensures 0 <= sp.end + 1 <= sp.start ==> r == []
    ensures |r| <= |text|
  {
    PySlice(text, sp.start, sp.end + 1)
  }

  /** The replacement loop: each span's surface text, cut from the original `text`, is replaced at
      every occurrence in the running text by the number's digits. */
  function ReplaceSpans(text: string, running: string, spans: seq<NumberSpan>): (r: string)
    ensures (forall i :: 0 <= i < |spans| ==>
               0 < |IntToString(spans[i].value)| <= |Surface(text, spans[i])|) ==> |r| <= |running|
    decreases |spans|
  {
    if |spans| == 0 then running
    else
      var pat, sub := Surface(text, spans[0]), IntToString(spans[0].value);
      var next := Replace(running, pat, sub);
      assert 0 < |sub| <= |pat| ==> |next| <= |running| by {
        if 0 < |sub| <= |pat| {
          ReplaceLength(running, pat, sub);
          NonPositiveProduct(CountOccurrences(running, pat), |sub| - |pat|);
        }
      }
      ReplaceSpans(text, next, spans[1..])
  }

  lemma NonPositiveProduct(n: nat, d: int)
    requires d <= 0
    ensures n * d <= 0
  {
  }

  /** `apply_number_parser` with the detector's spans given. */
  function ApplyNumberParser(text: string, spans: seq<NumberSpan>): (r: string)
    ensures |spans| == 0 ==> r == text
  {
    ReplaceSpans(text, text, spans)
  }

  /** One more span replaces its surface, taken from the original text rather than the running
      one, in the result of the earlier spans. */
  lemma {:induction false} ReplaceSpansSnoc(text: string, running: string, spans: seq<NumberSpan>, sp: NumberSpan)
    ensures ReplaceSpans(text, running, spans + [sp])
      == Replace(ReplaceSpans(text, running, spans), Surface(text, sp), IntToString(sp.value))
    decreases |spans|
  {
    if |spans| > 0 {
      assert (spans + [sp])[1..] == spans[1..] + [sp];
      ReplaceSpansSnoc(text, Replace(running, Surface(text, spans[0]), IntToString(spans[0].value)), spans[1..], sp);
    } else {
      assert spans + [sp] == [sp];
    }
  }

  lemma ApplyNumberParserSnoc(text: string, spans: seq<NumberSpan>, sp: NumberSpan)
    ensures ApplyNumberParser(text, spans + [sp])
      == Replace(ApplyNumberParser(text, spans), Surface(text, sp), IntToString(sp.value))
  {
    ReplaceSpansSnoc(text, text, spans, sp);
  }

  /** Spans whose text is already the number's digits leave the text as it is. */
  lemma {:induction false} ReplaceSpansOfDigits(text: string, running: string, spans: seq<NumberSpan>)
    requires forall i :: 0 <= i < |spans| ==> Surface(text, spans[i]) == IntToString(spans[i].value)
    ensures ReplaceSpans(text, running, spans) == running
    decreases |spans|
  {
    if |spans| > 0 {
      ReplaceSelf(running, Surface(text, spans[0]));
      ReplaceSpansOfDigits(text, running, spans[1..]);
    }
  }

  lemma ReplaceMiss(s: string, pat: string, sub: string)
    requires 0 < |pat| <= |s| && s[0] != pat[0]
    ensures Replace(s, pat, sub) == [s[0]] + Replace(s[1..], pat, sub)
  {
  }

  /** Every occurrence of a span's words is replaced, not only the one the span points at. */
  lemma NumberParserReplacesEveryOccurrence()
    ensures ApplyNumberParser("one one", [NumberSpan(1, 0, 2)]) == "1 1"
  {
    assert Surface("one one", NumberSpan(1, 0, 2)) == "one";
    assert IntToString(1) == "1";
    assert Replace("one", "one", "1") == "1";
    ReplaceMiss(" one", "one", "1");
    assert Replace(" one", "one", "1") == " 1";
  }

  /** Which of the driver's transforms are switched on. */
  datatype Stages = Stages(slang: bool, nemo: bool, numbers: bool)

  /** `transform_text`: normalization, then inverse text normalization, then number replacement,
      each only when enabled; the number detector runs on the text that reaches its stage. */
  function TransformText(text: string, st: Stages, inverse: string -> string,
                         detect: string -> seq<NumberSpan>): (r: string)
    ensures !st.slang && !st.nemo && !st.numbers ==> r == text
    ensures st.slang && !st.nemo && !st.numbers ==> IsNormal(r, DriverSpecials)
  {
    var a := if st.slang then DriverNormalize(text) else text;
    var b := if st.nemo then inverse(a) else a;
    if st.numbers then ApplyNumberParser(b, detect(b)) else b
  }

  /** With only normalization enabled, transforming twice is transforming once. */
  lemma TransformNormalizeOnlyIdempotent(text: string, inverse: string -> string, detect: string -> seq<NumberSpan>)
    ensures var st := Stages(true, false, false);
      TransformText(TransformText(text, st, inverse, detect), st, inverse, detect)
        == TransformText(text, st, inverse, detect)
  {
    SpecialsHavePunctuationOnly();
    NormalizeIdempotent(text, DriverSpecials);
  }

  /** With only number replacement enabled and a detector that finds nothing new in digits, a
      transcript whose detected spans already read as digits is left unchanged. */
  lemma TransformDigitsUnchanged(text: string, inverse: string -> string, detect: string -> seq<NumberSpan>)
    requires forall i :: 0 <= i < |detect(text)| ==> Surface(text, detect(text)[i]) == IntToString(detect(text)[i].value)
    ensures TransformText(text, Stages(false, false, true), inverse, detect) == text
  {
    ReplaceSpansOfDigits(text, text, detect(text));
  }
}

=== FILE: entity_metrics.dfy ===
/** Entity scoring of metrics.py: per-entity true-positive / false-positive / false-negative
    counters accumulated over gold/predicted response pairs, the reverse lookup that re-files a
    misplaced token under the gold slot that really holds it, and the precision / recall / F1
    derived from the counters. */
module EntityMetrics {
  import opened Wrappers
  import opened Text
  import opened Values
  import opened MetricsFlatten

  /** The entity names that are scored (metrics.py:63-70); every other name is skipped. */
  const Tracked: seq<string> := [
    "payments_bill_type",
    "payments_bill_action",
    "payments_navigation_target",
    "payments_transaction_action",
    "payments_name",
    "payments_transaction_amount"
  ]

  /** The key `find_true_tag` answers when no gold entity holds the word. */
  const Missing: string := "missing"

  // ---------------------------------------------------------------------------------------------
  // Reverse lookup

  /** The position of the first gold entity whose value holds `w` (Python `w in value`), or `None`;
      `TypeError` if a value met before that position does not support `in`. */
  function FirstHolder(w: string, gold: Dict): (r: Result<Option<nat>>)
    ensures r.Ok? && r.value.Some? ==>
      && r.value.value < |gold|
      && Contains(gold[r.value.value].value, w) == Ok(true)
      && forall j :: 0 <= j < r.value.value ==> Contains(gold[j].value, w) == Ok(false)
    ensures r.Ok? && r.value.None? ==> forall j :: 0 <= j < |gold| ==> Contains(gold[j].value, w) == Ok(false)
    ensures r.Err? ==> exists j :: 0 <= j < |gold| && Contains(gold[j].value, w).Err?
  {
    if |gold| == 0 then Ok(None)
    else
      var here :- Contains(gold[0].value, w);
      if here then Ok(Some(0))
      else
        var rest :- FirstHolder(w, gold[1..]);
        match rest
        case None => Ok(None)
        case Some(i) => Ok(Some(i + 1))
  }

  /** `find_true_tag(word, expected_entities)` (metrics.py:55-59): the first key, in dict order,
      whose value holds `word.strip()`; `"missing"` if there is none. */
  function FindTrueTag(word: string, gold: Dict): (r: Result<string>)
    ensures r.Ok? && r.value != Missing ==>
      exists i :: 0 <= i < |gold| && gold[i].key == r.value && Contains(gold[i].value, Strip(word)) == Ok(true)
    ensures r == Ok(Missing) ==>
      (forall j :: 0 <= j < |gold| ==> Contains(gold[j].value, Strip(word)) == Ok(false))
      || (exists i :: 0 <= i < |gold| && gold[i].key == Missing && Contains(gold[i].value, Strip(word)) == Ok(true))
    ensures r.Err? <==> FirstHolder(Strip(word), gold).Err?
  {
    var found :- FirstHolder(Strip(word), gold);
    match found
    case None => Ok(Missing)
    case Some(i) => Ok(gold[i].key)
  }

  /** When the gold values are lists, the lookup never raises and finds exactly the first key
      whose list holds the stripped word. */
  lemma FindTrueTagOnLists(word: string, gold: Dict)
    requires forall j :: 0 <= j < |gold| ==> gold[j].value.List?
    ensures FindTrueTag(word, gold).Ok?
    ensures (exists j :: 0 <= j < |gold| && Str(Strip(word)) in gold[j].value.items) ==>
      var i := FirstHolder(Strip(word), gold).value.value;
      && FindTrueTag(word, gold) == Ok(gold[i].key)
      && Str(Strip(word)) in gold[i].value.items
      && forall j :: 0 <= j < i ==> Str(Strip(word)) !in gold[j].value.items
    ensures (forall j :: 0 <= j < |gold| ==> Str(Strip(word)) !in gold[j].value.items) ==>
      FindTrueTag(word, gold) == Ok(Missing)
  {
  }

  // ---------------------------------------------------------------------------------------------
  // Counters

  /** The three counters of one key. */
  datatype Tally = Tally(tp: nat, fp: nat, fn: nat)

  const Zero := Tally(0, 0, 0)

  function Plus(a: Tally, b: Tally): Tally {
    Tally(a.tp + b.tp, a.fp + b.fp, a.fn + b.fn)
  }

  /** One key of the `counts` defaultdict. */
  datatype Entry = Entry(key: string, tally: Tally)

  /** `counts`: its entries in the order the keys were first touched. */
  type Counts = seq<Entry>

  /** `k` has an entry: the code has touched `counts[k]`. */
  ghost predicate Touched(c: Counts, k: string) {
    exists i :: 0 <= i < |c| && c[i].key == k
  }

  /** The counters summed over every key: `tp_sum`, `fp_sum`, `fn_sum` (metrics.py:102-106). */
  function Total(c: Counts): Tally {
    if |c| == 0 then Zero else Plus(c[0].tally, Total(c[1..]))
  }

  /** `counts[k]` read through the defaultdict: a key never touched reads as zero. */
  function TallyOf(c: Counts, k: string): Tally {
    if |c| == 0 then Zero else if c[0].key == k then c[0].tally else TallyOf(c[1..], k)
  }

  /** `counts[k][...] += d`: touches `k`, which keeps its position if it already had an entry and
      is appended otherwise. */
  function Bump(c: Counts, k: string, d: Tally): (r: Counts)
    ensures |r| == if Touched(c, k) then |c| else |c| + 1
    ensures forall i :: 0 <= i < |c| ==> r[i].key == c[i].key
    ensures Touched(r, k)
  {
    if |c| == 0 then
      var r := [Entry(k, d)];
      assert r[0].key == k;
      r
    else if c[0].key == k then
      var r := [Entry(k, Plus(c[0].tally, d))] + c[1..];
      assert r[0].key == k && c[0].key == k;
      r
    else
      var rest := Bump(c[1..], k, d);
      var r := [c[0]] + rest;
      TouchedTail(c, k);
      TouchedCons(c[0], rest, k);
      r
  }

  lemma TouchedTail(c: Counts, k: string)
    requires |c| > 0 && c[0].key != k
    ensures Touched(c, k) <==> Touched(c[1..], k)
  {
  }

  lemma TouchedCons(e: Entry, rest: Counts, k: string)
    requires Touched(rest, k)
    ensures Touched([e] + rest, k)
  {
    var i :| 0 <= i < |rest| && rest[i].key == k;
    assert ([e] + rest)[i + 1].key == k;
  }

  /** A bump adds exactly `d` to the counters summed over all keys. */
  lemma {:induction false} BumpTotal(c: Counts, k: string, d: Tally)
    ensures Total(Bump(c, k, d)) == Plus(Total(c), d)
  {
    if |c| > 0 && c[0].key != k {
      BumpTotal(c[1..], k, d);
      assert Bump(c, k, d)[1..] == Bump(c[1..], k, d);
    } else if |c| > 0 {
      assert Bump(c, k, d)[1..] == c[1..];
    }
  }

  /** A bump adds `d` to `k` and leaves every other key as it was. */
  lemma {:induction false} BumpTallyOf(c: Counts, k: string, d: Tally, k': string)
    ensures TallyOf(Bump(c, k, d), k') == if k' == k then Plus(TallyOf(c, k), d) else TallyOf(c, k')
  {
    if |c| > 0 && c[0].key != k {
      BumpTallyOf(c[1..], k, d, k');
      assert Bump(c, k, d)[1..] == Bump(c[1..], k, d);
    } else if |c| > 0 {
      assert Bump(c, k, d)[1..] == c[1..];
    }
  }

  // ---------------------------------------------------------------------------------------------
  // Counting one pair

  /** 1 when the predicted token `v` is found, lower-cased, in the gold value `gv`. */
  function HitOf(v: Value, gv: Value): nat {
    if v.Str? && Contains(gv, LowerStr(v.s)) == Ok(true) then 1 else 0
  }

  /** How many of the predicted tokens are found, lower-cased, in the gold value. */
  function Hits(vals: seq<Value>, gv: Value): (n: nat)
    ensures n <= |vals|
  {
    if |vals| == 0 then 0 else HitOf(vals[0], gv) + Hits(vals[1..], gv)
  }

  /** Only `entity`'s false positives, and other keys' false positives, may differ. */
  ghost predicate OnlyFalsePositivesElsewhere(c: Counts, r: Counts, entity: string) {
    forall k :: k != entity ==> TallyOf(r, k).tp == TallyOf(c, k).tp && TallyOf(r, k).fn == TallyOf(c, k).fn
  }

  /** `r` is `c` after `n` predicted tokens of `entity`, `h` of them found: `h` more true
      positives and `n - h` more false negatives of `entity`, `n - h` more false positives in all,
      and no other key's true positives or false negatives touched. */
  ghost predicate Scored(c: Counts, r: Counts, entity: string, h: nat, n: nat) {
    && h <= n
    && Total(r) == Plus(Total(c), Tally(h, n - h, n - h))
    && TallyOf(r, entity).tp == TallyOf(c, entity).tp + h
    && TallyOf(r, entity).fn == TallyOf(c, entity).fn + (n - h)
    && OnlyFalsePositivesElsewhere(c, r, entity)
  }

  /** Scoring tokens in two runs adds up. */
  lemma ScoredTrans(c: Counts, c1: Counts, r: Counts, entity: string, h1: nat, n1: nat, h2: nat, n2: nat)
    requires Scored(c, c1, entity, h1, n1) && Scored(c1, r, entity, h2, n2)
    ensures Scored(c, r, entity, h1 + h2, n1 + n2)
  {
    PlusTrans(Total(c), Total(c1), Total(r), h1, n1, h2, n2);
  }

  lemma PlusZero(t: Tally)
    ensures Plus(t, Zero) == t
  {
  }

  lemma PlusTrans(a: Tally, b: Tally, x: Tally, h1: nat, n1: nat, h2: nat, n2: nat)
    requires h1 <= n1 && h2 <= n2
    requires b == Plus(a, Tally(h1, n1 - h1, n1 - h1))
    requires x == Plus(b, Tally(h2, n2 - h2, n2 - h2))
    ensures x == Plus(a, Tally(h1 + h2, (n1 + n2) - (h1 + h2), (n1 + n2) - (h1 + h2)))
  {
  }

  /** One predicted token when both sides have `entity` (metrics.py:92-100). A token found
      (lower-cased) in the gold value is one true positive of `entity`; any other token is one
      false negative of `entity` and one false positive of the key `find_true_tag` names. A
      non-string token raises `AttributeError` at `.lower()`. */
  function ScoreToken(c: Counts, entity: string, v: Value, gv: Value, gold: Dict, indexed: bool): (r: Result<Counts>)
    ensures !v.Str? ==> r == Err(AttributeError)
    ensures r.Ok? ==> Scored(c, r.value, entity, HitOf(v, gv), 1)
  {
    if !v.Str? then Err(AttributeError)
    else
      var hit :- Contains(gv, LowerStr(v.s));
      if hit then Ok(CountHit(c, entity))
      else
        var tag :- FindTrueTag(v.s, gold);
        if !indexed then Err(KeyError)
        else Ok(CountMiss(c, entity, tag))
  }

  /** A found token: one true positive of `entity`, nothing else. */
  function CountHit(c: Counts, entity: string): (r: Counts)
    ensures Total(r) == Plus(Total(c), Tally(1, 0, 0))
    ensures TallyOf(r, entity) == Plus(TallyOf(c, entity), Tally(1, 0, 0))
    ensures forall k :: k != entity ==> TallyOf(r, k) == TallyOf(c, k)
  {
    var r := Bump(c, entity, Tally(1, 0, 0));
    BumpTotal(c, entity, Tally(1, 0, 0));
    BumpTallyOf(c, entity, Tally(1, 0, 0), entity);
    forall k | k != entity ensures TallyOf(r, k) == TallyOf(c, k) {
      BumpTallyOf(c, entity, Tally(1, 0, 0), k);
    }
    r
  }

  /** A token not found: one false negative of `entity` and one false positive of `tag`. */
  function CountMiss(c: Counts, entity: string, tag: string): (r: Counts)
    ensures Total(r) == Plus(Total(c), Tally(0, 1, 1))
    ensures TallyOf(r, entity).tp == TallyOf(c, entity).tp
    ensures TallyOf(r, entity).fn == TallyOf(c, entity).fn + 1
    ensures TallyOf(r, tag).fp == TallyOf(c, tag).fp + 1
    ensures OnlyFalsePositivesElsewhere(c, r, entity)
  {
    MissTotal(c, entity, tag);
    MissTallies(c, entity, tag);
    Bump(Bump(c, entity, Tally(0, 0, 1)), tag, Tally(0, 1, 0))
  }

  lemma MissTotal(c: Counts, entity: string, tag: string)
    ensures Total(Bump(Bump(c, entity, Tally(0, 0, 1)), tag, Tally(0, 1, 0))) == Plus(Total(c), Tally(0, 1, 1))
  {
    var c1 := Bump(c, entity, Tally(0, 0, 1));
    BumpTotal(c, entity, Tally(0, 0, 1));
    BumpTotal(c1, tag, Tally(0, 1, 0));
    PlusMiss(Total(c), Total(c1), Total(Bump(c1, tag, Tally(0, 1, 0))));
  }

  lemma PlusMiss(a: Tally, b: Tally, x: Tally)
    requires b == Plus(a, Tally(0, 0, 1)) && x == Plus(b, Tally(0, 1, 0))
    ensures x == Plus(a, Tally(0, 1, 1))
  {
  }

  lemma MissTallies(c: Counts, entity: string, tag: string)
    ensures var r := Bump(Bump(c, entity, Tally(0, 0, 1)), tag, Tally(0, 1, 0));
      && TallyOf(r, entity).tp == TallyOf(c, entity).tp
      && TallyOf(r, entity).fn == TallyOf(c, entity).fn + 1
      && TallyOf(r, tag).fp == TallyOf(c, tag).fp + 1
      && OnlyFalsePositivesElsewhere(c, r, entity)
  {
    var c1 := Bump(c, entity, Tally(0, 0, 1));
    var r := Bump(c1, tag, Tally(0, 1, 0));
    BumpTallyOf(c, entity, Tally(0, 0, 1), entity);
    BumpTallyOf(c1, tag, Tally(0, 1, 0), entity);
    BumpTallyOf(c, entity, Tally(0, 0, 1), tag);
    BumpTallyOf(c1, tag, Tally(0, 1, 0), tag);
    forall k | k != entity
      ensures TallyOf(r, k).tp == TallyOf(c, k).tp && TallyOf(r, k).fn == TallyOf(c, k).fn
    {
      BumpTallyOf(c, entity, Tally(0, 0, 1), k);
      BumpTallyOf(c1, tag, Tally(0, 1, 0), k);
    }
  }

  /** A miss leaves every key's false positives as they were except the key it is filed under,
      which gains one. */
  lemma MissFalsePositives(c: Counts, entity: string, tag: string, k: string)
    ensures TallyOf(CountMiss(c, entity, tag), k).fp == TallyOf(c, k).fp + (if k == tag then 1 else 0)
  {
    var c1 := Bump(c, entity, Tally(0, 0, 1));
    BumpTallyOf(c, entity, Tally(0, 0, 1), k);
    BumpTallyOf(c1, tag, Tally(0, 1, 0), k);
  }

  /** A token found in the gold value is one true positive of `entity` and nothing else. */
  lemma ScoreTokenHit(c: Counts, entity: string, v: Value, gv: Value, gold: Dict, indexed: bool)
    requires v.Str? && Contains(gv, LowerStr(v.s)) == Ok(true)
    ensures ScoreToken(c, entity, v, gv, gold, indexed) == Ok(CountHit(c, entity))
    ensures TallyOf(ScoreToken(c, entity, v, gv, gold, indexed).value, entity).tp == TallyOf(c, entity).tp + 1
    ensures forall k :: TallyOf(ScoreToken(c, entity, v, gv, gold, indexed).value, k).fp == TallyOf(c, k).fp
  {
    var r := CountHit(c, entity);
    assert ScoreToken(c, entity, v, gv, gold, indexed) == Ok(r);
    assert forall k :: TallyOf(r, k).fp == TallyOf(c, k).fp by {
      forall k ensures TallyOf(r, k).fp == TallyOf(c, k).fp {
        if k != entity {
          assert TallyOf(r, k) == TallyOf(c, k);
        }
      }
    }
  }

  /** A token not found in the gold value scores exactly when the reverse lookup answers and the
      gold item has the `index` key its error line reads; its false positive is filed under the
      key `find_true_tag` names (metrics.py:98-100). */
  lemma ScoreTokenMiss(c: Counts, entity: string, v: Value, gv: Value, gold: Dict, indexed: bool)
    requires v.Str? && Contains(gv, LowerStr(v.s)) == Ok(false)
    ensures ScoreToken(c, entity, v, gv, gold, indexed).Ok? <==> FindTrueTag(v.s, gold).Ok? && indexed
    ensures FindTrueTag(v.s, gold).Ok? && !indexed ==> ScoreToken(c, entity, v, gv, gold, indexed) == Err(KeyError)
    ensures FindTrueTag(v.s, gold).Ok? && indexed ==>
      var tag := FindTrueTag(v.s, gold).value;
      && ScoreToken(c, entity, v, gv, gold, indexed) == Ok(CountMiss(c, entity, tag))
      && forall k :: TallyOf(ScoreToken(c, entity, v, gv, gold, indexed).value, k).fp
                    == TallyOf(c, k).fp + (if k == tag then 1 else 0)
  {
    var r := ScoreToken(c, entity, v, gv, gold, indexed);
    var t := FindTrueTag(v.s, gold);
    if t.Err? {
      assert r == Err(t.fault);
    } else if !indexed {
      assert r == Err(KeyError);
    } else {
      var tag := t.value;
      assert r == Ok(CountMiss(c, entity, tag));
      forall k ensures TallyOf(CountMiss(c, entity, tag), k).fp == TallyOf(c, k).fp + (if k == tag then 1 else 0) {
        MissFalsePositives(c, entity, tag, k);
      }
    }
  }

  /** Every value is a string. */
  predicate AllStr(vals: seq<Value>) {
    |vals| == 0 || (vals[0].Str? && AllStr(vals[1..]))
  }

  /** The loop over predicted tokens when both sides have `entity` (metrics.py:92-100); it stops
      at the first token that fails. */
  function ScoreTokens(c: Counts, entity: string, vals: seq<Value>, gv: Value, gold: Dict, indexed: bool): (r: Result<Counts>)
    ensures r.Ok? ==> AllStr(vals)
    decreases |vals|
  {
    if |vals| == 0 then Ok(c)
    else
      var c1 :- ScoreToken(c, entity, vals[0], gv, gold, indexed);
      ScoreTokens(c1, entity, vals[1..], gv, gold, indexed)
  }

  /** Every token counts once, as a hit of `entity` or as a miss of `entity` filed as a false
      positive under some key. */
  lemma {:induction false} ScoreTokensCounts(c: Counts, entity: string, vals: seq<Value>, gv: Value, gold: Dict, indexed: bool)
    requires ScoreTokens(c, entity, vals, gv, gold, indexed).Ok?
    ensures Scored(c, ScoreTokens(c, entity, vals, gv, gold, indexed).value, entity, Hits(vals, gv), |vals|)
    decreases |vals|
  {
    if |vals| == 0 {
      ScoredNone(c, entity);
    } else {
      var c1 := ScoreToken(c, entity, vals[0], gv, gold, indexed).value;
      ScoreTokensCounts(c1, entity, vals[1..], gv, gold, indexed);
      ScoredStep(c, c1, ScoreTokens(c1, entity, vals[1..], gv, gold, indexed).value, entity, vals, gv);
    }
  }

  /** How many of the predicted tokens miss the gold value and are filed, by the reverse lookup,
      under the key `k`. */
  function MissesTo(vals: seq<Value>, gv: Value, gold: Dict, k: string): nat
    decreases |vals|
  {
    if |vals| == 0 then 0
    else
      var v := vals[0];
      var here := if v.Str? && Contains(gv, LowerStr(v.s)) == Ok(false) && FindTrueTag(v.s, gold) == Ok(k) then 1 else 0;
      here + MissesTo(vals[1..], gv, gold, k)
  }

  /** The false positives of every key grow by exactly the number of missed tokens the reverse
      lookup files under that key: a miss is never charged to any other key. */
  lemma {:induction false} ScoreTokensFalsePositives(c: Counts, entity: string, vals: seq<Value>, gv: Value, gold: Dict, k: string, indexed: bool)
    ensures ScoreTokens(c, entity, vals, gv, gold, indexed).Ok? ==>
      TallyOf(ScoreTokens(c, entity, vals, gv, gold, indexed).value, k).fp == TallyOf(c, k).fp + MissesTo(vals, gv, gold, k)
    decreases |vals|
  {
    if |vals| > 0 && ScoreTokens(c, entity, vals, gv, gold, indexed).Ok? {
      var v := vals[0];
      var c1 := ScoreToken(c, entity, v, gv, gold, indexed).value;
      ScoreTokensFalsePositives(c1, entity, vals[1..], gv, gold, k, indexed);
      if Contains(gv, LowerStr(v.s)) == Ok(true) {
        ScoreTokenHit(c, entity, v, gv, gold, indexed);
      } else {
        ScoreTokenMiss(c, entity, v, gv, gold, indexed);
      }
    }
  }

  lemma ScoredNone(c: Counts, entity: string)
    ensures Scored(c, c, entity, 0, 0)
  {
    PlusZero(Total(c));
  }

  lemma ScoredStep(c: Counts, c1: Counts, r: Counts, entity: string, vals: seq<Value>, gv: Value)
    requires |vals| > 0
    requires Scored(c, c1, entity, HitOf(vals[0], gv), 1)
    requires Scored(c1, r, entity, Hits(vals[1..], gv), |vals[1..]|)
    ensures Scored(c, r, entity, Hits(vals, gv), |vals|)
  {
    ScoredTrans(c, c1, r, entity, HitOf(vals[0], gv), 1, Hits(vals[1..], gv), |vals| - 1);
  }

  /** How one entity name of a matched pair changes the counters (metrics.py:80-100): untracked
      names are skipped; a name only predicted adds `len(value)` false positives to itself; a
      name only in gold adds `len(value)` false negatives to itself; a name on both sides scores
      its predicted tokens one by one. */
  function ScoreEntity(c: Counts, entity: string, pred: Dict, gold: Dict, indexed: bool): (r: Result<Counts>)
    ensures entity !in Tracked ==> r == Ok(c)
  {
    if entity !in Tracked then Ok(c)
    else
      match (Get(pred, entity), Get(gold, entity))
      case (Some(pv), None) =>
        var n :- Len(pv);
        if !indexed then Err(KeyError)
        else Ok(Bump(c, entity, Tally(0, n, 0)))
      case (None, Some(gv)) =>
        var n :- Len(gv);
        if !indexed then Err(KeyError)
        else Ok(Bump(c, entity, Tally(0, 0, n)))
      case (Some(pv), Some(gv)) =>
        var vals :- Iterate(pv);
        ScoreTokens(c, entity, vals, gv, gold, indexed)
      case (None, None) => Ok(c)
  }

  /** An entity only predicted adds the length of its value to its own false positives and
      changes nothing else; its error line needs the gold item's `index` (metrics.py:83-86). */
  lemma PredictedOnlyCountsFalsePositives(c: Counts, entity: string, pred: Dict, gold: Dict, indexed: bool)
    requires entity in Tracked && HasKey(pred, entity) && !HasKey(gold, entity)
    requires Len(Get(pred, entity).value).Ok?
    ensures !indexed ==> ScoreEntity(c, entity, pred, gold, indexed) == Err(KeyError)
    ensures indexed ==> var n := Len(Get(pred, entity).value).value;
      && ScoreEntity(c, entity, pred, gold, indexed).Ok?
      && var r := ScoreEntity(c, entity, pred, gold, indexed).value;
      && TallyOf(r, entity) == Plus(TallyOf(c, entity), Tally(0, n, 0))
      && Total(r) == Plus(Total(c), Tally(0, n, 0))
      && forall k :: k != entity ==> TallyOf(r, k) == TallyOf(c, k)
  {
    var n := Len(Get(pred, entity).value).value;
    BumpTotal(c, entity, Tally(0, n, 0));
    forall k ensures TallyOf(Bump(c, entity, Tally(0, n, 0)), k) == if k == entity then Plus(TallyOf(c, entity), Tally(0, n, 0)) else TallyOf(c, k) {
      BumpTallyOf(c, entity, Tally(0, n, 0), k);
    }
  }

  /** An entity only in gold adds the length of its value to its own false negatives and changes
      nothing else; its error line needs the gold item's `index` (metrics.py:87-90). */
  lemma GoldOnlyCountsFalseNegatives(c: Counts, entity: string, pred: Dict, gold: Dict, indexed: bool)
    requires entity in Tracked && !HasKey(pred, entity) && HasKey(gold, entity)
    requires Len(Get(gold, entity).value).Ok?
    ensures !indexed ==> ScoreEntity(c, entity, pred, gold, indexed) == Err(KeyError)
    ensures indexed ==> var n := Len(Get(gold, entity).value).value;
      && ScoreEntity(c, entity, pred, gold, indexed).Ok?
      && var r := ScoreEntity(c, entity, pred, gold, indexed).value;
      && TallyOf(r, entity) == Plus(TallyOf(c, entity), Tally(0, 0, n))
      && Total(r) == Plus(Total(c), Tally(0, 0, n))
      && forall k :: k != entity ==> TallyOf(r, k) == TallyOf(c, k)
  {
    var n := Len(Get(gold, entity).value).value;
    BumpTotal(c, entity, Tally(0, 0, n));
    forall k ensures TallyOf(Bump(c, entity, Tally(0, 0, n)), k) == if k == entity then Plus(TallyOf(c, entity), Tally(0, 0, n)) else TallyOf(c, k) {
      BumpTallyOf(c, entity, Tally(0, 0, n), k);
    }
  }

  /** An entity on both sides: each predicted token is either one true positive of the entity or
      one false negative of it plus one false positive somewhere, so summed false positives and
      false negatives grow together and the entity's `tp + fn` grows by the number of tokens. */
  lemma BothSidesConservesTokens(c: Counts, entity: string, pred: Dict, gold: Dict, indexed: bool)
    requires entity in Tracked && HasKey(pred, entity) && HasKey(gold, entity)
    ensures ScoreEntity(c, entity, pred, gold, indexed).Ok? ==>
      && Iterate(Get(pred, entity).value).Ok?
      && var vals := Iterate(Get(pred, entity).value).value;
      var r := ScoreEntity(c, entity, pred, gold, indexed).value;
      && TallyOf(r, entity).tp + TallyOf(r, entity).fn == TallyOf(c, entity).tp + TallyOf(c, entity).fn + |vals|
      && Total(r).fp - Total(c).fp == Total(r).fn - Total(c).fn
      && Total(r).tp + Total(r).fn == Total(c).tp + Total(c).fn + |vals|
  {
    if ScoreEntity(c, entity, pred, gold, indexed).Ok? {
      var gv := Get(gold, entity).value;
      var vals := Iterate(Get(pred, entity).value).value;
      assert ScoreEntity(c, entity, pred, gold, indexed) == ScoreTokens(c, entity, vals, gv, gold, indexed);
      ScoreTokensCounts(c, entity, vals, gv, gold, indexed);
    }
  }

  /** The keys only `gold` has, in gold order. */
  function GoldOnlyKeys(gold: Dict, pred: Dict): (r: seq<string>)
    ensures forall k :: k in r <==> HasKey(gold, k) && !HasKey(pred, k)
    ensures UniqueKeys(gold) ==> forall i, j :: 0 <= i < j < |r| ==> r[i] != r[j]
  {
    if |gold| == 0 then []
    else
      var rest := GoldOnlyKeys(gold[1..], pred);
      assert forall k :: HasKey(gold, k) <==> k == gold[0].key || HasKey(gold[1..], k) by {
        forall k ensures HasKey(gold, k) <==> k == gold[0].key || HasKey(gold[1..], k) {
          if HasKey(gold, k) && k != gold[0].key {
            var i :| 0 <= i < |gold| && gold[i].key == k;
            assert gold[1..][i - 1].key == k;
          }
        }
      }
      if HasKey(pred, gold[0].key) then rest
      else
        [gold[0].key] + rest
  }

  /** `set(p_entities.keys()) | set(e_entities.keys())` (metrics.py:79), visited as the predicted
      keys followed by the keys only gold has. Python leaves the visiting order to the set's
      hashing; the counters do not depend on it. */
  function EntityNames(pred: Dict, gold: Dict): (r: seq<string>)
    ensures forall k :: k in r <==> HasKey(pred, k) || HasKey(gold, k)
    ensures UniqueKeys(pred) && UniqueKeys(gold) ==> forall i, j :: 0 <= i < j < |r| ==> r[i] != r[j]
  {
    var p := Keys(pred);
    var g := GoldOnlyKeys(gold, pred);
    assert forall i :: 0 <= i < |p| ==> HasKey(pred, p[i]);
    p + g
  }

  /** `r` is `c` with counters only added to: no summed counter shrinks, and no name outside
      `Tracked` gains a true positive or a false negative (such a name can only be charged the
      false positive of a misplaced token). */
  ghost predicate Advanced(c: Counts, r: Counts) {
    && Total(c).tp <= Total(r).tp && Total(c).fp <= Total(r).fp && Total(c).fn <= Total(r).fn
    && forall k :: k !in Tracked ==> TallyOf(r, k).tp == TallyOf(c, k).tp && TallyOf(r, k).fn == TallyOf(c, k).fn
  }

  lemma AdvancedRefl(c: Counts)
    ensures Advanced(c, c)
  {
  }

  lemma AdvancedTrans(c: Counts, c1: Counts, r: Counts)
    requires Advanced(c, c1) && Advanced(c1, r)
    ensures Advanced(c, r)
  {
  }

  /** Bumping a tracked name advances the counters. */
  lemma BumpAdvances(c: Counts, entity: string, d: Tally)
    requires entity in Tracked
    ensures Advanced(c, Bump(c, entity, d))
  {
    BumpTotal(c, entity, d);
    forall k | k !in Tracked
      ensures TallyOf(Bump(c, entity, d), k) == TallyOf(c, k)
    {
      BumpTallyOf(c, entity, d, k);
    }
  }

  /** Scoring the tokens of a tracked name advances the counters. */
  lemma ScoredAdvances(c: Counts, r: Counts, entity: string, h: nat, n: nat)
    requires entity in Tracked && Scored(c, r, entity, h, n)
    ensures Advanced(c, r)
  {
  }

  /** Scoring one name only adds to the counters. */
  lemma ScoreEntityAdvances(c: Counts, entity: string, pred: Dict, gold: Dict, indexed: bool)
    ensures ScoreEntity(c, entity, pred, gold, indexed).Ok? ==> Advanced(c, ScoreEntity(c, entity, pred, gold, indexed).value)
  {
    var r := ScoreEntity(c, entity, pred, gold, indexed);
    if r.Ok? && entity in Tracked {
      match (Get(pred, entity), Get(gold, entity))
      case (Some(pv), None) =>
        BumpAdvances(c, entity, Tally(0, Len(pv).value, 0));
      case (None, Some(gv)) =>
        BumpAdvances(c, entity, Tally(0, 0, Len(gv).value));
      case (Some(pv), Some(gv)) =>
        var vals := Iterate(pv).value;
        ScoreTokensCounts(c, entity, vals, gv, gold, indexed);
        ScoredAdvances(c, r.value, entity, Hits(vals, gv), |vals|);
      case (None, None) =>
    }
  }

  /** Scores every name of `names` in order. */
  function ScoreEntities(c: Counts, names: seq<string>, pred: Dict, gold: Dict, indexed: bool): (r: Result<Counts>)
    ensures r.Ok? ==> Advanced(c, r.value)
    decreases |names|
  {
    if |names| == 0 then AdvancedRefl(c); Ok(c)
    else
      var c1 :- ScoreEntity(c, names[0], pred, gold, indexed);
      ScoreEntityAdvances(c, names[0], pred, gold, indexed);
      var r := ScoreEntities(c1, names[1..], pred, gold, indexed);
      if r.Ok? then AdvancedTrans(c, c1, r.value); r else r
  }

  /** One `(e, p)` pair of the loop (metrics.py:73-100): a pair whose intents differ is skipped;
      otherwise the first predicted candidate (`IndexError` if there is none) is scored against
      the gold entities. */
  function ScorePair(c: Counts, e: GoldResponse, p: PredResponse): (r: Result<Counts>)
    ensures r.Ok? ==> Advanced(c, r.value)
    ensures e.labeledIntent != p.intent ==> r == Ok(c)
    ensures e.labeledIntent == p.intent && |p.entities| == 0 ==> r == Err(IndexError)
  {
    if e.labeledIntent != p.intent then AdvancedRefl(c); Ok(c)
    else if |p.entities| == 0 then Err(IndexError)
    else
      var pe := p.entities[0];
      ScoreEntities(c, EntityNames(pe, e.labeledEntities), pe, e.labeledEntities, e.hasIndex)
  }

  /** A matched pair whose gold item has no `index` raises `KeyError` as soon as it logs an error:
      here a tracked entity predicted but not labelled (metrics.py:83-86). The same pair with an
      `index` counts one false positive. */
  lemma MissingIndexRaises(c: Counts)
    ensures var p := PredResponse("pay", [[Field("payments_name", List([Str("bob")]))]]);
      && ScorePair(c, GoldResponse("pay", [], false), p) == Err(KeyError)
      && ScorePair(c, GoldResponse("pay", [], true), p).Ok?
      && Total(ScorePair(c, GoldResponse("pay", [], true), p).value).fp == Total(c).fp + 1
  {
    var n := "payments_name";
    var pe := [Field(n, List([Str("bob")]))];
    var p := PredResponse("pay", [pe]);
    assert n in Tracked;
    assert pe[0].key == n;
    assert HasKey(pe, n);
    assert Get(pe, n) == Some(List([Str("bob")]));
    assert !HasKey([], n);
    assert Len(List([Str("bob")])) == Ok(1);
    assert Keys(pe) == [n];
    assert EntityNames(pe, []) == [n];
    PredictedOnlyCountsFalsePositives(c, n, pe, [], false);
    PredictedOnlyCountsFalsePositives(c, n, pe, [], true);
    assert ScorePair(c, GoldResponse("pay", [], false), p) == ScoreEntities(c, [n], pe, [], false);
    assert ScorePair(c, GoldResponse("pay", [], true), p) == ScoreEntities(c, [n], pe, [], true);
    var c1 := ScoreEntity(c, n, pe, [], true).value;
    assert ScoreEntities(c, [n], pe, [], true) == ScoreEntities(c1, [], pe, [], true);
  }

  /** The counting loop over `zip(expected, predicted)`: pairs up to the shorter length. */
  function CountPairs(c: Counts, expected: seq<GoldResponse>, predicted: seq<PredResponse>): (r: Result<Counts>)
    ensures r.Ok? ==> Advanced(c, r.value)
    decreases |expected|
  {
    if |expected| == 0 || |predicted| == 0 then AdvancedRefl(c); Ok(c)
    else
      var c1 :- ScorePair(c, expected[0], predicted[0]);
      var r := CountPairs(c1, expected[1..], predicted[1..]);
      if r.Ok? then AdvancedTrans(c, c1, r.value); r else r
  }

  /** `zip` truncates: items beyond the shorter sequence are never scored. */
  lemma {:induction false} CountPairsTruncates(c: Counts, expected: seq<GoldResponse>, predicted: seq<PredResponse>)
    ensures var m := if |expected| < |predicted| then |expected| else |predicted|;
      CountPairs(c, expected, predicted) == CountPairs(c, expected[..m], predicted[..m])
    decreases |expected|
  {
    var m := if |expected| < |predicted| then |expected| else |predicted|;
    if m > 0 {
      var c1 := ScorePair(c, expected[0], predicted[0]);
      if c1.Ok? {
        CountPairsTruncates(c1.value, expected[1..], predicted[1..]);
        assert expected[..m][1..] == expected[1..][..m - 1];
        assert predicted[..m][1..] == predicted[1..][..m - 1];
      }
    }
  }

  /** Pairs whose intents differ contribute nothing: if no pair's intents agree, the counters are
      untouched. */
  lemma {:induction false} MismatchedIntentsCountNothing(c: Counts, expected: seq<GoldResponse>, predicted: seq<PredResponse>)
    requires forall i :: 0 <= i < |expected| && i < |predicted| ==> expected[i].labeledIntent != predicted[i].intent
    ensures CountPairs(c, expected, predicted) == Ok(c)
    decreases |expected|
  {
    if |expected| > 0 && |predicted| > 0 {
      MismatchedIntentsCountNothing(c, expected[1..], predicted[1..]);
    }
  }

  /** Every value is a list of lower-case strings: the shape flattening leaves a response in. */
  ghost predicate FlatLower(d: Dict) {
    forall i :: 0 <= i < |d| ==> d[i].value.List? && LowerStrings(d[i].value.items)
  }

  ghost predicate LowerStrings(xs: seq<Value>) {
    forall j :: 0 <= j < |xs| ==> xs[j].Str? && IsLowerStr(xs[j].s)
  }

  /** Tokens that all occur in the gold list are all hits. */
  lemma {:induction false} AllTokensHit(c: Counts, entity: string, vals: seq<Value>, gv: Value, gold: Dict, indexed: bool)
    requires gv.List? && LowerStrings(vals)
    requires forall j :: 0 <= j < |vals| ==> vals[j] in gv.items
    ensures Hits(vals, gv) == |vals|
    ensures ScoreTokens(c, entity, vals, gv, gold, indexed).Ok?
    decreases |vals|
  {
    if |vals| > 0 {
      var w := vals[0].s;
      LowerStrOfLower(w);
      assert Str(LowerStr(w)) == vals[0];
      assert Contains(gv, LowerStr(w)) == Ok(true);
      assert HitOf(vals[0], gv) == 1;
      var c1 := CountHit(c, entity);
      assert ScoreToken(c, entity, vals[0], gv, gold, indexed) == Ok(c1);
      var rest := vals[1..];
      assert LowerStrings(rest) && forall j :: 0 <= j < |rest| ==> rest[j] in gv.items by {
        forall j | 0 <= j < |rest| ensures rest[j] == vals[j + 1] { }
      }
      AllTokensHit(c1, entity, rest, gv, gold, indexed);
    }
  }

  /** Scoring a flattened dict against itself: every token is a true positive, so no false
      positive or false negative is counted. */
  lemma {:induction false} SelfScoreHasNoErrors(c: Counts, names: seq<string>, d: Dict, indexed: bool)
    requires FlatLower(d)
    requires forall n :: n in names ==> HasKey(d, n)
    ensures ScoreEntities(c, names, d, d, indexed).Ok?
    ensures Total(ScoreEntities(c, names, d, d, indexed).value).fp == Total(c).fp
    ensures Total(ScoreEntities(c, names, d, d, indexed).value).fn == Total(c).fn
    decreases |names|
  {
    if |names| > 0 {
      var n := names[0];
      var c1 := c;
      if n in Tracked {
        var v := Get(d, n).value;
        var i :| 0 <= i < |d| && d[i] == Field(n, v);
        assert v.List? && LowerStrings(v.items);
        AllTokensHit(c, n, v.items, v, d, indexed);
        c1 := ScoreTokens(c, n, v.items, v, d, indexed).value;
        ScoreTokensCounts(c, n, v.items, v, d, indexed);
      }
      assert ScoreEntity(c, n, d, d, indexed) == Ok(c1);
      SelfScoreHasNoErrors(c1, names[1..], d, indexed);
    }
  }

  /** A prediction identical to its gold response (same intent, first candidate equal to the gold
      entities, already flattened) adds no false positive and no false negative. */
  lemma PerfectPairHasNoErrors(c: Counts, e: GoldResponse, p: PredResponse)
    requires e.labeledIntent == p.intent && |p.entities| > 0 && p.entities[0] == e.labeledEntities
    requires FlatLower(e.labeledEntities)
    ensures ScorePair(c, e, p).Ok?
    ensures Total(ScorePair(c, e, p).value).fp == Total(c).fp
    ensures Total(ScorePair(c, e, p).value).fn == Total(c).fn
  {
    var d := e.labeledEntities;
    SelfScoreHasNoErrors(c, EntityNames(d, d), d, e.hasIndex);
  }

  /** A run of perfect predictions counts no false positive and no false negative at all. */
  lemma {:induction false} PerfectRunHasNoErrors(c: Counts, expected: seq<GoldResponse>, predicted: seq<PredResponse>)
    requires forall i :: 0 <= i < |expected| && i < |predicted| ==>
      && expected[i].labeledIntent == predicted[i].intent
      && |predicted[i].entities| > 0 && predicted[i].entities[0] == expected[i].labeledEntities
      && FlatLower(expected[i].labeledEntities)
    ensures CountPairs(c, expected, predicted).Ok?
    ensures Total(CountPairs(c, expected, predicted).value).fp == Total(c).fp
    ensures Total(CountPairs(c, expected, predicted).value).fn == Total(c).fn
    decreases |expected|
  {
    if |expected| > 0 && |predicted| > 0 {
      PerfectPairHasNoErrors(c, expected[0], predicted[0]);
      var c1 := ScorePair(c, expected[0], predicted[0]).value;
      PerfectRunHasNoErrors(c1, expected[1..], predicted[1..]);
    }
  }

  // ---------------------------------------------------------------------------------------------
  // Scores

  /** Precision, recall and F1 of one key or of the whole run. */
  datatype Scores = Scores(precision: real, recall: real, f1: real)

  /** `a / b`, or 0 when the denominator is 0 (the `except ZeroDivisionError` branches). */
  function Ratio(a: real, b: real): (r: real)
    requires 0.0 <= a <= b || b == 0.0
    ensures 0.0 <= r <= 1.0
    ensures b == 0.0 ==> r == 0.0
    ensures b != 0.0 ==> r * b == a
  {
    if b == 0.0 then 0.0 else a / b
  }

  /** The harmonic mean `2 p r / (p + r)`, or 0 when `p + r` is 0. */
  function F1(p: real, r: real): (f: real)
    requires 0.0 <= p <= 1.0 && 0.0 <= r <= 1.0
    ensures 0.0 <= f <= 1.0
    ensures p + r == 0.0 ==> f == 0.0
  {
    if p + r == 0.0 then 0.0 else F1Bound(p, r); 2.0 * p * r / (p + r)
  }

  lemma F1Bound(p: real, r: real)
    requires 0.0 <= p <= 1.0 && 0.0 <= r <= 1.0 && p + r > 0.0
    ensures 0.0 <= 2.0 * p * r / (p + r) <= 1.0
  {
    TwiceProductAtMost(p, r);
    QuotientAtMostOne(2.0 * p * r, p + r);
  }

  lemma TwiceProductAtMost(p: real, r: real)
    requires 0.0 <= p <= 1.0 && 0.0 <= r <= 1.0
    ensures 0.0 <= 2.0 * p * r <= p + r
  {
    var m := p * r;
    ProductAtMost(p, r);
    ProductAtMost(r, p);
    assert m <= p && m <= r;
    assert 2.0 * m <= p + r;
    assert 2.0 * p * r == 2.0 * m;
  }

  lemma ProductAtMost(a: real, b: real)
    requires a >= 0.0 && 0.0 <= b <= 1.0
    ensures 0.0 <= a * b <= a
  {
  }

  lemma QuotientAtMostOne(a: real, b: real)
    requires 0.0 <= a <= b && b > 0.0
    ensures 0.0 <= a / b <= 1.0
  {
  }

  /** Per-key precision, recall and F1 (metrics.py:108-123), each 0 when its denominator is 0. */
  function KeyScores(t: Tally): (s: Scores)
    ensures 0.0 <= s.precision <= 1.0 && 0.0 <= s.recall <= 1.0 && 0.0 <= s.f1 <= 1.0
    ensures t.tp + t.fp == 0 ==> s.precision == 0.0
    ensures t.tp + t.fn == 0 ==> s.recall == 0.0
    ensures t.tp == 0 ==> s.precision == 0.0 && s.recall == 0.0 && s.f1 == 0.0
    ensures t.tp > 0 ==> (s.precision == 1.0 <==> t.fp == 0) && (s.recall == 1.0 <==> t.fn == 0)
  {
    var p := Ratio(t.tp as real, (t.tp + t.fp) as real);
    var r := Ratio(t.tp as real, (t.tp + t.fn) as real);
    Scores(p, r, F1(p, r))
  }

  /** The closed form of F1 in terms of the counters: `2 tp / (2 tp + fp + fn)`, and 0 without
      true positives. */
  lemma KeyF1ClosedForm(t: Tally)
    ensures KeyScores(t).f1 == if t.tp == 0 then 0.0 else (2 * t.tp) as real / (2 * t.tp + t.fp + t.fn) as real
  {
  }

  lemma F1ClosedForm(tp: real, fp: real, fn: real)
    requires tp > 0.0 && fp >= 0.0 && fn >= 0.0
    ensures var p := tp / (tp + fp);
      var r := tp / (tp + fn);
      2.0 * p * r / (p + r) == 2.0 * tp / (2.0 * tp + fp + fn)
  {
  }

  lemma HarmonicOfRatios(t: real, a: real, b: real, p: real, r: real)
    requires t > 0.0 && a > 0.0 && b > 0.0 && p * a == t && r * b == t
    ensures 2.0 * p * r / (p + r) == 2.0 * t / (a + b)
  {
  }

  /** Scaling numerator and denominator alike keeps a quotient. */
  lemma ScaleQuotient(x: real, y: real, k: real)
    requires y > 0.0 && k > 0.0
    ensures x / y == (x * k) / (y * k)
  {
  }

  /** The result of `compute_entity_metrics`: micro-averaged scores and the per-key F1 in counter
      order. */
  datatype Report = Report(overall: Scores, details: seq<(string, real)>)

  /** The micro-averaged scores (metrics.py:130-133), computed from the summed counters.
      `ZeroDivisionError` exactly when no true positive was counted. */
  function Overall(t: Tally): (r: Result<Scores>)
    ensures r.Err? <==> t.tp == 0
    ensures r.Ok? ==> r.value == KeyScores(t)
    ensures r.Ok? ==> 0.0 < r.value.precision <= 1.0 && 0.0 < r.value.recall <= 1.0 && 0.0 < r.value.f1 <= 1.0
  {
    if t.tp == 0 then Err(ZeroDivisionError)
    else
      KeyF1ClosedForm(t);
      Ok(KeyScores(t))
  }

  /** The F1 of every key, in counter order: `details` (metrics.py:125-128). */
  function Details(c: Counts): (d: seq<(string, real)>)
    ensures |d| == |c|
    ensures forall i :: 0 <= i < |c| ==> d[i] == (c[i].key, KeyScores(c[i].tally).f1)
  {
    seq(|c|, i requires 0 <= i < |c| => (c[i].key, KeyScores(c[i].tally).f1))
  }

  /** `compute_entity_metrics(expected, predicted)` (metrics.py:61-140) on already-flattened
      responses. */
  function ComputeEntityMetrics(expected: seq<GoldResponse>, predicted: seq<PredResponse>): (r: Result<Report>)
    ensures CountPairs([], expected, predicted).Err? ==> r.Err?
    ensures CountPairs([], expected, predicted).Ok? ==>
      (r.Ok? <==> Total(CountPairs([], expected, predicted).value).tp > 0)
    ensures r.Ok? ==>
      var c := CountPairs([], expected, predicted).value;
      && r.value.details == Details(c)
      && r.value.overall == KeyScores(Total(c))
  {
    var c :- CountPairs([], expected, predicted);
    var overall :- Overall(Total(c));
    Ok(Report(overall, Details(c)))
  }

  /** Perfect predictions score 1 on precision, recall and F1, provided at least one token was
      counted; with no token counted the computation raises `ZeroDivisionError`. */
  lemma PerfectRunScoresOne(expected: seq<GoldResponse>, predicted: seq<PredResponse>)
    requires forall i :: 0 <= i < |expected| && i < |predicted| ==>
      && expected[i].labeledIntent == predicted[i].intent
      && |predicted[i].entities| > 0 && predicted[i].entities[0] == expected[i].labeledEntities
      && FlatLower(expected[i].labeledEntities)
    ensures var r := ComputeEntityMetrics(expected, predicted);
      r.Ok? ==> r.value.overall == Scores(1.0, 1.0, 1.0)
    ensures var r := ComputeEntityMetrics(expected, predicted);
      r.Err? ==> r.fault == ZeroDivisionError
  {
    PerfectRunHasNoErrors([], expected, predicted);
  }

  // ---------------------------------------------------------------------------------------------
  // Flatten, then count

  function FlattenGoldAll(gs: seq<GoldResponse>, other: Value -> string): (r: Result<seq<GoldResponse>>)
    ensures r.Ok? <==> forall i :: 0 <= i < |gs| ==> FlattenGold(gs[i], [], other).Ok?
    ensures r.Ok? ==> |r.value| == |gs| && forall i :: 0 <= i < |gs| ==> r.value[i] == FlattenGold(gs[i], [], other).value
  {
    if |gs| == 0 then Ok([])
    else
      var g :- FlattenGold(gs[0], [], other);
      var rest := FlattenGoldAll(gs[1..], other);
      if rest.Err? then Err(rest.fault) else Ok([g] + rest.value)
  }

  function FlattenPredAll(ps: seq<PredResponse>): (r: Result<seq<PredResponse>>)
    ensures r.Ok? <==> forall i :: 0 <= i < |ps| ==> FlattenPred(ps[i]).Ok?
    ensures r.Ok? ==> |r.value| == |ps| && forall i :: 0 <= i < |ps| ==> r.value[i] == FlattenPred(ps[i]).value
  {
    if |ps| == 0 then Ok([])
    else
      var p :- FlattenPred(ps[0]);
      var rest := FlattenPredAll(ps[1..]);
      if rest.Err? then Err(rest.fault) else Ok([p] + rest.value)
  }

  /** `evaluate_entities(gold, pred)` (metrics.py:142-184): every gold response (with nothing
      ignored) and every predicted response is flattened, all of them and not only the zipped
      ones, then the flattened lists are scored. The Python works on deep copies; here values are
      immutable, so the caller's lists are unchanged by construction. */
  function EvaluateEntities(gold: seq<GoldResponse>, pred: seq<PredResponse>, other: Value -> string): (r: Result<Report>)
    ensures (exists i :: 0 <= i < |gold| && FlattenGold(gold[i], [], other).Err?) ==> r.Err?
    ensures (exists i :: 0 <= i < |pred| && FlattenPred(pred[i]).Err?) ==> r.Err?
    ensures (exists i :: 0 <= i < |pred| && |pred[i].entities| == 0) ==> r.Err?
    ensures FlattenGoldAll(gold, other).Ok? && FlattenPredAll(pred).Ok? ==>
      r == ComputeEntityMetrics(FlattenGoldAll(gold, other).value, FlattenPredAll(pred).value)
  {
    var g :- FlattenGoldAll(gold, other);
    var p :- FlattenPredAll(pred);
    ComputeEntityMetrics(g, p)
  }
}

=== FILE: intent_metrics.dfy ===
/** Intent scoring of metrics.py: the gold and predicted intents of the zipped pairs, with
    unlabelled items dropped and an empty prediction read as `no_intent`, encoded as indices of
    the sorted list of valid intents the way scikit-learn's `LabelEncoder` does. */
module IntentMetrics {
  import opened Wrappers
  import opened Values

  /** The label an unlabelled corpus item carries; such items are skipped. */
  const Unlabelled: string := "n/a"

  /** What an empty predicted intent is read as. */
  const NoIntent: string := "no_intent"

  /** The intents the encoder is fitted on, as the code lists them (metrics.py:187-191). */
  const ValidIntents: seq<string> := [
    "payments_bill",
    "small_talk_greeting",
    "payments_transactions",
    "no_intent",
    "payments_navigation"
  ]

  /** The encoder's classes: the valid intents sorted, so an intent's code is its rank. */
  const Classes: seq<string> := [ValidIntents[3], ValidIntents[0], ValidIntents[4], ValidIntents[2], ValidIntents[1]]

  /** Strict lexicographic order on strings by code point, the order `np.unique` sorts in. */
  predicate LexLess(a: string, b: string) {
    if |a| == 0 then |b| > 0
    else if |b| == 0 then false
    else if a[0] != b[0] then a[0] < b[0]
    else LexLess(a[1..], b[1..])
  }

  /** Strings that agree before position `n` and differ there compare as their `n`-th
      characters do. */
  lemma {:induction false} LexLessAt(a: string, b: string, n: nat)
    requires n < |a| && n < |b| && a[n] < b[n]
    requires forall k :: 0 <= k < n ==> a[k] == b[k]
    ensures LexLess(a, b)
  {
    if n > 0 {
      LexLessAt(a[1..], b[1..], n - 1);
    }
  }

  lemma {:induction false} LexLessTransitive(a: string, b: string, c: string)
    requires LexLess(a, b) && LexLess(b, c)
    ensures LexLess(a, c)
  {
    if |a| > 0 && |b| > 0 && |c| > 0 && a[0] == b[0] && b[0] == c[0] {
      LexLessTransitive(a[1..], b[1..], c[1..]);
    }
  }

  /** The classes are the valid intents, each once, in strictly increasing order: the classes a
      fitted `LabelEncoder` holds. */
  lemma ClassesAreSortedValidIntents()
    ensures forall i, j :: 0 <= i < j < |Classes| ==> LexLess(Classes[i], Classes[j])
    ensures forall x :: x in Classes <==> x in ValidIntents
    ensures |Classes| == |ValidIntents|
  {
    ClassesIncrease();
    StepwiseSorted(Classes);
    ClassesPermuteValidIntents();
  }

  lemma ClassesIncrease()
    ensures forall i :: 0 <= i < |Classes| - 1 ==> LexLess(Classes[i], Classes[i + 1])
  {
    forall i | 0 <= i < |Classes| - 1 ensures LexLess(Classes[i], Classes[i + 1]) {
      if i == 0 || i == 3 {
        LexLessAt(Classes[i], Classes[i + 1], 0);
      } else {
        LexLessAt(Classes[i], Classes[i + 1], 9);
      }
    }
  }

  lemma ClassesPermuteValidIntents()
    ensures forall x :: x in Classes <==> x in ValidIntents
    ensures |Classes| == |ValidIntents|
  {
  }

  /** A sequence that increases at every step increases throughout. */
  lemma StepwiseSorted(xs: seq<string>)
    requires forall i :: 0 <= i < |xs| - 1 ==> LexLess(xs[i], xs[i + 1])
    ensures forall i, j :: 0 <= i < j < |xs| ==> LexLess(xs[i], xs[j])
  {
    forall i, j | 0 <= i < j < |xs| ensures LexLess(xs[i], xs[j]) {
      StepwiseSortedFrom(xs, i, j);
    }
  }

  lemma {:induction false} StepwiseSortedFrom(xs: seq<string>, i: nat, j: nat)
    requires forall i :: 0 <= i < |xs| - 1 ==> LexLess(xs[i], xs[i + 1])
    requires i < j < |xs|
    ensures LexLess(xs[i], xs[j])
    decreases j - i
  {
    if j > i + 1 {
      StepwiseSortedFrom(xs, i, j - 1);
      LexLessTransitive(xs[i], xs[j - 1], xs[j]);
    }
  }

  /** No class occurs twice, so a code names one intent. */
  lemma ClassesDistinct(i: nat, j: nat)
    requires i < |Classes| && j < |Classes| && Classes[i] == Classes[j]
    ensures i == j
  {
  }

  /** The predicted label of a response: its intent, or `no_intent` when that is empty. */
  function PredictedLabel(p: PredResponse): (l: string)
    ensures l != ""
    ensures p.intent != "" ==> l == p.intent
  {
    if p.intent != "" then p.intent else NoIntent
  }

  /** The collected `(predicted, expected)` labels (metrics.py:195-199): pairs of `zip(data,
      vv_responses)` whose gold intent is `n/a` are dropped. */
  function LabelPairs(data: seq<GoldResponse>, responses: seq<PredResponse>): (r: seq<(string, string)>)
    ensures |r| <= |data| && |r| <= |responses|
    ensures forall i :: 0 <= i < |r| ==> r[i].1 != Unlabelled && r[i].0 != ""
    decreases |data|
  {
    if |data| == 0 || |responses| == 0 then []
    else
      var rest := LabelPairs(data[1..], responses[1..]);
      if data[0].labeledIntent == Unlabelled then rest
      else [(PredictedLabel(responses[0]), data[0].labeledIntent)] + rest
  }

  /** One zipped item contributes its own `(predicted, gold)` labels, or nothing when its gold
      label is `n/a`. */
  lemma LabelPairsOne(d: GoldResponse, p: PredResponse)
    ensures LabelPairs([d], [p]) == if d.labeledIntent == Unlabelled then [] else [(PredictedLabel(p), d.labeledIntent)]
  {
  }

  /** The label pairs of two runs of zipped items are those of the first run followed by those of
      the second: with `LabelPairsOne`, each kept gold label stays paired with its own response's
      label, and the kept items appear in their input order. */
  lemma {:induction false} LabelPairsConcat(d1: seq<GoldResponse>, r1: seq<PredResponse>, d2: seq<GoldResponse>, r2: seq<PredResponse>)
    requires |d1| == |r1|
    ensures LabelPairs(d1 + d2, r1 + r2) == LabelPairs(d1, r1) + LabelPairs(d2, r2)
    decreases |d1|
  {
    if |d1| == 0 {
      assert d1 + d2 == d2 && r1 + r2 == r2;
    } else {
      assert (d1 + d2)[1..] == d1[1..] + d2 && (r1 + r2)[1..] == r1[1..] + r2;
      assert (d1 + d2)[0] == d1[0] && (r1 + r2)[0] == r1[0];
      LabelPairsConcat(d1[1..], r1[1..], d2, r2);
    }
  }

  /** The number of kept pairs is the number of zipped items not labelled `n/a`; when no item is
      `n/a`, pair `i` holds the `i`-th predicted and gold labels. */
  lemma {:induction false} LabelPairsKeepLabelled(data: seq<GoldResponse>, responses: seq<PredResponse>)
    ensures |LabelPairs(data, responses)| == Labelled(data, responses)
    ensures (forall i :: 0 <= i < |data| && i < |responses| ==> data[i].labeledIntent != Unlabelled) ==>
      |LabelPairs(data, responses)| == (if |data| < |responses| then |data| else |responses|)
      && forall i :: 0 <= i < |LabelPairs(data, responses)| ==>
        LabelPairs(data, responses)[i] == (PredictedLabel(responses[i]), data[i].labeledIntent)
    decreases |data|
  {
    if |data| > 0 && |responses| > 0 {
      LabelPairsKeepLabelled(data[1..], responses[1..]);
    }
  }

  /** How many zipped pairs carry a gold label other than `n/a`. */
  function Labelled(data: seq<GoldResponse>, responses: seq<PredResponse>): nat
    decreases |data|
  {
    if |data| == 0 || |responses| == 0 then 0
    else (if data[0].labeledIntent == Unlabelled then 0 else 1) + Labelled(data[1..], responses[1..])
  }

  /** `LabelEncoder.transform` on one intent: its rank among the classes, or `ValueError` for a
      intent the encoder was not fitted on. */
  function Encode(intent: string): (r: Result<nat>)
    ensures r.Ok? <==> intent in ValidIntents
    ensures r.Ok? ==> r.value < |Classes| && Classes[r.value] == intent
    ensures r.Err? ==> r.fault == ValueError
  {
    ClassesAreSortedValidIntents();
    var i := RankIn(intent, Classes);
    if i < |Classes| then Ok(i) else Err(ValueError)
  }

  /** The first position of `x` in `xs`, or `|xs|` when it is absent. */
  function RankIn(x: string, xs: seq<string>): (i: nat)
    ensures i <= |xs|
    ensures i < |xs| ==> xs[i] == x
    ensures i == |xs| <==> x !in xs
  {
    if |xs| == 0 then 0 else if xs[0] == x then 0 else 1 + RankIn(x, xs[1..])
  }

  /** Decoding an encoded label gives it back, and distinct labels get distinct codes. */
  lemma EncodeRoundTrip(a: string, b: string)
    requires a in ValidIntents && b in ValidIntents
    ensures Encode(a).Ok? && Classes[Encode(a).value] == a
    ensures Encode(a) == Encode(b) <==> a == b
  {
  }

  /** `LabelEncoder.transform` on a list: element-wise, `ValueError` if any label is unseen. */
  function EncodeAll(intents: seq<string>): (r: Result<seq<nat>>)
    ensures r.Ok? <==> forall i :: 0 <= i < |intents| ==> intents[i] in ValidIntents
    ensures r.Err? ==> r.fault == ValueError
    ensures r.Ok? ==> |r.value| == |intents|
    ensures r.Ok? ==> forall i :: 0 <= i < |intents| ==> r.value[i] < |Classes| && Classes[r.value[i]] == intents[i]
  {
    if |intents| == 0 then Ok([])
    else
      var c :- Encode(intents[0]);
      var rest := EncodeAll(intents[1..]);
      if rest.Err? then
        assert exists i :: 0 <= i < |intents[1..]| && intents[1..][i] !in ValidIntents;
        Err(rest.fault)
      else
        var r := [c] + rest.value;
        assert forall i :: 1 <= i < |intents| ==> intents[i] == intents[1..][i - 1];
        Ok(r)
  }

  /** Both labels of every pair are intents the encoder knows. */
  predicate AllValid(pairs: seq<(string, string)>) {
    forall i :: 0 <= i < |pairs| ==> pairs[i].0 in ValidIntents && pairs[i].1 in ValidIntents
  }

  /** The label pairs encoded: predicted labels are transformed first, then expected ones, and
      an unseen label on either side raises `ValueError`. */
  function EncodePairs(pairs: seq<(string, string)>): (r: Result<(seq<nat>, seq<nat>)>)
    ensures r.Ok? <==> AllValid(pairs)
    ensures r.Ok? ==> |r.value.0| == |pairs| == |r.value.1|
    ensures r.Ok? ==> forall i :: 0 <= i < |pairs| ==>
      && r.value.0[i] < |Classes| && Classes[r.value.0[i]] == pairs[i].0
      && r.value.1[i] < |Classes| && Classes[r.value.1[i]] == pairs[i].1
    ensures r.Err? ==> r.fault == ValueError
  {
    var predicted, expected := Column(pairs, true), Column(pairs, false);
    var p := EncodeAll(predicted);
    var e := EncodeAll(expected);
    if p.Err? then
      var i :| 0 <= i < |pairs| && predicted[i] !in ValidIntents;
      assert !AllValid(pairs) by {
        assert pairs[i].0 !in ValidIntents;
      }
      Err(p.fault)
    else if e.Err? then
      var i :| 0 <= i < |pairs| && expected[i] !in ValidIntents;
      assert !AllValid(pairs) by {
        assert pairs[i].1 !in ValidIntents;
      }
      Err(e.fault)
    else Ok((p.value, e.value))
  }

  /** The encoded `(predicted, expected)` codes `evaluate_intents` (metrics.py:186-211) hands to
      the classification report. */
  function EncodedIntents(data: seq<GoldResponse>, responses: seq<PredResponse>): (r: Result<(seq<nat>, seq<nat>)>)
    ensures r.Ok? <==> AllValid(LabelPairs(data, responses))
    ensures r.Ok? ==> |r.value.0| == |r.value.1| == |LabelPairs(data, responses)|
  {
    EncodePairs(LabelPairs(data, responses))
  }

  /** The predicted (`first`) or expected labels of the pairs. */
  function Column(pairs: seq<(string, string)>, first: bool): (r: seq<string>)
    ensures |r| == |pairs|
    ensures forall i :: 0 <= i < |pairs| ==> r[i] == if first then pairs[i].0 else pairs[i].1
  {
    seq(|pairs|, i requires 0 <= i < |pairs| => if first then pairs[i].0 else pairs[i].1)
  }

  /** A response set that predicts every labelled intent exactly encodes to equal code lists. */
  lemma ExactIntentsEncodeEqual(data: seq<GoldResponse>, responses: seq<PredResponse>)
    requires forall i :: 0 <= i < |data| && i < |responses| ==>
      data[i].labeledIntent != Unlabelled ==> PredictedLabel(responses[i]) == data[i].labeledIntent
    requires EncodedIntents(data, responses).Ok?
    ensures EncodedIntents(data, responses).value.0 == EncodedIntents(data, responses).value.1
  {
    var pairs := LabelPairs(data, responses);
    ExactPairsAgree(data, responses);
    var r := EncodedIntents(data, responses).value;
    forall i | 0 <= i < |pairs| ensures r.0[i] == r.1[i] {
      assert Classes[r.0[i]] == Classes[r.1[i]];
      ClassesDistinct(r.0[i], r.1[i]);
    }
  }


  lemma {:induction false} ExactPairsAgree(data: seq<GoldResponse>, responses: seq<PredResponse>)
    requires forall i :: 0 <= i < |data| && i < |responses| ==>
      data[i].labeledIntent != Unlabelled ==> PredictedLabel(responses[i]) == data[i].labeledIntent
    ensures forall i :: 0 <= i < |LabelPairs(data, responses)| ==>
      LabelPairs(data, responses)[i].0 == LabelPairs(data, responses)[i].1
    decreases |data|
  {
    if |data| > 0 && |responses| > 0 {
      ExactPairsAgree(data[1..], responses[1..]);
    }
  }
}

=== FILE: metrics_flatten.dfy ===
/** The per-entity flattening of metrics.py: gold and predicted entity values become lists of
    lower-case tokens before they are scored.

    The Python functions rewrite the response dict in place and raise on shapes they cannot
    handle; here they return the rewritten value or the exception. */
module MetricsFlatten {
  import opened Wrappers
  import opened Text
  import opened Values

  /** Each string as a string value. */
  function Strs(ts: seq<string>): (r: seq<Value>)
    ensures |r| == |ts|
    ensures forall i :: 0 <= i < |ts| ==> r[i] == Str(ts[i])
  {
    seq(|ts|, i requires 0 <= i < |ts| => Str(ts[i]))
  }

  /** `s.lower().split()`. */
  function Tokens(s: string): (r: seq<string>)
    ensures forall i :: 0 <= i < |r| ==> |r[i]| > 0 && NoSpace(r[i]) && IsLowerStr(r[i])
    ensures Concat(r) == RemoveSpaces(LowerStr(s))
  {
    var r := Split(LowerStr(s));
    SplitOfLower(LowerStr(s));
    SplitConcat(LowerStr(s));
    r
  }

  /** A whitespace character separates tokens: the tokens of what precedes it and of what follows
      it, in that order. With `Tokens` of a single non-empty word being that word lower-cased,
      this fixes the tokens as the lower-cased input's maximal non-whitespace runs. */
  lemma TokensAtSpace(a: string, c: char, b: string)
    requires IsSpace(c)
    ensures Tokens(a + [c] + b) == Tokens(a) + Tokens(b)
  {
    var l := LowerStr(a) + [Lower(c)] + LowerStr(b);
    assert LowerStr(a + [c] + b) == l;
    SplitAtSpace(LowerStr(a), Lower(c), LowerStr(b));
  }

  /** One word without whitespace is one token: the word lower-cased. */
  lemma TokensOfWord(t: string)
    requires |t| > 0 && NoSpace(t)
    ensures Tokens(t) == [LowerStr(t)]
  {
    SplitOfToken(LowerStr(t));
  }

  /** `[i.lower() for i in xs]`: the lower-cased strings, or `AttributeError` if some item is not a
      string. */
  function LowerItems(xs: seq<Value>): (r: Result<seq<string>>)
    ensures r.Ok? <==> forall i :: 0 <= i < |xs| ==> xs[i].Str?
    ensures r.Ok? ==> |r.value| == |xs|
    ensures r.Ok? ==> forall i :: 0 <= i < |xs| ==> r.value[i] == LowerStr(xs[i].s)
  {
    if |xs| == 0 then Ok([])
    else if !xs[0].Str? then Err(AttributeError)
    else
      var rest := LowerItems(xs[1..]);
      if rest.Err? then
        assert !xs[1..][IndexOfNonStr(xs[1..])].Str?;
        Err(AttributeError)
      else Ok([LowerStr(xs[0].s)] + rest.value)
  }

  /** The position of some non-string item, for a list that holds one. */
  function IndexOfNonStr(xs: seq<Value>): (i: nat)
    requires exists i :: 0 <= i < |xs| && !xs[i].Str?
    ensures i < |xs| && !xs[i].Str?
  {
    if !xs[0].Str? then 0 else 1 + IndexOfNonStr(xs[1..])
  }

  /** The tokens of every string, in order: `for i in xs: out.extend(i.split())`. */
  function SplitEach(ss: seq<string>): (r: seq<string>)
    ensures forall i :: 0 <= i < |r| ==> |r[i]| > 0 && NoSpace(r[i])
  {
    if |ss| == 0 then [] else Split(ss[0]) + SplitEach(ss[1..])
  }

  /** The values of a composite entity in key order, strings lower-cased, the rest as they are. */
  function LowerValues(d: Dict): (r: seq<Value>)
    ensures |r| == |d|
    ensures forall i :: 0 <= i < |d| ==>
      r[i] == if d[i].value.Str? then Str(LowerStr(d[i].value.s)) else d[i].value
  {
    seq(|d|, i requires 0 <= i < |d| => if d[i].value.Str? then Str(LowerStr(d[i].value.s)) else d[i].value)
  }

  /** The gold rule for one entity value (metrics.py:12-23). A list is lower-cased item by item
      and NOT split; a dict becomes its values; anything else becomes the tokens of `str(v)`, whose
      float and dict formatting `other` supplies. */
  function FlattenGoldValue(v: Value, other: Value -> string): (r: Result<Value>)
    ensures r.Ok? ==> r.value.List?
    ensures v.List? ==> (r.Ok? <==> forall i :: 0 <= i < |v.items| ==> v.items[i].Str?)
    ensures v.List? && r.Ok? ==>
      && |r.value.items| == |v.items|
      && forall i :: 0 <= i < |v.items| ==> r.value.items[i] == Str(LowerStr(v.items[i].s))
    ensures v.Composite? ==> r == Ok(List(LowerValues(v.fields)))
    ensures v.Str? ==> r == Ok(List(Strs(Tokens(v.s))))
    ensures v.Int? ==> r == Ok(List([Str(IntToString(v.i))]))
  {
    match v
    case List(xs) =>
      var ls :- LowerItems(xs);
      Ok(List(Strs(ls)))
    case Composite(d) => Ok(List(LowerValues(d)))
    case Int(i) =>
      LowerStrOfLower(IntToString(i));
      SplitOfToken(IntToString(i));
      assert Tokens(PyStr(v, other)) == [IntToString(i)];
      assert Strs([IntToString(i)]) == [Str(IntToString(i))];
      Ok(List(Strs(Tokens(PyStr(v, other)))))
    case Str(_) => Ok(List(Strs(Tokens(PyStr(v, other)))))
    case Float(_) => Ok(List(Strs(Tokens(PyStr(v, other)))))
  }

  /** The predicted rule for one entity value (metrics.py:29-52). A string becomes its tokens; a
      list of strings is lower-cased, split and concatenated; a list whose first item is a dict is
      left alone; a dict becomes its values; a float `v` becomes `[str(int(v))]`; an int is left
      alone. */
  function FlattenPredValue(v: Value): (r: Result<Value>)
    ensures v.Str? ==> r == Ok(List(Strs(Tokens(v.s))))
    ensures v.List? && |v.items| > 0 && v.items[0].Composite? ==> r == Ok(v)
    ensures v.List? && !(|v.items| > 0 && v.items[0].Composite?) ==>
      (r.Ok? <==> forall i :: 0 <= i < |v.items| ==> v.items[i].Str?)
    ensures v.Composite? ==> r == Ok(List(LowerValues(v.fields)))
    ensures v.Float? ==> r == Ok(List([Str(IntToString(Trunc(v.x)))]))
    ensures v.Int? ==> r == Ok(v)
  {
    match v
    case Str(s) => Ok(List(Strs(Tokens(s))))
    case List(xs) =>
      if |xs| >= 1 && xs[0].Composite? then Ok(v)
      else
        var ls :- LowerItems(xs);
        Ok(List(Strs(SplitEach(ls))))
    case Composite(d) => Ok(List(LowerValues(d)))
    case Float(x) => Ok(List([Str(IntToString(Trunc(x)))]))
    case Int(_) => Ok(v)
  }

  /** A list of strings flattens on the predicted side to the tokens of the lower-cased strings,
      in order. */
  lemma PredListIsTokensOfItems(xs: seq<string>)
    requires |xs| > 0
    ensures FlattenPredValue(List(Strs(xs))) == Ok(List(Strs(SplitEach(seq(|xs|, i requires 0 <= i < |xs| => LowerStr(xs[i]))))))
  {
    var ls := seq(|xs|, i requires 0 <= i < |xs| => LowerStr(xs[i]));
    assert LowerItems(Strs(xs)).value == ls;
  }

  /** Applies a per-value rule to every entity not named in `ignore`, in key order; the first
      failure is the result. */
  function FlattenGoldDict(d: Dict, ignore: seq<string>, other: Value -> string): (r: Result<Dict>)
    ensures r.Ok? <==> forall i :: 0 <= i < |d| && d[i].key !in ignore ==> FlattenGoldValue(d[i].value, other).Ok?
    ensures r.Ok? ==> Keys(r.value) == Keys(d)
    ensures r.Ok? ==> forall i :: 0 <= i < |d| ==>
      r.value[i].value == if d[i].key in ignore then d[i].value else FlattenGoldValue(d[i].value, other).value
  {
    if |d| == 0 then Ok([])
    else
      var head :- if d[0].key in ignore then Ok(d[0].value) else FlattenGoldValue(d[0].value, other);
      var rest := FlattenGoldDict(d[1..], ignore, other);
      if rest.Err? then Err(rest.fault)
      else Ok([Field(d[0].key, head)] + rest.value)
  }

  /** `convert_gold_response_to_list(x, ignorelist, [])` of metrics.py: flattens the labelled
      entities; the labelled intent is kept. */
  function FlattenGold(x: GoldResponse, ignore: seq<string>, other: Value -> string): (r: Result<GoldResponse>)
    ensures r.Ok? ==> r.value.labeledIntent == x.labeledIntent && r.value.hasIndex == x.hasIndex
    ensures r.Ok? ==> Keys(r.value.labeledEntities) == Keys(x.labeledEntities)
    ensures r.Ok? ==> forall i :: 0 <= i < |x.labeledEntities| && x.labeledEntities[i].key in ignore ==>
      r.value.labeledEntities[i] == x.labeledEntities[i]
    ensures r.Ok? ==> forall i :: 0 <= i < |x.labeledEntities| && x.labeledEntities[i].key !in ignore ==>
      r.value.labeledEntities[i].value.List?
  {
    var d :- FlattenGoldDict(x.labeledEntities, ignore, other);
    assert forall i :: 0 <= i < |d| ==> d[i].key == x.labeledEntities[i].key by {
      assert Keys(d) == Keys(x.labeledEntities);
    }
    Ok(GoldResponse(x.labeledIntent, d, x.hasIndex))
  }

  /** The predicted rule applied to every entity of one dict, in key order. */
  function FlattenPredDict(d: Dict): (r: Result<Dict>)
    ensures r.Ok? <==> forall i :: 0 <= i < |d| ==> FlattenPredValue(d[i].value).Ok?
    ensures r.Ok? ==> Keys(r.value) == Keys(d)
    ensures r.Ok? ==> forall i :: 0 <= i < |d| ==> r.value[i].value == FlattenPredValue(d[i].value).value
  {
    if |d| == 0 then Ok([])
    else
      var head :- FlattenPredValue(d[0].value);
      var rest := FlattenPredDict(d[1..]);
      if rest.Err? then Err(rest.fault)
      else Ok([Field(d[0].key, head)] + rest.value)
  }

  /** `convert_pred_response_to_list` of metrics.py: flattens the first candidate dict, raising
      `IndexError` when there is none; later candidates and the intent are untouched. */
  function FlattenPred(x: PredResponse): (r: Result<PredResponse>)
    ensures |x.entities| == 0 ==> r == Err(IndexError)
    ensures r.Ok? ==> r.value.intent == x.intent && |r.value.entities| == |x.entities|
    ensures r.Ok? ==> Keys(r.value.entities[0]) == Keys(x.entities[0])
    ensures r.Ok? ==> r.value.entities[1..] == x.entities[1..]
  {
    if |x.entities| == 0 then Err(IndexError)
    else
      var d :- FlattenPredDict(x.entities[0]);
      Ok(PredResponse(x.intent, [d] + x.entities[1..]))
  }

  /** Flattening a gold string twice gives the same tokens as flattening it once: a list of
      tokens only gets lower-cased again. */
  lemma GoldStrFlattenIdempotent(s: string, other: Value -> string)
    ensures FlattenGoldValue(FlattenGoldValue(Str(s), other).value, other) == FlattenGoldValue(Str(s), other)
  {
    var ts := Tokens(s);
    forall i | 0 <= i < |ts| ensures LowerStr(ts[i]) == ts[i] {
      LowerStrOfLower(ts[i]);
    }
    assert LowerItems(Strs(ts)).value == ts;
  }

  /** On the predicted side a string is also stable under a second flattening: its tokens are
      already lower-case and whitespace-free, so each splits into itself. */
  lemma {:induction false} PredStrFlattenIdempotent(s: string)
    ensures FlattenPredValue(FlattenPredValue(Str(s)).value) == FlattenPredValue(Str(s))
  {
    var ts := Tokens(s);
    if |ts| > 0 {
      var ls := LowerItems(Strs(ts)).value;
      forall i | 0 <= i < |ts| ensures ls[i] == ts[i] {
        LowerStrOfLower(ts[i]);
      }
      assert ls == ts;
      SplitEachOfTokens(ts);
    }
  }

  lemma {:induction false} SplitEachOfTokens(ts: seq<string>)
    requires forall i :: 0 <= i < |ts| ==> |ts[i]| > 0 && NoSpace(ts[i])
    ensures SplitEach(ts) == ts
  {
    if |ts| > 0 {
      SplitOfToken(ts[0]);
      SplitEachOfTokens(ts[1..]);
      assert ts == [ts[0]] + ts[1..];
    }
  }

  /** Flattening is not idempotent in general: a composite value holding a two-word phrase
      becomes a one-item list, which a second predicted flattening splits into the two words. */
  lemma PredCompositeFlattenNotIdempotent(key: string, a: string, b: string)
    requires IsPhrase(a, b)
    ensures var v := Composite([Field(key, Str(a + " " + b))]);
      && FlattenPredValue(v) == Ok(List([Str(a + " " + b)]))
      && FlattenPredValue(FlattenPredValue(v).value) == Ok(List([Str(a), Str(b)]))
  {
    var p := a + " " + b;
    PhraseLower(a, b);
    assert LowerValues([Field(key, Str(p))]) == [Str(p)];
    PhraseListSplits(a, b);
  }

  /** Two non-empty lower-case words without whitespace; joined by a space they form a phrase. */
  predicate IsPhrase(a: string, b: string) {
    |a| > 0 && |b| > 0 && NoSpace(a) && NoSpace(b) && IsLowerStr(a) && IsLowerStr(b)
  }

  lemma PhraseLower(a: string, b: string)
    requires IsPhrase(a, b)
    ensures LowerStr(a + " " + b) == a + " " + b
  {
  }

  /** A one-phrase list splits into the phrase's two words on the predicted side. */
  lemma PhraseListSplits(a: string, b: string)
    requires IsPhrase(a, b)
    ensures FlattenPredValue(List([Str(a + " " + b)])) == Ok(List([Str(a), Str(b)]))
  {
    var p := a + " " + b;
    PhraseLower(a, b);
    SplitTwoWords(a, b);
    var xs := [Str(p)];
    assert LowerItems(xs[1..]) == Ok([]);
    var lo := LowerItems(xs);
    assert lo.Ok? && |lo.value| == 1 && lo.value[0] == p;
    assert lo.value == [p];
    assert SplitEach([p][1..]) == [];
    assert SplitEach([p]) == [a, b];
    assert Strs([a, b]) == [Str(a), Str(b)];
  }

  /** A gold composite holding a number flattens once, but a second gold flattening raises:
      the number has no `lower()`. */
  lemma GoldCompositeFlattenNotIdempotent(key: string, n: int, other: Value -> string)
    ensures var v := Composite([Field(key, Int(n))]);
      && FlattenGoldValue(v, other) == Ok(List([Int(n)]))
      && FlattenGoldValue(FlattenGoldValue(v, other).value, other) == Err(AttributeError)
  {
    assert LowerValues([Field(key, Int(n))]) == [Int(n)];
  }

  /** The two sides treat a list of phrases differently: the gold side keeps each phrase as one
      item, the predicted side splits it into words. */
  lemma GoldAndPredListsDiffer(a: string, b: string, other: Value -> string)
    requires IsPhrase(a, b)
    ensures FlattenGoldValue(List([Str(a + " " + b)]), other) == Ok(List([Str(a + " " + b)]))
    ensures FlattenPredValue(List([Str(a + " " + b)])) == Ok(List([Str(a), Str(b)]))
  {
    var p := a + " " + b;
    PhraseLower(a, b);
    var xs := [Str(p)];
    assert LowerItems(xs[1..]) == Ok([]);
    var lo := LowerItems(xs);
    assert lo.Ok? && |lo.value| == 1 && lo.value[0] == p;
    assert lo.value == [p];
    assert Strs([p]) == xs;
    PhraseListSplits(a, b);
  }
}

=== FILE: normalize.dfy ===
/** The text normalizer applied to references and hypotheses before word error rates are taken:
    punctuation from a fixed set is deleted, parentheses become spaces, the ends are stripped and
    the rest is lower-cased.  The driver script and the configuration object each carry a copy;
    they differ only in whether '.' is deleted. */
module Normalize {
  import opened Text

  /** The punctuation the configuration object deletes. */
  const ConfigSpecials: seq<char> :=
    ['!', '"', '#', '$', '*', ',', '/', ';', '<', '=', '>', '?', '[', ']', '^', '_', '`', '{', '|', '}', '~']

  /** The punctuation the driver script deletes: the same set plus '.'. */
  const DriverSpecials: seq<char> := ConfigSpecials + ['.']

  predicate IsParen(c: char) {
    c == '(' || c == ')'
  }

  /** A set of characters to delete that holds no letter and no space, so that neither lower-casing
      nor the parenthesis rewrite can produce one of them. */
  predicate PunctuationOnly(cs: seq<char>) {
    ' ' !in cs && forall i :: 0 <= i < |cs| ==> !('A' <= cs[i] <= 'Z') && !('a' <= cs[i] <= 'z')
  }

  /** No character of `cs` is a digit or a parenthesis. */
  predicate NoDigitOrParen(cs: seq<char>) {
    forall i :: 0 <= i < |cs| ==> !('0' <= cs[i] <= '9') && !IsParen(cs[i])
  }

  /** Both deleted sets hold punctuation only: no space, letter, digit or parenthesis. */
  lemma SpecialsHavePunctuationOnly()
    ensures PunctuationOnly(ConfigSpecials) && PunctuationOnly(DriverSpecials)
    ensures NoDigitOrParen(ConfigSpecials) && NoDigitOrParen(DriverSpecials)
  {
    ConfigSpecialsNoDigitOrParen();
    assert DriverSpecials[|ConfigSpecials|] == '.';
  }

  lemma ConfigSpecialsNoDigitOrParen()
    ensures NoDigitOrParen(ConfigSpecials)
  {
  }

  /** `re.sub('[...]+', '', s)`: every character of `cs` deleted, the others kept in order. */
  function RemoveChars(s: string, cs: seq<char>): (r: string)
    ensures |r| <= |s|
    ensures forall c :: c in r <==> c in s && c !in cs
  {
    if |s| == 0 then []
    else if s[0] in cs then RemoveChars(s[1..], cs)
    else [s[0]] + RemoveChars(s[1..], cs)
  }

  /** `re.sub('[()]', ' ', s)`. */
  function ParensToSpaces(s: string): (r: string)
    ensures |r| == |s|
    ensures forall i :: 0 <= i < |s| ==> r[i] == if IsParen(s[i]) then ' ' else s[i]
  {
    seq(|s|, i requires 0 <= i < |s| => if IsParen(s[i]) then ' ' else s[i])
  }

  /** `normalize_str` with the deleted set `cs`. */
  function NormalizeWith(s: string, cs: seq<char>): (r: string)
    ensures |r| <= |s|
    ensures IsLowerStr(r) && Stripped(r)
  {
    var y := ParensToSpaces(RemoveChars(s, cs));
    var z := Strip(y);
    assert |z| <= |y| <= |s|;
    LowerStrIsLower(z);
    LowerKeepsStripped(z);
    LowerStr(z)
  }

  /** Lower-casing neither creates nor removes whitespace at the ends. */
  lemma LowerKeepsStripped(z: string)
    requires Stripped(z)
    ensures Stripped(LowerStr(z))
  {
  }

  /** None of the characters of `s` is deleted by `cs` or is a parenthesis. */
  predicate Outside(s: string, cs: seq<char>) {
    forall i :: 0 <= i < |s| ==> s[i] !in cs && !IsParen(s[i])
  }

  /** What a normalized string looks like: none of the deleted characters, no parentheses, no
      upper-case letter and no whitespace at either end. */
  predicate IsNormal(s: string, cs: seq<char>) {
    Outside(s, cs) && IsLowerStr(s) && Stripped(s)
  }

  /** The driver's normalizer. */
  function DriverNormalize(s: string): (r: string)
    ensures IsNormal(r, DriverSpecials)
  {
    SpecialsHavePunctuationOnly();
    NormalizeShape(s, DriverSpecials);
    NormalizeWith(s, DriverSpecials)
  }

  /** The configuration object's normalizer. */
  function ConfigNormalize(s: string): (r: string)
    ensures IsNormal(r, ConfigSpecials)
  {
    SpecialsHavePunctuationOnly();
    NormalizeShape(s, ConfigSpecials);
    NormalizeWith(s, ConfigSpecials)
  }

  /** After deletion and the parenthesis rewrite, nothing deleted and no parenthesis is left. */
  lemma CleanedIsOutside(s: string, cs: seq<char>)
    requires ' ' !in cs
    ensures Outside(ParensToSpaces(RemoveChars(s, cs)), cs)
  {
  }

  /** Stripping only cuts characters off the ends. */
  lemma StripIsOutside(y: string, cs: seq<char>)
    requires Outside(y, cs)
    ensures Outside(Strip(y), cs)
  {
  }

  /** Lower-casing cannot produce a character of a letter-free set. */
  lemma LowerIsOutside(z: string, cs: seq<char>)
    requires PunctuationOnly(cs) && Outside(z, cs)
    ensures Outside(LowerStr(z), cs)
  {
  }

  /** Every output of the normalizer is normal. */
  lemma NormalizeShape(s: string, cs: seq<char>)
    requires PunctuationOnly(cs)
    ensures IsNormal(NormalizeWith(s, cs), cs)
  {
    var y := ParensToSpaces(RemoveChars(s, cs));
    CleanedIsOutside(s, cs);
    StripIsOutside(y, cs);
    LowerIsOutside(Strip(y), cs);
    LowerStrIsLower(Strip(y));
  }

  /** Normalizing twice is normalizing once. */
  lemma NormalizeIdempotent(s: string, cs: seq<char>)
    requires PunctuationOnly(cs)
    ensures NormalizeWith(NormalizeWith(s, cs), cs) == NormalizeWith(s, cs)
  {
    var r := NormalizeWith(s, cs);
    NormalizeShape(s, cs);
    NormalOfNormal(r, cs);
  }

  /** A normal string is a fixed point of the normalizer. */
  lemma NormalOfNormal(r: string, cs: seq<char>)
    requires IsNormal(r, cs)
    ensures NormalizeWith(r, cs) == r
  {
    RemoveCharsAbsent(r, cs);
    assert ParensToSpaces(r) == r;
    StripOfStripped(r);
    LowerStrOfLower(r);
  }

  lemma {:induction false} RemoveCharsAbsent(s: string, cs: seq<char>)
    requires forall i :: 0 <= i < |s| ==> s[i] !in cs
    ensures RemoveChars(s, cs) == s
  {
    if |s| > 0 {
      RemoveCharsAbsent(s[1..], cs);
    }
  }

  lemma ParensKeep(x: string, c: char)
    requires !IsParen(c) && c != ' '
    ensures c in ParensToSpaces(x) <==> c in x
  {
  }

  /** A non-space character of `y` lies inside the part `y.strip()` keeps. */
  lemma StripCovers(y: string, i: nat)
    requires i < |y| && !IsSpace(y[i])
    ensures StripStart(y) <= i < StripStart(y) + |Strip(y)|
    ensures Strip(y)[i - StripStart(y)] == y[i]
  {
  }

  lemma StripKeeps(y: string, c: char)
    requires !IsSpace(c)
    ensures c in Strip(y) <==> c in y
  {
  }

  predicate IsLetter(c: char) {
    ('A' <= c <= 'Z') || ('a' <= c <= 'z')
  }

  lemma LowerKeeps(z: string, c: char)
    requires !IsLetter(c)
    ensures c in LowerStr(z) <==> c in z
  {
  }

  /** A character that is not deleted, not a parenthesis, not whitespace and not a letter
      survives normalization exactly when it was there to begin with. */
  lemma NormalizeKeeps(s: string, cs: seq<char>, c: char)
    requires c !in cs && !IsParen(c) && !IsSpace(c) && !IsLetter(c)
    ensures c in NormalizeWith(s, cs) <==> c in s
  {
    var x := RemoveChars(s, cs);
    ParensKeep(x, c);
    StripKeeps(ParensToSpaces(x), c);
    LowerKeeps(Strip(ParensToSpaces(x)), c);
  }

  /** The configuration object keeps every '.' the driver deletes. */
  lemma ConfigKeepsDots(s: string)
    ensures '.' in ConfigNormalize(s) <==> '.' in s
    ensures '.' !in DriverNormalize(s)
  {
    NormalizeKeeps(s, ConfigSpecials, '.');
  }

  /** On text without '.', the two normalizers agree. */
  lemma NormalizersAgreeWithoutDots(s: string)
    requires '.' !in s
    ensures ConfigNormalize(s) == DriverNormalize(s)
  {
    RemoveCharsWithoutDot(s);
  }

  lemma {:induction false} RemoveCharsWithoutDot(s: string)
    requires '.' !in s
    ensures RemoveChars(s, ConfigSpecials) == RemoveChars(s, DriverSpecials)
  {
    if |s| > 0 {
      assert s[0] != '.';
      assert s[0] in ConfigSpecials <==> s[0] in DriverSpecials;
      RemoveCharsWithoutDot(s[1..]);
    }
  }
}

=== FILE: response_decode.dfy ===
/** The decoding of an NLU response once the protobuf message has been turned into a JSON-shaped
    dict: nested entity values are walked into Python strings, lists and dicts, and the entities
    of the intent are collected into one entity map.

    The JSON dict leaves out every field that holds its default value, so an absent `isList` or
    `isComposite` reads as false, absent `listValues` or `compositeValues` as empty, and an absent
    `strVal` or `key` is `None`. */
module ResponseDecode {
  import opened Wrappers
  import opened Values

  /** One entity value of the decoded message. `key` is set on the top-level entities only. */
  datatype Node = Node(
    key: Option<string>,
    isList: bool,
    isComposite: bool,
    strVal: Option<string>,
    listValues: seq<Node>,
    compositeValues: seq<NodeField>)

  /** One member of `compositeValues`. */
  datatype NodeField = NodeField(name: string, node: Node)

  /** The keys of `compositeValues`, in order. */
  function Names(fs: seq<NodeField>): (r: seq<string>)
    ensures |r| == |fs|
    ensures forall i :: 0 <= i < |fs| ==> r[i] == fs[i].name
  {
    seq(|fs|, i requires 0 <= i < |fs| => fs[i].name)
  }

  /** The dispatch on one nested item: a list, a composite, or else its `strVal`, which must be
      present (`item['strVal']`). */
  function ParseItem(n: Node): (r: Result<Value>)
    ensures n.isList && r.Ok? ==> r.value.List? && |r.value.items| == |n.listValues|
    ensures !n.isList && n.isComposite && r.Ok? ==> r.value.Composite?
    ensures !n.isList && !n.isComposite ==>
      r == if n.strVal.Some? then Ok(Str(n.strVal.value)) else Err(KeyError)
    decreases n, 1
  {
    if n.isList then
      var xs :- ParseListValue(n);
      Ok(List(xs))
    else if n.isComposite then
      var d :- ParseCompositeValue(n);
      Ok(Composite(d))
    else if n.strVal.Some? then Ok(Str(n.strVal.value))
    else Err(KeyError)
  }

  /** `parse_list_value(e)`: every item of `listValues` parsed, in order; the first failure is the
      result. */
  function ParseListValue(e: Node): (r: Result<seq<Value>>)
    ensures r.Ok? ==> |r.value| == |e.listValues|
    decreases e, 0
  {
    ParseItems(e.listValues)
  }

  function ParseItems(ns: seq<Node>): (r: Result<seq<Value>>)
    ensures r.Ok? ==> |r.value| == |ns|
    decreases ns
  {
    if |ns| == 0 then Ok([])
    else
      var x :- ParseItem(ns[0]);
      var rest :- ParseItems(ns[1..]);
      Ok([x] + rest)
  }

  /** `parse_composite_value(e)`: `ret[k] = ...` for every member of `compositeValues`, in order. */
  function ParseCompositeValue(e: Node): (r: Result<Dict>)
    ensures r.Ok? ==> |r.value| <= |e.compositeValues|
    ensures |e.compositeValues| == 0 ==> r == Ok([])
    decreases e, 0
  {
    ParseFields(e.compositeValues, [])
  }

  /** The members assigned into `acc` one by one: each adds at most one key, and the keys already
      there keep their places. */
  function ParseFields(fs: seq<NodeField>, acc: Dict): (r: Result<Dict>)
    ensures r.Ok? ==> |acc| <= |r.value| <= |acc| + |fs|
    ensures r.Ok? ==> forall i :: 0 <= i < |acc| ==> r.value[i].key == acc[i].key
    decreases fs
  {
    if |fs| == 0 then Ok(acc)
    else
      var v :- ParseItem(fs[0].node);
      ParseFields(fs[1..], Assign(acc, fs[0].name, v))
  }

  /** Each item of a parsed list is the parse of the corresponding node, and the list fails
      exactly when one of its items does. */
  lemma {:induction false} ParseItemsPointwise(ns: seq<Node>)
    ensures ParseItems(ns).Ok? ==> forall i :: 0 <= i < |ns| ==> ParseItem(ns[i]) == Ok(ParseItems(ns).value[i])
    ensures ParseItems(ns).Err? <==> exists i :: 0 <= i < |ns| && ParseItem(ns[i]).Err?
    decreases ns
  {
    if |ns| > 0 {
      ParseItemsPointwise(ns[1..]);
      assert forall i :: 1 <= i < |ns| ==> ns[i] == ns[1..][i - 1];
      if ParseItem(ns[0]).Ok? && ParseItems(ns[1..]).Err? {
        var i :| 0 <= i < |ns[1..]| && ParseItem(ns[1..][i]).Err?;
        assert ParseItem(ns[i + 1]).Err?;
      }
    }
  }

  /** One member of a composite parse: its value parses and is assigned before the rest. */
  lemma ParseFieldsStep(fs: seq<NodeField>, acc: Dict)
    requires |fs| > 0 && ParseFields(fs, acc).Ok?
    ensures ParseItem(fs[0].node).Ok?
    ensures ParseFields(fs, acc) == ParseFields(fs[1..], Assign(acc, fs[0].name, ParseItem(fs[0].node).value))
  {
  }

  /** The keys a composite parse produces: those already present plus every member name. */
  lemma {:induction false} ParseFieldsKeys(fs: seq<NodeField>, acc: Dict, k: string)
    requires ParseFields(fs, acc).Ok?
    ensures HasKey(ParseFields(fs, acc).value, k) <==> HasKey(acc, k) || k in Names(fs)
    decreases fs
  {
    if |fs| > 0 {
      ParseFieldsStep(fs, acc);
      var v := ParseItem(fs[0].node).value;
      var acc' := Assign(acc, fs[0].name, v);
      ParseFieldsKeys(fs[1..], acc', k);
      AssignHasKey(acc, fs[0].name, v, k);
      NamesCons(fs);
    }
  }

  lemma NamesCons(fs: seq<NodeField>)
    requires |fs| > 0
    ensures Names(fs) == [fs[0].name] + Names(fs[1..])
  {
  }

  /** A composite parse never repeats a key. */
  lemma {:induction false} ParseFieldsUnique(fs: seq<NodeField>, acc: Dict)
    requires ParseFields(fs, acc).Ok? && UniqueKeys(acc)
    ensures UniqueKeys(ParseFields(fs, acc).value)
    decreases fs
  {
    if |fs| > 0 {
      ParseFieldsStep(fs, acc);
      var v := ParseItem(fs[0].node).value;
      AssignUnique(acc, fs[0].name, v);
      ParseFieldsUnique(fs[1..], Assign(acc, fs[0].name, v));
    }
  }

  /** No string occurs twice in `ks`. */
  predicate Distinct(ks: seq<string>) {
    forall i, j :: 0 <= i < j < |ks| ==> ks[i] != ks[j]
  }

  /** A member whose value parses to `v` is assigned before the rest. */
  lemma ParseFieldsCons(fs: seq<NodeField>, acc: Dict, v: Value)
    requires |fs| > 0 && ParseItem(fs[0].node) == Ok(v)
    ensures ParseFields(fs, acc) == ParseFields(fs[1..], Assign(acc, fs[0].name, v))
  {
  }

  /** Assigning a key absent from a dict appends it to the key order. */
  lemma AssignFresh(acc: Dict, ks: seq<string>, v: Value)
    requires |ks| > 0 && Distinct(Keys(acc) + ks)
    ensures Assign(acc, ks[0], v) == acc + [Field(ks[0], v)]
    ensures Keys(Assign(acc, ks[0], v)) + ks[1..] == Keys(acc) + ks
  {
    FreshKey(acc, ks);
    KeysSnoc(acc, Field(ks[0], v));
    AppendFirst(Keys(acc), ks);
  }

  lemma FreshKey(acc: Dict, ks: seq<string>)
    requires |ks| > 0 && Distinct(Keys(acc) + ks)
    ensures !HasKey(acc, ks[0])
  {
    var all := Keys(acc) + ks;
    forall i | 0 <= i < |acc|
      ensures acc[i].key != ks[0]
    {
      assert all[i] != all[|acc|];
    }
  }

  lemma KeysSnoc(d: Dict, f: Field)
    ensures Keys(d + [f]) == Keys(d) + [f.key]
  {
  }

  /** With member names distinct from each other and from the keys already present, the keys come
      out in member order after the ones already present. */
  lemma {:induction false} ParseFieldsOrder(fs: seq<NodeField>, acc: Dict)
    requires ParseFields(fs, acc).Ok?
    requires Distinct(Keys(acc) + Names(fs))
    ensures Keys(ParseFields(fs, acc).value) == Keys(acc) + Names(fs)
    decreases fs
  {
    if |fs| > 0 {
      ParseFieldsStep(fs, acc);
      var v := ParseItem(fs[0].node).value;
      AssignFresh(acc, Names(fs), v);
      assert Names(fs)[1..] == Names(fs[1..]);
      ParseFieldsOrder(fs[1..], Assign(acc, fs[0].name, v));
    }
  }

  /** `parse_composite_value` keeps exactly the keys of `compositeValues`, each once, and in
      their order when they are distinct. */
  lemma CompositeKeys(e: Node)
    requires ParseCompositeValue(e).Ok?
    ensures forall k :: HasKey(ParseCompositeValue(e).value, k) <==> k in Names(e.compositeValues)
    ensures UniqueKeys(ParseCompositeValue(e).value)
    ensures Distinct(Names(e.compositeValues)) ==> Keys(ParseCompositeValue(e).value) == Names(e.compositeValues)
  {
    var fs := e.compositeValues;
    forall k
      ensures HasKey(ParseCompositeValue(e).value, k) <==> k in Names(fs)
    {
      ParseFieldsKeys(fs, [], k);
    }
    ParseFieldsUnique(fs, []);
    if Distinct(Names(fs)) {
      assert Keys([]) + Names(fs) == Names(fs);
      ParseFieldsOrder(fs, []);
    }
  }

  // ---------------------------------------------------------------------------------------------
  // The encoding the walk inverts

  /** A value the JSON form carries intact: non-empty strings, lists and key-unique dicts of such
      values. An empty string is its field's default, so the JSON form drops its `strVal` and the
      walk of that node fails with `KeyError` (see `ParseItem`). */
  predicate Encodable(v: Value)
    decreases v
  {
    match v
    case Str(s) => |s| > 0
    case List(xs) => forall i :: 0 <= i < |xs| ==> Encodable(xs[i])
    case Composite(d) => UniqueKeys(d) && forall i :: 0 <= i < |d| ==> Encodable(d[i].value)
    case _ => false
  }

  /** The JSON node of a value. */
  function Encode(v: Value): (n: Node)
    requires Encodable(v)
    decreases v, 1
  {
    match v
    case Str(s) => Node(None, false, false, Some(s), [], [])
    case List(xs) => Node(None, true, false, None, EncodeAll(xs), [])
    case Composite(d) => Node(None, false, true, None, [], EncodeFields(d))
  }

  function EncodeAll(xs: seq<Value>): (ns: seq<Node>)
    requires forall i :: 0 <= i < |xs| ==> Encodable(xs[i])
    decreases xs, 0
  {
    if |xs| == 0 then [] else [Encode(xs[0])] + EncodeAll(xs[1..])
  }

  function EncodeFields(d: Dict): (fs: seq<NodeField>)
    requires forall i :: 0 <= i < |d| ==> Encodable(d[i].value)
    decreases d, 0
  {
    if |d| == 0 then [] else [NodeField(d[0].key, Encode(d[0].value))] + EncodeFields(d[1..])
  }

  /** Walking the node of a value gives the value back. */
  lemma {:induction false} ParseEncode(v: Value)
    requires Encodable(v)
    ensures ParseItem(Encode(v)) == Ok(v)
    decreases v, 1
  {
    match v
    case Str(_) =>
    case List(xs) =>
      ParseItemsEncode(xs);
    case Composite(d) =>
      var fs := EncodeFields(d);
      EncodeFieldsPointwise(d);
      forall i | 0 <= i < |d|
        ensures ParseItem(fs[i].node) == Ok(d[i].value)
      {
        ParseEncode(d[i].value);
      }
      assert [] + d == d;
      assert Keys([]) + Keys(d) == Keys(d);
      ParseFieldsOfParsed(fs, [], d);
  }

  lemma {:induction false} ParseItemsEncode(xs: seq<Value>)
    requires forall i :: 0 <= i < |xs| ==> Encodable(xs[i])
    ensures ParseItems(EncodeAll(xs)) == Ok(xs)
    decreases xs, 0
  {
    if |xs| > 0 {
      ParseEncode(xs[0]);
      ParseItemsEncode(xs[1..]);
      assert xs == [xs[0]] + xs[1..];
    }
  }

  /** Members that parse one by one to the fields of `d`, with fresh names, add `d` to the
      parse. */
  lemma {:induction false} ParseFieldsOfParsed(fs: seq<NodeField>, acc: Dict, d: Dict)
    requires |fs| == |d| && Distinct(Keys(acc) + Keys(d))
    requires forall i :: 0 <= i < |d| ==> fs[i].name == d[i].key && ParseItem(fs[i].node) == Ok(d[i].value)
    ensures ParseFields(fs, acc) == Ok(acc + d)
    decreases fs
  {
    if |fs| > 0 {
      var acc' := acc + [d[0]];
      ParseFieldsCons(fs, acc, d[0].value);
      AssignFresh(acc, Keys(d), d[0].value);
      assert Field(d[0].key, d[0].value) == d[0];
      assert ParseFields(fs, acc) == ParseFields(fs[1..], acc');
      assert Keys(d)[1..] == Keys(d[1..]);
      ParseFieldsOfParsed(fs[1..], acc', d[1..]);
      AppendFirst(acc, d);
    } else {
      assert acc + d == acc;
    }
  }

  lemma AppendFirst<T>(a: seq<T>, b: seq<T>)
    requires |b| > 0
    ensures (a + [b[0]]) + b[1..] == a + b
  {
  }

  lemma {:induction false} EncodeFieldsPointwise(d: Dict)
    requires forall i :: 0 <= i < |d| ==> Encodable(d[i].value)
    ensures |EncodeFields(d)| == |d|
    ensures forall i :: 0 <= i < |d| ==> EncodeFields(d)[i] == NodeField(d[i].key, Encode(d[i].value))
    decreases d
  {
    if |d| > 0 {
      EncodeFieldsPointwise(d[1..]);
    }
  }

  // ---------------------------------------------------------------------------------------------
  // The response

  /** The `intentResponse` part of the decoded message. */
  datatype IntentResponse = IntentResponse(intentString: Option<string>, entities: seq<Node>)

  /** The decoded message: only whether it has an `intentResponse` matters. */
  datatype Message = Message(intentResponse: Option<IntentResponse>)

  /** The value one top-level entity contributes. It differs from a nested item only in that an
      absent `strVal` reads as `''` instead of raising. */
  function EntityValue(e: Node): Result<Value> {
    if e.isList then
      var xs :- ParseListValue(e);
      Ok(List(xs))
    else if e.isComposite then
      var d :- ParseCompositeValue(e);
      Ok(Composite(d))
    else Ok(Str(e.strVal.GetOr("")))
  }

  /** A top-level entity is read like a nested item, except that an absent `strVal` gives `''`. */
  lemma EntityValueIsItem(e: Node)
    ensures e.isList || e.isComposite || e.strVal.Some? ==> EntityValue(e) == ParseItem(e)
    ensures !e.isList && !e.isComposite && e.strVal.None? ==> EntityValue(e) == Ok(Str(""))
  {
  }

  /** Every entity's key and value, in order: the first entity without a key (`e['key']`,
      read before the value) or with a failing value is the result. */
  function EntityPairs(es: seq<Node>): (r: Result<seq<Field>>)
    ensures r.Ok? ==> |r.value| == |es|
    ensures r.Err? <==> exists i :: 0 <= i < |es| && (es[i].key.None? || EntityValue(es[i]).Err?)
    decreases es
  {
    if |es| == 0 then Ok([])
    else if es[0].key.None? then Err(KeyError)
    else
      var v :- EntityValue(es[0]);
      var rest := EntityPairs(es[1..]);
      assert forall i :: 1 <= i < |es| ==> es[i] == es[1..][i - 1];
      if rest.Err? then
        Err(rest.fault)
      else
        Ok([Field(es[0].key.value, v)] + rest.value)
  }

  /** The keys of a successful walk are the entities' keys, one for one. */
  lemma {:induction false} EntityPairsKeys(es: seq<Node>)
    requires EntityPairs(es).Ok?
    ensures forall i :: 0 <= i < |es| ==> es[i].key == Some(EntityPairs(es).value[i].key)
    decreases es
  {
    if |es| > 0 {
      EntityPairsKeys(es[1..]);
      assert forall i :: 1 <= i < |es| ==> es[i] == es[1..][i - 1];
    }
  }

  /** The value paired with an entity is the entity's value. */
  lemma {:induction false} EntityPairsAt(es: seq<Node>, i: nat)
    requires EntityPairs(es).Ok? && i < |es|
    ensures EntityValue(es[i]).Ok? && EntityPairs(es).value[i].value == EntityValue(es[i]).value
    decreases es
  {
    if i > 0 {
      EntityPairsAt(es[1..], i - 1);
      assert es[1..][i - 1] == es[i];
    }
  }

  /** `for k, v in ps: d[k] = v`. */
  function AssignAll(d: Dict, ps: seq<Field>): (r: Dict)
    ensures |d| <= |r| <= |d| + |ps|
    ensures forall i :: 0 <= i < |d| ==> r[i].key == d[i].key
    decreases ps
  {
    if |ps| == 0 then d else AssignAll(Assign(d, ps[0].key, ps[0].value), ps[1..])
  }

  /** The keys after the assignments: those of `d` plus those assigned. */
  lemma {:induction false} AssignAllKeys(d: Dict, ps: seq<Field>, k: string)
    ensures HasKey(AssignAll(d, ps), k) <==> HasKey(d, k) || HasKey(ps, k)
    decreases ps
  {
    if |ps| > 0 {
      AssignAllKeys(Assign(d, ps[0].key, ps[0].value), ps[1..], k);
      AssignHasKey(d, ps[0].key, ps[0].value, k);
      HasKeyCons(ps, k);
    }
  }

  /** Assignments never repeat a key. */
  lemma {:induction false} AssignAllUnique(d: Dict, ps: seq<Field>)
    requires UniqueKeys(d)
    ensures UniqueKeys(AssignAll(d, ps))
    decreases ps
  {
    if |ps| > 0 {
      AssignUnique(d, ps[0].key, ps[0].value);
      AssignAllUnique(Assign(d, ps[0].key, ps[0].value), ps[1..]);
    }
  }

  /** A key never assigned keeps its value. */
  lemma {:induction false} AssignAllKeeps(d: Dict, ps: seq<Field>, k: string)
    requires forall i :: 0 <= i < |ps| ==> ps[i].key != k
    ensures Get(AssignAll(d, ps), k) == Get(d, k)
    decreases ps
  {
    if |ps| > 0 {
      AssignOther(d, ps[0].key, ps[0].value, k);
      AssignAllKeeps(Assign(d, ps[0].key, ps[0].value), ps[1..], k);
    }
  }

  /** A key assigned several times holds the last value assigned to it. */
  lemma {:induction false} AssignAllLastWins(d: Dict, ps: seq<Field>, j: nat)
    requires j < |ps|
    requires forall i :: j < i < |ps| ==> ps[i].key != ps[j].key
    ensures Get(AssignAll(d, ps), ps[j].key) == Some(ps[j].value)
    decreases ps
  {
    var d' := Assign(d, ps[0].key, ps[0].value);
    if j == 0 {
      AssignAllKeeps(d', ps[1..], ps[0].key);
    } else {
      AssignAllLastWins(d', ps[1..], j - 1);
    }
  }

  /** The entity map: `emap[e['key']] = ...` for every entity in order. */
  function EntityMap(es: seq<Node>): (r: Result<Dict>)
    ensures r.Err? <==> exists i :: 0 <= i < |es| && (es[i].key.None? || EntityValue(es[i]).Err?)
    ensures r.Ok? ==> UniqueKeys(r.value) && |r.value| <= |es|
  {
    var ps :- EntityPairs(es);
    AssignAllUnique([], ps);
    Ok(AssignAll([], ps))
  }

  /** The dict-walking half of `response_pb2dict`: `{}` (here `None`) without an intent response,
      else the intent string (`''` when absent) and a one-element list holding the entity map. */
  function ResponseToDict(m: Message): (r: Result<Option<PredResponse>>)
    ensures m.intentResponse.None? ==> r == Ok(None)
    ensures m.intentResponse.Some? && r.Ok? ==>
      && r.value.Some?
      && r.value.value.intent == m.intentResponse.value.intentString.GetOr("")
      && |r.value.value.entities| == 1
    ensures m.intentResponse.Some? ==>
      (r.Ok? <==> EntityPairs(m.intentResponse.value.entities).Ok?)
  {
    match m.intentResponse
    case None => Ok(None)
    case Some(ir) =>
      var emap :- EntityMap(ir.entities);
      Ok(Some(PredResponse(ir.intentString.GetOr(""), [emap])))
  }

  /** The entity map of a successful walk never repeats a key, and a key holds the value of the
      last entity that names it. */
  lemma EntityMapLast(es: seq<Node>, j: nat)
    requires EntityPairs(es).Ok? && j < |es|
    requires forall i :: j < i < |es| ==> es[i].key != es[j].key
    ensures es[j].key.Some? && EntityValue(es[j]).Ok?
    ensures UniqueKeys(AssignAll([], EntityPairs(es).value))
    ensures Get(AssignAll([], EntityPairs(es).value), es[j].key.value) == Some(EntityValue(es[j]).value)
  {
    var ps := EntityPairs(es).value;
    EntityPairsKeys(es);
    EntityPairsAt(es, j);
    AssignAllUnique([], ps);
    AssignAllLastWins([], ps, j);
  }

  /** A decoded response's entity map never repeats a key, and a key holds the value of the last
      entity that names it. */
  lemma ResponseEntities(m: Message, j: nat)
    requires m.intentResponse.Some? && ResponseToDict(m).Ok?
    requires j < |m.intentResponse.value.entities|
    requires forall i :: j < i < |m.intentResponse.value.entities| ==>
      m.intentResponse.value.entities[i].key != m.intentResponse.value.entities[j].key
    ensures var es := m.intentResponse.value.entities;
      var emap := ResponseToDict(m).value.value.entities[0];
      && UniqueKeys(emap)
      && es[j].key.Some?
      && EntityValue(es[j]).Ok?
      && Get(emap, es[j].key.value) == Some(EntityValue(es[j]).value)
  {
    var es := m.intentResponse.value.entities;
    ResponseMap(m);
    EntityMapLast(es, j);
  }

  /** The entity map of a decoded response is the fold over its entities' pairs. */
  lemma ResponseMap(m: Message)
    requires m.intentResponse.Some? && ResponseToDict(m).Ok?
    ensures EntityPairs(m.intentResponse.value.entities).Ok?
    ensures ResponseToDict(m).value.value.entities[0] == AssignAll([], EntityPairs(m.intentResponse.value.entities).value)
  {
  }

  /** The keys of the entity map are exactly the entities' keys. */
  lemma ResponseKeys(m: Message, k: string)
    requires m.intentResponse.Some? && ResponseToDict(m).Ok?
    ensures HasKey(ResponseToDict(m).value.value.entities[0], k) <==>
      exists i :: 0 <= i < |m.intentResponse.value.entities| && m.intentResponse.value.entities[i].key == Some(k)
  {
    var es := m.intentResponse.value.entities;
    ResponseMap(m);
    var ps := EntityPairs(es).value;
    EntityPairsKeys(es);
    AssignAllKeys([], ps, k);
    if HasKey(ps, k) {
      var i :| 0 <= i < |ps| && ps[i].key == k;
      assert es[i].key == Some(k);
    }
    if exists i :: 0 <= i < |es| && es[i].key == Some(k) {
      var i :| 0 <= i < |es| && es[i].key == Some(k);
      assert ps[i].key == k;
    }
  }
}

=== FILE: slang_metrics.dfy ===
/** The set-like accuracy score of slang_metrics.py: both responses are turned into lists of
    one-key records, and the score is one minus the size of their symmetric difference over the
    size of their union, all three computed on Python lists with `==` as the only comparison. */
module SlangMetrics {
  import opened Wrappers
  import opened Values

  /** `x in xs` on a Python list: some item equals `x` under `==`. */
  predicate Member(x: Value, xs: seq<Value>) {
    exists j :: 0 <= j < |xs| && PyEq(x, xs[j])
  }

  /** No two items of `xs` are equal under `==`. */
  ghost predicate NoDup(xs: seq<Value>) {
    forall i, j :: 0 <= i < j < |xs| ==> !PyEq(xs[i], xs[j])
  }

  /** Every item of a list is `in` that list. */
  lemma MemberOfOwn(x: Value, xs: seq<Value>)
    requires x in xs
    ensures Member(x, xs)
  {
    PyEqReflexive(x);
  }

  /** Equal values are members of the same lists. */
  lemma MemberOfEqual(x: Value, y: Value, xs: seq<Value>)
    requires PyEq(x, y) && Member(y, xs)
    ensures Member(x, xs)
  {
    var j :| 0 <= j < |xs| && PyEq(y, xs[j]);
    PyEqTransitive(x, y, xs[j]);
  }

  /** `response_subtract(A, B)` (slang_metrics.py:4-9): the items of `A`, in order and with
      repetitions, that have no equal in `B`. */
  function Subtract(a: seq<Value>, b: seq<Value>): (r: seq<Value>)
    ensures |r| <= |a|
    ensures forall x :: x in r ==> x in a && !Member(x, b)
    ensures forall x :: x in a && !Member(x, b) ==> x in r
  {
    if |a| == 0 then []
    else
      var rest := Subtract(a[1..], b);
      assert forall x :: x in a ==> x == a[0] || x in a[1..];
      if Member(a[0], b) then rest else [a[0]] + rest
  }

  /** `r` is `a` with some items left out, the rest in their order. */
  predicate InOrder(r: seq<Value>, a: seq<Value>)
    decreases |a|
  {
    if |r| == 0 then true
    else if |a| == 0 then false
    else if r[0] == a[0] then InOrder(r[1..], a[1..])
    else InOrder(r, a[1..])
  }

  /** Subtracting keeps the surviving items in the order they have in `a`. */
  lemma {:induction false} SubtractInOrder(a: seq<Value>, b: seq<Value>)
    ensures InOrder(Subtract(a, b), a)
  {
    if |a| > 0 {
      SubtractInOrder(a[1..], b);
    }
  }

  /** Each value occurs in `Subtract(a, b)` as often as in `a` when `b` holds no equal of it, and
      not at all otherwise. */
  lemma {:induction false} SubtractCounts(a: seq<Value>, b: seq<Value>, x: Value)
    ensures multiset(Subtract(a, b))[x] == if Member(x, b) then 0 else multiset(a)[x]
  {
    if |a| > 0 {
      SubtractCounts(a[1..], b, x);
      assert a == [a[0]] + a[1..];
      assert multiset(a)[x] == multiset([a[0]])[x] + multiset(a[1..])[x];
      if !Member(a[0], b) {
        assert Subtract(a, b) == [a[0]] + Subtract(a[1..], b);
        assert multiset(Subtract(a, b))[x] == multiset([a[0]])[x] + multiset(Subtract(a[1..], b))[x];
      }
    }
  }

  /** Subtracting keeps a duplicate-free list duplicate-free. */
  lemma {:induction false} SubtractNoDup(a: seq<Value>, b: seq<Value>)
    requires NoDup(a)
    ensures NoDup(Subtract(a, b))
  {
    if |a| > 0 {
      assert NoDup(a[1..]) by {
        forall i, j | 0 <= i < j < |a[1..]| ensures !PyEq(a[1..][i], a[1..][j]) {
          assert a[1..][i] == a[i + 1] && a[1..][j] == a[j + 1];
        }
      }
      SubtractNoDup(a[1..], b);
      var rest := Subtract(a[1..], b);
      if !Member(a[0], b) {
        var r := [a[0]] + rest;
        forall i, j | 0 <= i < j < |r| ensures !PyEq(r[i], r[j]) {
          if i == 0 {
            assert r[j] == rest[j - 1];
            assert r[j] in a[1..];
            var k :| 0 <= k < |a[1..]| && a[1..][k] == r[j];
            assert a[k + 1] == r[j];
          } else {
            assert r[i] == rest[i - 1] && r[j] == rest[j - 1];
          }
        }
      }
    }
  }

  /** The first list of `xs` items with no equal among `seen` or among each other: the loop of
      `response_add`, started with `out == seen`. */
  function Dedup(seen: seq<Value>, xs: seq<Value>): (r: seq<Value>)
    ensures |seen| <= |r| <= |seen| + |xs|
    ensures r[..|seen|] == seen
    ensures forall x :: x in r ==> x in seen || x in xs
    ensures forall x :: x in xs ==> Member(x, r)
    ensures forall x :: Member(x, seen) ==> Member(x, r)
    decreases |xs|
  {
    if |xs| == 0 then seen
    else
      var next := if Member(xs[0], seen) then seen else seen + [xs[0]];
      assert Member(xs[0], next) by {
        if !Member(xs[0], seen) {
          PyEqReflexive(xs[0]);
          assert PyEq(xs[0], next[|seen|]);
        }
      }
      assert forall x :: Member(x, seen) ==> Member(x, next) by {
        forall x | Member(x, seen) ensures Member(x, next) {
          var j :| 0 <= j < |seen| && PyEq(x, seen[j]);
          assert next[j] == seen[j];
        }
      }
      var r := Dedup(next, xs[1..]);
      assert r[..|seen|] == seen by {
        assert r[..|next|] == next;
        assert next[..|seen|] == seen;
      }
      assert forall x :: x in xs ==> x == xs[0] || x in xs[1..];
      r
  }

  /** `Dedup` adds nothing equal to what is already there. */
  lemma {:induction false} DedupNoDup(seen: seq<Value>, xs: seq<Value>)
    requires NoDup(seen)
    ensures NoDup(Dedup(seen, xs))
    decreases |xs|
  {
    if |xs| > 0 {
      var next := if Member(xs[0], seen) then seen else seen + [xs[0]];
      assert NoDup(next) by {
        if !Member(xs[0], seen) {
          forall i, j | 0 <= i < j < |next| ensures !PyEq(next[i], next[j]) {
            if j == |seen| {
              assert next[i] == seen[i] && next[j] == xs[0];
              assert !PyEq(xs[0], seen[i]);
              if PyEq(seen[i], xs[0]) {
                PyEqSymmetric(seen[i], xs[0]);
              }
            }
          }
        }
      }
      DedupNoDup(next, xs[1..]);
    }
  }

  /** `response_add(A, B)` (slang_metrics.py:11-16): the items of `A + B` with later repeats (under
      `==`) dropped. */
  function Add(a: seq<Value>, b: seq<Value>): (r: seq<Value>)
    ensures |r| <= |a| + |b|
    ensures NoDup(r)
    ensures forall x :: x in r ==> x in a || x in b
    ensures forall x :: x in a || x in b ==> Member(x, r)
    ensures |a| + |b| > 0 ==> |r| > 0
  {
    DedupNoDup([], a + b);
    var r := Dedup([], a + b);
    assert forall x :: x in a || x in b ==> x in a + b;
    assert |a| + |b| > 0 ==> (a + b)[0] in a + b;
    r
  }

  /** The items of `xs` that equal no earlier item, in their order in `xs`: each kept item is the
      first of its class under `==`. */
  function FirstOccurrences(xs: seq<Value>): seq<Value>
    decreases |xs|
  {
    if |xs| == 0 then []
    else
      var init, last := xs[..|xs| - 1], xs[|xs| - 1];
      FirstOccurrences(init) + (if Member(last, init) then [] else [last])
  }

  /** Appending one item to a list adds exactly the values equal to it to the list's members. */
  lemma MemberSnoc(x: Value, s: seq<Value>, y: Value)
    ensures Member(x, s + [y]) <==> Member(x, s) || PyEq(x, y)
  {
    var t := s + [y];
    assert t[|s|] == y;
    if Member(x, s) {
      var j :| 0 <= j < |s| && PyEq(x, s[j]);
      assert t[j] == s[j];
    }
    if Member(x, t) {
      var j :| 0 <= j < |t| && PyEq(x, t[j]);
      if j < |s| {
        assert t[j] == s[j];
      }
    }
  }

  /** Keeping first occurrences loses no value: the same values are `in` both lists. */
  lemma {:induction false} FirstOccurrencesMember(x: Value, xs: seq<Value>)
    ensures Member(x, FirstOccurrences(xs)) <==> Member(x, xs)
    decreases |xs|
  {
    if |xs| > 0 {
      var init, last := xs[..|xs| - 1], xs[|xs| - 1];
      assert xs == init + [last];
      assert FirstOccurrences(xs) == FirstOccurrences(init) + (if Member(last, init) then [] else [last]);
      FirstOccurrencesMember(x, init);
      MemberSnoc(x, init, last);
      if Member(last, init) {
        assert FirstOccurrences(xs) == FirstOccurrences(init);
        if PyEq(x, last) {
          MemberOfEqual(x, last, init);
        }
      } else {
        MemberSnoc(x, FirstOccurrences(init), last);
      }
    }
  }

  /** Dedup started from the first occurrences of `p` yields the first occurrences of `p + xs`. */
  lemma {:induction false} DedupFirstOccurrences(p: seq<Value>, xs: seq<Value>)
    ensures Dedup(FirstOccurrences(p), xs) == FirstOccurrences(p + xs)
    decreases |xs|
  {
    if |xs| == 0 {
      assert p + xs == p;
    } else {
      var p' := p + [xs[0]];
      var q := p' + xs[1..];
      assert q == p + xs;
      DedupFirstStep(p, xs);
      assert Dedup(FirstOccurrences(p), xs) == Dedup(FirstOccurrences(p'), xs[1..]);
      DedupFirstOccurrences(p', xs[1..]);
      assert Dedup(FirstOccurrences(p'), xs[1..]) == FirstOccurrences(q);
    }
  }

  /** One more item is kept exactly when no member of the list before it equals it. */
  lemma FirstOccurrencesSnoc(p: seq<Value>, y: Value)
    ensures var f := FirstOccurrences(p);
      FirstOccurrences(p + [y]) == if Member(y, f) then f else f + [y]
  {
    var p' := p + [y];
    FirstOccurrencesMember(y, p);
    assert p'[..|p'| - 1] == p && p'[|p'| - 1] == y;
  }

  lemma DedupFirstStep(p: seq<Value>, xs: seq<Value>)
    requires |xs| > 0
    ensures Dedup(FirstOccurrences(p), xs) == Dedup(FirstOccurrences(p + [xs[0]]), xs[1..])
  {
    FirstOccurrencesSnoc(p, xs[0]);
    DedupStep(FirstOccurrences(p), xs);
  }

  lemma DedupStep(seen: seq<Value>, xs: seq<Value>)
    requires |xs| > 0
    ensures Dedup(seen, xs) == Dedup(if Member(xs[0], seen) then seen else seen + [xs[0]], xs[1..])
  {
  }

  /** `response_add` keeps, in order, exactly the items of `A + B` that equal no earlier item. */
  lemma AddIsFirstOccurrences(a: seq<Value>, b: seq<Value>)
    ensures Add(a, b) == FirstOccurrences(a + b)
  {
    DedupFirstOccurrences([], a + b);
    assert [] + (a + b) == a + b;
  }

  /** A duplicate-free list whose every item has an equal in `t` is no longer than `t`: distinct
      items need distinct partners. */
  lemma {:induction false} CoverLength(s: seq<Value>, t: seq<Value>)
    requires NoDup(s)
    requires forall x :: x in s ==> Member(x, t)
    ensures |s| <= |t|
  {
    if |s| > 0 {
      assert s[0] in s;
      var j :| 0 <= j < |t| && PyEq(s[0], t[j]);
      var t' := t[..j] + t[j + 1..];
      var s' := s[1..];
      forall x | x in s' ensures Member(x, t') {
        var i :| 0 <= i < |s'| && s'[i] == x;
        assert s[i + 1] == x && x in s;
        var k :| 0 <= k < |t| && PyEq(x, t[k]);
        if k == j {
          PyEqSymmetric(x, t[j]);
          PyEqTransitive(s[0], t[j], x);
          assert false;
        } else if k < j {
          assert t'[k] == t[k];
        } else {
          assert t'[k - 1] == t[k];
        }
      }
      assert NoDup(s') by {
        forall a, b | 0 <= a < b < |s'| ensures !PyEq(s'[a], s'[b]) {
          assert s'[a] == s[a + 1] && s'[b] == s[b + 1];
        }
      }
      CoverLength(s', t');
    }
  }

  /** The union has the same size whichever side comes first. */
  lemma AddLengthSymmetric(a: seq<Value>, b: seq<Value>)
    ensures |Add(a, b)| == |Add(b, a)|
  {
    var ab, ba := Add(a, b), Add(b, a);
    CoverLength(ab, ba);
    CoverLength(ba, ab);
  }

  /** `len(A_minus_B) + len(B_minus_A)`: the size of the symmetric difference. */
  function Difference(a: seq<Value>, b: seq<Value>): nat {
    |Subtract(a, b)| + |Subtract(b, a)|
  }

  /** Nothing is left after subtracting exactly when every item has an equal in the other list. */
  lemma SubtractEmpty(a: seq<Value>, b: seq<Value>)
    ensures |Subtract(a, b)| == 0 <==> forall x :: x in a ==> Member(x, b)
  {
  }

  /** `1 - score` as the code forms it from the difference `num` and the union size `den`: 1 when
      the difference is empty, otherwise `1 - num / den`. */
  function ScoreOf(num: nat, den: nat): (s: real)
    requires num == 0 || den > 0
    ensures s <= 1.0
    ensures s == 1.0 <==> num == 0
    ensures num <= den ==> s >= 0.0
  {
    if num == 0 then 1.0
    else
      Ratio(num, den);
      1.0 - num as real / den as real
  }

  lemma Ratio(n: nat, m: nat)
    requires 0 < n && 0 < m
    ensures n as real / m as real > 0.0
    ensures n <= m ==> n as real / m as real <= 1.0
  {
  }

  /** `slang_accuracy_score(A, B)` (slang_metrics.py:18-28): 1 when every item of each list has an
      equal in the other (two empty lists included), otherwise 1 minus the symmetric difference
      over the union. The union is never empty when the difference is not, so the division is
      always defined. */
  function Score(a: seq<Value>, b: seq<Value>): (s: real)
    ensures s <= 1.0
    ensures s == 1.0 <==> (forall x :: x in a ==> Member(x, b)) && (forall y :: y in b ==> Member(y, a))
  {
    SubtractEmpty(a, b);
    SubtractEmpty(b, a);
    ScoreOf(Difference(a, b), |Add(a, b)|)
  }

  /** The score does not depend on which response comes first. */
  lemma ScoreSymmetric(a: seq<Value>, b: seq<Value>)
    ensures Score(a, b) == Score(b, a)
  {
    AddLengthSymmetric(a, b);
    assert Difference(a, b) == Difference(b, a);
  }

  /** For duplicate-free lists the symmetric difference fits in the union, so the score is at
      least 0. */
  lemma ScoreNonNegative(a: seq<Value>, b: seq<Value>)
    requires NoDup(a) && NoDup(b)
    ensures Score(a, b) >= 0.0
  {
    var ab, ba := Subtract(a, b), Subtract(b, a);
    var d := ab + ba;
    SubtractNoDup(a, b);
    SubtractNoDup(b, a);
    assert NoDup(d) by {
      forall i, j | 0 <= i < j < |d| ensures !PyEq(d[i], d[j]) {
        if i < |ab| && j >= |ab| {
          assert d[i] == ab[i] && d[j] == ba[j - |ab|];
          assert d[i] in ab && d[j] in ba;
          assert !Member(d[i], b) && d[j] in b;
        } else if i < |ab| {
          assert d[i] == ab[i] && d[j] == ab[j];
        } else {
          assert d[i] == ba[i - |ab|] && d[j] == ba[j - |ab|];
        }
      }
    }
    assert forall x :: x in d ==> x in a || x in b;
    CoverLength(d, Add(a, b));
  }

  /** With a repeated item the score can drop below 0: `A = [x, x]` against `B = [y]` gives a
      difference of 3 over a union of 2. */
  lemma ScoreNegativeWithRepeats(x: Value, y: Value)
    requires !PyEq(x, y)
    ensures Score([x, x], [y]) == -0.5
  {
    var a, b := [x, x], [y];
    PyEqReflexive(x);
    PyEqReflexive(y);
    assert !PyEq(y, x) by {
      if PyEq(y, x) {
        PyEqSymmetric(y, x);
      }
    }
    assert !Member(x, b);
    assert !Member(y, a);
    assert Subtract(a, b) == [x, x] by {
      assert a[1..] == [x];
      assert Subtract([x], b) == [x];
    }
    assert Subtract(b, a) == [y];
    var u := Add(a, b);
    assert |u| == 2 by {
      var xy := [x, y];
      assert NoDup(xy);
      assert x in a && y in b;
      CoverLength(xy, u);
      forall z | z in u ensures Member(z, xy) {
        assert z in a || z in b;
        assert PyEq(z, xy[0]) || PyEq(z, xy[1]);
      }
      CoverLength(u, xy);
    }
  }

  /** One record `{k: v}` of a preprocessed response. */
  function Record(k: string, v: Value): Value {
    Composite([Field(k, v)])
  }

  /** `x` is one of the records field `f` expands to: `{key: item}` for each item of a list, or
      `{key: value}` for any other value. */
  predicate RecordOf(x: Value, f: Field) {
    if f.value.List? then exists item :: item in f.value.items && x == Record(f.key, item)
    else x == Record(f.key, f.value)
  }

  /** How many records `d` expands to. */
  function RecordCount(d: Dict): nat {
    if |d| == 0 then 0 else (if d[0].value.List? then |d[0].value.items| else 1) + RecordCount(d[1..])
  }

  /** The records of one field. */
  function FieldRecords(f: Field): (r: seq<Value>)
    ensures |r| == if f.value.List? then |f.value.items| else 1
    ensures forall x :: x in r <==> RecordOf(x, f)
    ensures f.value.List? ==> forall i :: 0 <= i < |r| ==> r[i] == Record(f.key, f.value.items[i])
    ensures !f.value.List? ==> r == [Record(f.key, f.value)]
  {
    if f.value.List? then
      var items := f.value.items;
      var r := seq(|items|, i requires 0 <= i < |items| => Record(f.key, items[i]));
      assert forall x :: RecordOf(x, f) ==> x in r by {
        forall x | RecordOf(x, f) ensures x in r {
          var item :| item in items && x == Record(f.key, item);
          var i :| 0 <= i < |items| && items[i] == item;
          assert r[i] == x;
        }
      }
      r
    else [Record(f.key, f.value)]
  }

  /** The loop of `preprocess_entity_response` over a dict (slang_metrics.py:32-37). */
  function Records(d: Dict): (r: seq<Value>)
    ensures |r| == RecordCount(d)
    ensures forall x :: x in r <==> exists i :: 0 <= i < |d| && RecordOf(x, d[i])
  {
    if |d| == 0 then []
    else
      var rest := Records(d[1..]);
      assert forall x :: (exists i :: 0 <= i < |d| && RecordOf(x, d[i])) <==>
        RecordOf(x, d[0]) || exists i :: 0 <= i < |d[1..]| && RecordOf(x, d[1..][i]) by {
        forall x | exists i :: 0 <= i < |d| && RecordOf(x, d[i])
          ensures RecordOf(x, d[0]) || exists i :: 0 <= i < |d[1..]| && RecordOf(x, d[1..][i])
        {
          var i :| 0 <= i < |d| && RecordOf(x, d[i]);
          if i > 0 {
            assert d[1..][i - 1] == d[i];
          }
        }
      }
      FieldRecords(d[0]) + rest
  }

  /** The records of a dict are those of its fields, field after field: those of `d1 + d2` are
      those of `d1` followed by those of `d2`, and a one-field dict gives that field's records. */
  lemma {:induction false} RecordsConcat(d1: Dict, d2: Dict)
    ensures Records(d1 + d2) == Records(d1) + Records(d2)
    decreases |d1|
  {
    if |d1| > 0 {
      assert (d1 + d2)[0] == d1[0];
      assert (d1 + d2)[1..] == d1[1..] + d2;
      RecordsConcat(d1[1..], d2);
    } else {
      assert d1 + d2 == d2;
    }
  }

  /** `preprocess_entity_response(response)` (slang_metrics.py:30-38): the records of the first
      candidate entity dict, `IndexError` if there is none. */
  function Preprocess(response: PredResponse): (r: Result<seq<Value>>)
    ensures r.Err? <==> |response.entities| == 0
    ensures r.Ok? ==> r.value == Records(response.entities[0])
  {
    if |response.entities| == 0 then Err(IndexError) else Ok(Records(response.entities[0]))
  }

  /** `compute_translation_score` and `compute_asr_score` (slang_metrics.py:40-50), which are the
      same computation: preprocess both responses, then score the records. */
  function ResponseScore(r1: PredResponse, r2: PredResponse): (s: Result<real>)
    ensures s.Ok? <==> |r1.entities| > 0 && |r2.entities| > 0
    ensures s.Ok? ==> s.value <= 1.0
  {
    var a :- Preprocess(r1);
    var b :- Preprocess(r2);
    Ok(Score(a, b))
  }

  /** A response scored against itself scores exactly 1. */
  lemma SelfScoreIsOne(r: PredResponse)
    requires |r.entities| > 0
    ensures ResponseScore(r, r) == Ok(1.0)
  {
    var a := Records(r.entities[0]);
    forall x | x in a ensures Member(x, a) {
      MemberOfOwn(x, a);
    }
  }

  /** Swapping the two responses does not change the score. */
  lemma ResponseScoreSymmetric(r1: PredResponse, r2: PredResponse)
    ensures ResponseScore(r1, r2) == ResponseScore(r2, r1)
  {
    if |r1.entities| > 0 && |r2.entities| > 0 {
      ScoreSymmetric(Records(r1.entities[0]), Records(r2.entities[0]));
    }
  }
}

=== FILE: text.dfy ===
/** Python string primitives the evaluation code relies on: `str.lower`, `str.split()`,
    `str.strip()`, `str.replace`, slicing with clamped indices, substring `in` and `str(int)`.

    Whitespace is exactly the set of code points for which Python's `str.isspace()` holds; case
    folding covers ASCII letters only. */
module Text {

  /** Python's `str.isspace()` for one code point. */
  predicate IsSpace(c: char)
    ensures IsSpace(c) ==> !('a' <= c <= 'z' || 'A' <= c <= 'Z' || '0' <= c <= '9')
    ensures c == ' ' || c == '\t' || c == '\n' || c == '\r' ==> IsSpace(c)
  {
    || c == ' '
    || ('\t' <= c <= '\r')
    || ('\U{1C}' <= c <= '\U{1F}')
    || c == '\U{85}' || c == '\U{A0}' || c == '\U{1680}'
    || ('\U{2000}' <= c <= '\U{200A}')
    || c == '\U{2028}' || c == '\U{2029}' || c == '\U{202F}' || c == '\U{205F}' || c == '\U{3000}'
  }

  predicate IsUpper(c: char) {
    'A' <= c <= 'Z'
  }

  /** `c.lower()` on ASCII letters; every other code point is left as it is. */
  function Lower(c: char): (r: char)
    ensures !IsUpper(r)
    ensures IsSpace(r) <==> IsSpace(c)
    ensures !IsUpper(c) ==> r == c
  {
    if IsUpper(c) then (c as int + 32) as char else c
  }

  /** `s.lower()`. */
  function LowerStr(s: string): (r: string)
    ensures |r| == |s|
    ensures forall i :: 0 <= i < |s| ==> r[i] == Lower(s[i])
  {
    seq(|s|, i requires 0 <= i < |s| => Lower(s[i]))
  }

  /** No upper-case ASCII letter occurs in `s`. */
  predicate IsLowerStr(s: string) {
    forall i :: 0 <= i < |s| ==> !IsUpper(s[i])
  }

  /** No whitespace occurs in `s`. */
  predicate NoSpace(s: string) {
    forall i :: 0 <= i < |s| ==> !IsSpace(s[i])
  }

  lemma LowerStrIsLower(s: string)
    ensures IsLowerStr(LowerStr(s))
  {
  }

  /** Lower-casing a string that has no upper-case letter changes nothing. */
  lemma LowerStrOfLower(s: string)
    requires IsLowerStr(s)
    ensures LowerStr(s) == s
  {
  }

  /** Length of the longest whitespace-free prefix of `s`. */
  function TokenLen(s: string): (n: nat)
    ensures n <= |s|
    ensures NoSpace(s[..n])
    ensures n < |s| ==> IsSpace(s[n])
  {
    if |s| == 0 || IsSpace(s[0]) then 0 else 1 + TokenLen(s[1..])
  }

  /** `s.split()`: the maximal runs of non-whitespace, left to right. */
  function Split(s: string): (r: seq<string>)
    ensures forall i :: 0 <= i < |r| ==> |r[i]| > 0 && NoSpace(r[i])
    decreases |s|
  {
    if |s| == 0 then []
    else if IsSpace(s[0]) then Split(s[1..])
    else
      var n := TokenLen(s);
      [s[..n]] + Split(s[n..])
  }

  /** The concatenation of a list of strings. */
  function Concat(ts: seq<string>): string {
    if |ts| == 0 then [] else ts[0] + Concat(ts[1..])
  }

  /** `s` with every whitespace code point removed. */
  function RemoveSpaces(s: string): (r: string) {
    if |s| == 0 then []
    else if IsSpace(s[0]) then RemoveSpaces(s[1..])
    else [s[0]] + RemoveSpaces(s[1..])
  }

  lemma RemoveSpacesOfNoSpace(s: string)
    requires NoSpace(s)
    ensures RemoveSpaces(s) == s
  {
  }

  lemma {:induction false} RemoveSpacesAppend(a: string, b: string)
    ensures RemoveSpaces(a + b) == RemoveSpaces(a) + RemoveSpaces(b)
  {
    if |a| > 0 {
      assert (a + b)[1..] == a[1..] + b;
      RemoveSpacesAppend(a[1..], b);
    } else {
      assert a + b == b;
    }
  }

  /** Splitting loses exactly the whitespace: the tokens, glued together, are the input without
      its whitespace. */
  lemma {:induction false} SplitConcat(s: string)
    ensures Concat(Split(s)) == RemoveSpaces(s)
    decreases |s|
  {
    if |s| == 0 {
    } else if IsSpace(s[0]) {
      SplitConcat(s[1..]);
    } else {
      var n := TokenLen(s);
      SplitConcat(s[n..]);
      assert s == s[..n] + s[n..];
      RemoveSpacesAppend(s[..n], s[n..]);
      RemoveSpacesOfNoSpace(s[..n]);
      assert ([s[..n]] + Split(s[n..]))[1..] == Split(s[n..]);
    }
  }

  /** A non-empty string without whitespace is one token. */
  lemma {:induction false} SplitOfToken(t: string)
    requires |t| > 0 && NoSpace(t)
    ensures Split(t) == [t]
  {
    TokenLenOfNoSpace(t);
    assert t[|t|..] == [];
    assert t[..|t|] == t;
  }

  lemma TokenLenOfNoSpace(t: string)
    requires NoSpace(t)
    ensures TokenLen(t) == |t|
  {
  }

  lemma {:induction false} TokenLenBeforeSpace(t: string, rest: string)
    requires NoSpace(t) && |rest| > 0 && IsSpace(rest[0])
    ensures TokenLen(t + rest) == |t|
    decreases |t|
  {
    if |t| > 0 {
      assert (t + rest)[1..] == t[1..] + rest;
      TokenLenBeforeSpace(t[1..], rest);
    }
  }

  /** The first token ends where it ended before when something is appended after a whitespace
      character, or right after the token. */
  lemma {:induction false} TokenLenAppend(a: string, rest: string)
    requires TokenLen(a) < |a| || (|rest| > 0 && IsSpace(rest[0]))
    ensures TokenLen(a + rest) == TokenLen(a)
    decreases |a|
  {
    if |a| == 0 {
      assert a + rest == rest;
    } else if !IsSpace(a[0]) {
      assert (a + rest)[1..] == a[1..] + rest;
      TokenLenAppend(a[1..], rest);
    }
  }

  /** A whitespace character separates tokens: what comes before it and what comes after it split
      independently. With `SplitOfToken` and `Split("") == []` this fixes `Split` on every input,
      since a non-empty string either holds no whitespace or has a whitespace character at some
      position; so the tokens are exactly the input's maximal non-whitespace runs, in order. */
  lemma {:induction false} SplitAtSpace(a: string, c: char, b: string)
    requires IsSpace(c)
    ensures Split(a + [c] + b) == Split(a) + Split(b)
    decreases |a|
  {
    if |a| == 0 {
      SplitAtSpaceFirst(a, c, b);
    } else if IsSpace(a[0]) {
      SplitAtSpace(a[1..], c, b);
      SplitAtSpaceAfterSpace(a, c, b);
    } else {
      SplitAtSpace(a[TokenLen(a)..], c, b);
      SplitAtSpaceAfterToken(a, c, b);
    }
  }

  lemma SplitAtSpaceFirst(a: string, c: char, b: string)
    requires IsSpace(c) && |a| == 0
    ensures Split(a + [c] + b) == Split(a) + Split(b)
  {
  }

  lemma {:induction false} SplitAtSpaceAfterSpace(a: string, c: char, b: string)
    requires IsSpace(c) && |a| > 0 && IsSpace(a[0])
    requires Split(a[1..] + [c] + b) == Split(a[1..]) + Split(b)
    ensures Split(a + [c] + b) == Split(a) + Split(b)
  {
    SplitSpaceThen(a, c, b);
    SplitStep(a);
  }

  /** Leading whitespace is skipped whatever follows it. */
  lemma SplitSpaceThen(a: string, c: char, b: string)
    requires |a| > 0 && IsSpace(a[0])
    ensures Split(a + [c] + b) == Split(a[1..] + [c] + b)
  {
    var s := a + [c] + b;
    SplitStep(s);
    assert s[1..] == a[1..] + [c] + b;
  }

  lemma {:induction false} SplitAtSpaceAfterToken(a: string, c: char, b: string)
    requires IsSpace(c) && |a| > 0 && !IsSpace(a[0])
    requires Split(a[TokenLen(a)..] + [c] + b) == Split(a[TokenLen(a)..]) + Split(b)
    ensures Split(a + [c] + b) == Split(a) + Split(b)
  {
    SplitTokenThenSpace(a, c, b);
    SplitStep(a);
  }

  /** Appending a whitespace character and more leaves the first token of a string that starts
      with one as it was. */
  lemma SplitTokenThenSpace(a: string, c: char, b: string)
    requires |a| > 0 && !IsSpace(a[0]) && IsSpace(c)
    ensures Split(a + [c] + b) == [a[..TokenLen(a)]] + Split(a[TokenLen(a)..] + [c] + b)
  {
    var rest := [c] + b;
    var s := a + rest;
    assert s == a + [c] + b;
    var n := TokenLen(a);
    TokenLenAppend(a, rest);
    SplitStep(s);
    assert s[..n] == a[..n];
    assert s[n..] == a[n..] + [c] + b;
  }

  /** One step of `Split`: leading whitespace is skipped, and otherwise the first token is cut off. */
  lemma SplitStep(s: string)
    requires |s| > 0
    ensures IsSpace(s[0]) ==> Split(s) == Split(s[1..])
    ensures !IsSpace(s[0]) ==> Split(s) == [s[..TokenLen(s)]] + Split(s[TokenLen(s)..])
  {
  }

  /** Two words joined by one space split back into the two words. */
  lemma SplitTwoWords(a: string, b: string)
    requires |a| > 0 && NoSpace(a) && |b| > 0 && NoSpace(b)
    ensures Split(a + " " + b) == [a, b]
  {
    var s := a + " " + b;
    TokenLenBeforeSpace(a, " " + b);
    assert s == a + (" " + b);
    assert s[..|a|] == a;
    assert s[|a|..] == " " + b;
    assert (" " + b)[1..] == b;
    SplitOfToken(b);
  }

  /** Splitting a string without upper-case letters yields tokens without upper-case letters. */
  lemma {:induction false} SplitOfLower(s: string)
    requires IsLowerStr(s)
    ensures forall i :: 0 <= i < |Split(s)| ==> IsLowerStr(Split(s)[i])
    decreases |s|
  {
    if |s| == 0 {
    } else if IsSpace(s[0]) {
      SplitOfLower(s[1..]);
    } else {
      var n := TokenLen(s);
      SplitOfLower(s[n..]);
    }
  }

  /** `s.lstrip()`. */
  function LStrip(s: string): (r: string)
    ensures |r| <= |s| && r == s[|s| - |r|..]
    ensures forall k :: 0 <= k < |s| - |r| ==> IsSpace(s[k])
    ensures |r| > 0 ==> !IsSpace(r[0])
  {
    if |s| > 0 && IsSpace(s[0]) then LStrip(s[1..]) else s
  }

  /** `s.rstrip()`. */
  function RStrip(s: string): (r: string)
    ensures |r| <= |s| && r == s[..|r|]
    ensures forall k :: |r| <= k < |s| ==> IsSpace(s[k])
    ensures |r| > 0 ==> !IsSpace(r[|r| - 1])
  {
    if |s| > 0 && IsSpace(s[|s| - 1]) then RStrip(s[..|s| - 1]) else s
  }

  /** Neither end of `s` is whitespace. */
  predicate Stripped(s: string) {
    |s| == 0 || (!IsSpace(s[0]) && !IsSpace(s[|s| - 1]))
  }

  /** Where `s.strip()` starts: the length of the leading whitespace. */
  function StripStart(s: string): (i: nat)
    ensures i <= |s|
  {
    |s| - |LStrip(s)|
  }

  /** `s.strip()`: the middle part of `s` left once the whitespace at both ends is cut off. */
  function Strip(s: string): (r: string)
    ensures Stripped(r)
    ensures StripStart(s) + |r| <= |s|
    ensures r == s[StripStart(s)..StripStart(s) + |r|]
    ensures forall k :: 0 <= k < StripStart(s) ==> IsSpace(s[k])
    ensures forall k :: StripStart(s) + |r| <= k < |s| ==> IsSpace(s[k])
  {
    var l := LStrip(s);
    var r := RStrip(l);
    MiddleSlice(s, l, r);
    r
  }

  /** A prefix `r` of a suffix `l` of `s` is a slice of `s`, and what `l` has after `r` is what
      `s` has after it. */
  lemma MiddleSlice(s: string, l: string, r: string)
    requires |l| <= |s| && l == s[|s| - |l|..]
    requires |r| <= |l| && r == l[..|r|]
    requires forall k :: |r| <= k < |l| ==> IsSpace(l[k])
    ensures r == s[|s| - |l|..|s| - |l| + |r|]
    ensures forall k :: |s| - |l| + |r| <= k < |s| ==> IsSpace(s[k])
  {
  }

  /** Stripping a string whose ends are not whitespace changes nothing. */
  lemma StripOfStripped(s: string)
    requires Stripped(s)
    ensures Strip(s) == s
  {
  }

  /** `x in s` for strings: `x` occurs in `s` as a contiguous substring (the empty string occurs in
      every string). */
  predicate IsSubstring(x: string, s: string)
    decreases |s|
  {
    (|x| <= |s| && s[..|x|] == x) || (|s| > 0 && IsSubstring(x, s[1..]))
  }

  lemma {:induction false} IsSubstringAt(x: string, s: string, i: nat)
    requires i + |x| <= |s| && s[i..i + |x|] == x
    ensures IsSubstring(x, s)
    decreases i
  {
    if i > 0 {
      assert s[1..][i - 1..i - 1 + |x|] == x;
      IsSubstringAt(x, s[1..], i - 1);
    }
  }

  /** `s.replace(pat, sub)`: every non-overlapping occurrence of `pat`, scanned left to right,
      becomes `sub`. With an empty `pat`, Python inserts `sub` before every character and at the
      end. */
  function Replace(s: string, pat: string, sub: string): (r: string)
    ensures |pat| == 0 ==> |r| == |s| + (|s| + 1) * |sub|
    ensures |pat| > 0 && |s| < |pat| ==> r == s
    decreases |s|
  {
    if |pat| == 0 then
      if |s| == 0 then sub
      else
        var rest := Replace(s[1..], pat, sub);
        StepProduct(|s| - 1 + 1, |sub|);
        sub + [s[0]] + rest
    else if |s| < |pat| then s
    else if s[..|pat|] == pat then sub + Replace(s[|pat|..], pat, sub)
    else [s[0]] + Replace(s[1..], pat, sub)
  }

  /** How many occurrences `Replace` rewrites: non-overlapping, leftmost first. */
  function CountOccurrences(s: string, pat: string): nat
    requires |pat| > 0
    decreases |s|
  {
    if |s| < |pat| then 0
    else if s[..|pat|] == pat then 1 + CountOccurrences(s[|pat|..], pat)
    else CountOccurrences(s[1..], pat)
  }

  /** Every counted occurrence is rewritten: the length changes by `|sub| - |pat|` per
      occurrence. */
  lemma {:induction false} ReplaceLength(s: string, pat: string, sub: string)
    requires |pat| > 0
    ensures |Replace(s, pat, sub)| == |s| + CountOccurrences(s, pat) * (|sub| - |pat|)
    decreases |s|
  {
    if |s| < |pat| {
    } else if s[..|pat|] == pat {
      var rest := s[|pat|..];
      ReplaceLength(rest, pat, sub);
      assert Replace(s, pat, sub) == sub + Replace(rest, pat, sub);
      assert CountOccurrences(s, pat) == 1 + CountOccurrences(rest, pat);
      StepProduct(CountOccurrences(rest, pat), |sub| - |pat|);
    } else {
      ReplaceLength(s[1..], pat, sub);
    }
  }

  lemma StepProduct(c: int, d: int)
    ensures (1 + c) * d == d + c * d
  {
  }

  /** A string in which `pat` does not occur is returned unchanged. */
  lemma {:induction false} ReplaceAbsent(s: string, pat: string, sub: string)
    requires |pat| > 0 && !IsSubstring(pat, s)
    ensures Replace(s, pat, sub) == s
    decreases |s|
  {
    if |s| >= |pat| {
      assert s[..|pat|] != pat;
      ReplaceAbsent(s[1..], pat, sub);
    }
  }

  /** Replacing a text by itself changes nothing. */
  lemma {:induction false} ReplaceSelf(s: string, pat: string)
    ensures Replace(s, pat, pat) == s
    decreases |s|
  {
    if |pat| == 0 {
      if |s| > 0 {
        ReplaceSelf(s[1..], pat);
      }
    } else if |s| < |pat| {
    } else if s[..|pat|] == pat {
      ReplaceSelf(s[|pat|..], pat);
      assert s == s[..|pat|] + s[|pat|..];
    } else {
      ReplaceSelf(s[1..], pat);
    }
  }

  /** The index Python uses for slice bound `k` of a sequence of length `n`. */
  function SliceBound(k: int, n: nat): (r: nat)
    ensures r <= n
    ensures 0 <= k <= n ==> r == k
    ensures k < 0 && k + n >= 0 ==> r == n + k
    ensures k + n < 0 ==> r == 0
    ensures k > n ==> r == n
  {
    if k < 0 then (if k + n < 0 then 0 else k + n) else if k > n then n else k
  }

  /** `s[a:b]`: negative bounds count from the end, bounds are clamped to the string, and a
      slice whose end precedes its start is empty. */
  function PySlice(s: string, a: int, b: int): (r: string)
    ensures 0 <= a <= b <= |s| ==> r == s[a..b]
    ensures |r| <= |s|
    ensures var lo, hi := SliceBound(a, |s|), SliceBound(b, |s|);
      && |r| == (if lo < hi then hi - lo else 0)
      && forall i :: 0 <= i < |r| ==> r[i] == s[lo + i]
    ensures -|s| <= a < 0 && b == |s| ==> r == s[|s| + a..]
    ensures 0 <= a <= |s| < b ==> r == s[a..]
  {
    var lo := SliceBound(a, |s|);
    var hi := SliceBound(b, |s|);
    if hi <= lo then [] else s[lo..hi]
  }

  /** Decimal digits of a natural number, most significant first. */
  function Digits(n: nat): (r: string)
    ensures |r| > 0
    ensures forall i :: 0 <= i < |r| ==> '0' <= r[i] <= '9'
    ensures r[0] == '0' <==> n == 0
  {
    if n < 10 then [('0' as int + n) as char] else Digits(n / 10) + [('0' as int + n % 10) as char]
  }

  /** The number a string of decimal digits denotes, most significant first (`int(s)` on such a
      string). */
  function DigitsValue(s: string): nat
    requires forall i :: 0 <= i < |s| ==> '0' <= s[i] <= '9'
  {
    if |s| == 0 then 0 else DigitsValue(s[..|s| - 1]) * 10 + (s[|s| - 1] as int - '0' as int)
  }

  /** The digits read back as the number they were written from. */
  lemma {:induction false} DigitsValueOfDigits(n: nat)
    ensures DigitsValue(Digits(n)) == n
  {
    if n >= 10 {
      var d := Digits(n);
      DigitsValueOfDigits(n / 10);
      assert d[..|d| - 1] == Digits(n / 10);
    }
  }

  /** `int(s)` for the strings `str` produces: an optional minus sign, then decimal digits. */
  function ParseInt(s: string): int
    requires |s| > 0 && (s[0] == '-' || '0' <= s[0] <= '9')
    requires forall i :: 0 < i < |s| ==> '0' <= s[i] <= '9'
  {
    if s[0] == '-' then -(DigitsValue(s[1..]) as int) else DigitsValue(s)
  }

  /** `str(i)` for a Python int: a minus sign for a negative number, then the decimal digits of
      its magnitude without leading zeros. */
  function IntToString(i: int): (r: string)
    ensures |r| > 0 && NoSpace(r) && IsLowerStr(r)
    ensures i >= 0 <==> r[0] != '-'
    ensures i >= 0 ==> r == Digits(i)
    ensures i < 0 ==> r == "-" + Digits(-i)
  {
    if i < 0 then "-" + Digits(-i) else Digits(i)
  }

  /** `int(str(i)) == i`, and the text is canonical: no leading zero except for `0` itself and no
      `-0`. */
  lemma IntToStringParses(i: int)
    ensures var r := IntToString(i);
      && (r[0] == '-' || '0' <= r[0] <= '9')
      && (forall k :: 0 < k < |r| ==> '0' <= r[k] <= '9')
      && ParseInt(r) == i
      && (r[0] == '0' ==> r == "0")
      && (r[0] == '-' ==> |r| > 1 && r[1] != '0')
  {
    var r := IntToString(i);
    if i < 0 {
      DigitsValueOfDigits(-i);
      assert r[1..] == Digits(-i);
    } else {
      DigitsValueOfDigits(i);
      if r[0] == '0' {
        assert i == 0;
      }
    }
  }

  /** `int(x)` for a finite float: truncation toward zero. */
  function Trunc(x: real): (r: int)
    ensures x >= 0.0 ==> r as real <= x < r as real + 1.0
    ensures x < 0.0 ==> r as real - 1.0 < x <= r as real
  {
    if x >= 0.0 then x.Floor else -((-x).Floor)
  }
}

=== FILE: transform_ref.dfy ===
/** The reference-expansion script: every reference of a corpus item is kept, and after it the
    variant obtained by a fixed list of whole-word, case-insensitive substitutions, unless that
    variant is already among the expanded references. */
module TransformRef {
  import opened Text

  /** The substitutions, applied in this order. */
  const Replacements: seq<(string, string)> := [
    ("ipo", "i p o"),
    ("adity", "aditi"),
    ("qr", "q r"),
    ("ankitha", "ankita"),
    ("Mom", "mummy"),
    ("sharda", "shraddha"),
    ("Dr", "doctor")
  ]

  /** A regular-expression word character (`\w`), ASCII only. */
  predicate IsWordChar(c: char) {
    ('a' <= c <= 'z') || ('A' <= c <= 'Z') || ('0' <= c <= '9') || c == '_'
  }

  /** A word character sits at position `i`; outside the text there is none. */
  predicate WordAt(t: string, i: int) {
    0 <= i < |t| && IsWordChar(t[i])
  }

  /** `\b` holds at position `i`: a word character on exactly one side. */
  predicate Boundary(t: string, i: int) {
    WordAt(t, i - 1) != WordAt(t, i)
  }

  /** `\b{pat}\b` with `re.IGNORECASE` matches at position `i` of the original text. */
  predicate MatchAt(t: string, pat: string, i: nat) {
    && i + |pat| <= |t|
    && Boundary(t, i)
    && LowerStr(t[i..i + |pat|]) == LowerStr(pat)
    && Boundary(t, i + |pat|)
  }

  /** The substitution from position `i` on: scanning left to right, each match is replaced by
      `rep` and scanning resumes after it; an empty match is replaced and the next character
      copied. */
  function SubFrom(t: string, pat: string, rep: string, i: nat): (r: string)
    requires i <= |t|
    ensures |pat| > 0 && |rep| == |pat| ==> |r| == |t| - i
    decreases |t| - i
  {
    if i == |t| then (if MatchAt(t, pat, i) then rep else "")
    else if MatchAt(t, pat, i) then
      if |pat| > 0 then rep + SubFrom(t, pat, rep, i + |pat|)
      else rep + [t[i]] + SubFrom(t, pat, rep, i + 1)
    else [t[i]] + SubFrom(t, pat, rep, i + 1)
  }

  /** `re.sub(rf'\b{pat}\b', rep, t, flags=re.IGNORECASE)` for a pattern without regular-expression
      metacharacters and a replacement without escapes. */
  function SubWord(t: string, pat: string, rep: string): (r: string)
    ensures |pat| > 0 && |rep| == |pat| ==> |r| == |t|
  {
    SubFrom(t, pat, rep, 0)
  }

  /** Text without a match from position `i` on is copied unchanged. */
  lemma {:induction false} SubFromNoMatch(t: string, pat: string, rep: string, i: nat)
    requires i <= |t|
    requires forall j :: i <= j <= |t| ==> !MatchAt(t, pat, j)
    ensures SubFrom(t, pat, rep, i) == t[i..]
    decreases |t| - i
  {
    if i < |t| {
      SubFromNoMatch(t, pat, rep, i + 1);
      assert t[i..] == [t[i]] + t[i + 1..];
    }
  }

  /** A text with no whole-word match of the pattern is left as it is. */
  lemma SubWordNoMatch(t: string, pat: string, rep: string)
    requires forall j :: 0 <= j <= |t| ==> !MatchAt(t, pat, j)
    ensures SubWord(t, pat, rep) == t
  {
    SubFromNoMatch(t, pat, rep, 0);
  }

  /** Characters before the next match are copied. */
  lemma {:induction false} SubFromSkip(t: string, pat: string, rep: string, k: nat, i: nat)
    requires k <= i <= |t|
    requires forall j :: k <= j < i ==> !MatchAt(t, pat, j)
    ensures SubFrom(t, pat, rep, k) == t[k..i] + SubFrom(t, pat, rep, i)
    decreases i - k
  {
    if k < i {
      SubFromSkip(t, pat, rep, k + 1, i);
      SubFromCopy(t, pat, rep, k);
      assert t[k..i] == [t[k]] + t[k + 1..i];
      Assoc([t[k]], t[k + 1..i], SubFrom(t, pat, rep, i));
    } else {
      assert t[k..i] == [];
    }
  }

  /** The leftmost whole-word match is replaced and the scan resumes after it: matches never
      overlap. */
  lemma SubWordLeftmost(t: string, pat: string, rep: string, i: nat)
    requires |pat| > 0 && MatchAt(t, pat, i)
    requires forall j :: 0 <= j < i ==> !MatchAt(t, pat, j)
    ensures SubWord(t, pat, rep) == t[..i] + rep + SubFrom(t, pat, rep, i + |pat|)
  {
    SubFromSkip(t, pat, rep, 0, i);
    var rest := SubFrom(t, pat, rep, i + |pat|);
    SubFromAtMatch(t, pat, rep, i);
    assert t[0..i] == t[..i];
    Assoc(t[..i], rep, rest);
  }

  lemma SubFromCopy(t: string, pat: string, rep: string, k: nat)
    requires k < |t| && !MatchAt(t, pat, k)
    ensures SubFrom(t, pat, rep, k) == [t[k]] + SubFrom(t, pat, rep, k + 1)
  {
  }

  lemma SubFromAtMatch(t: string, pat: string, rep: string, i: nat)
    requires |pat| > 0 && MatchAt(t, pat, i)
    ensures SubFrom(t, pat, rep, i) == rep + SubFrom(t, pat, rep, i + |pat|)
  {
  }

  lemma Assoc(a: string, b: string, c: string)
    ensures a + (b + c) == a + b + c
  {
  }

  /** Matching ignores case: "QR" is rewritten by the pattern "qr". */
  lemma SubWordIgnoresCase()
    ensures SubWord("QR", "qr", "q r") == "q r"
  {
  }

  /** Matching is whole-word: "dr" inside "dry" is not rewritten. */
  lemma SubWordWholeWords()
    ensures SubWord("dry", "dr", "x") == "dry"
  {
  }

  /** The substitutions applied one after another, in list order. */
  function ApplyReplacements(t: string, reps: seq<(string, string)>): (r: string)
    ensures (forall k :: 0 <= k < |reps| ==> |reps[k].0| > 0 && |reps[k].1| == |reps[k].0|) ==> |r| == |t|
    decreases |reps|
  {
    if |reps| == 0 then t
    else ApplyReplacements(SubWord(t, reps[0].0, reps[0].1), reps[1..])
  }

  /** One more substitution at the end of the list is applied to the result of the others. */
  lemma {:induction false} ApplyReplacementsSnoc(t: string, reps: seq<(string, string)>, r: (string, string))
    ensures ApplyReplacements(t, reps + [r]) == SubWord(ApplyReplacements(t, reps), r.0, r.1)
    decreases |reps|
  {
    if |reps| == 0 {
      assert [] + [r] == [r];
    } else {
      assert (reps + [r])[1..] == reps[1..] + [r];
      ApplyReplacementsSnoc(SubWord(t, reps[0].0, reps[0].1), reps[1..], r);
    }
  }

  /** A text in which no pattern matches is its own variant. */
  lemma {:induction false} ApplyReplacementsNoMatch(t: string, reps: seq<(string, string)>)
    requires forall k, j :: 0 <= k < |reps| && 0 <= j <= |t| ==> !MatchAt(t, reps[k].0, j)
    ensures ApplyReplacements(t, reps) == t
    decreases |reps|
  {
    if |reps| > 0 {
      SubWordNoMatch(t, reps[0].0, reps[0].1);
      ApplyReplacementsNoMatch(t, reps[1..]);
    }
  }

  /** One iteration of the loop: the reference is appended, then its variant unless the list
      already holds it. */
  function Step(out: seq<string>, item: string, reps: seq<(string, string)>): (r: seq<string>)
    ensures |r| == |out| + 1 || |r| == |out| + 2
    ensures r[..|out| + 1] == out + [item]
    ensures |r| == |out| + 2 <==> ApplyReplacements(item, reps) !in out + [item]
    ensures |r| == |out| + 2 ==> r[|out| + 1] == ApplyReplacements(item, reps)
  {
    var o := out + [item];
    var v := ApplyReplacements(item, reps);
    if v in o then o else o + [v]
  }

  /** The expanded references of one corpus item. */
  function Expand(refs: seq<string>, reps: seq<(string, string)>): (r: seq<string>)
    ensures |refs| <= |r| <= 2 * |refs|
    decreases |refs|
  {
    if |refs| == 0 then []
    else Step(Expand(refs[..|refs| - 1], reps), refs[|refs| - 1], reps)
  }

  /** The loop over the corpus: every item's references are expanded with the fixed list. */
  function ExpandCorpus(items: seq<seq<string>>): (r: seq<seq<string>>)
    ensures |r| == |items|
    ensures forall i :: 0 <= i < |items| ==> r[i] == Expand(items[i], Replacements)
  {
    seq(|items|, i requires 0 <= i < |items| => Expand(items[i], Replacements))
  }

  /** Where each original reference lands in the expanded list. */
  function Slots(refs: seq<string>, reps: seq<(string, string)>): seq<nat>
    decreases |refs|
  {
    if |refs| == 0 then []
    else Slots(refs[..|refs| - 1], reps) + [|Expand(refs[..|refs| - 1], reps)|]
  }

  /** The original references stay in the expanded list, in order, at strictly increasing
      positions. */
  lemma {:induction false} ExpandKeepsOriginals(refs: seq<string>, reps: seq<(string, string)>)
    ensures |Slots(refs, reps)| == |refs|
    ensures forall i :: 0 <= i < |refs| ==>
      Slots(refs, reps)[i] < |Expand(refs, reps)| && Expand(refs, reps)[Slots(refs, reps)[i]] == refs[i]
    ensures forall i, j :: 0 <= i < j < |refs| ==> Slots(refs, reps)[i] < Slots(refs, reps)[j]
    decreases |refs|
  {
    if |refs| > 0 {
      var p := refs[..|refs| - 1];
      var out := Expand(p, reps);
      var r := Expand(refs, reps);
      ExpandKeepsOriginals(p, reps);
      var s := Slots(refs, reps);
      assert r[..|out| + 1] == out + [refs[|refs| - 1]];
      forall i | 0 <= i < |refs|
        ensures s[i] < |r| && r[s[i]] == refs[i]
      {
        if i < |p| {
          assert r[s[i]] == r[..|out| + 1][s[i]];
        }
      }
    }
  }

  /** `a` is a subsequence of `b`. */
  ghost predicate IsSubsequence(a: seq<string>, b: seq<string>) {
    exists idx: seq<nat> ::
      && |idx| == |a|
      && (forall i :: 0 <= i < |a| ==> idx[i] < |b| && b[idx[i]] == a[i])
      && (forall i, j :: 0 <= i < j < |a| ==> idx[i] < idx[j])
  }

  /** The input references form a subsequence of the output. */
  lemma ExpandIsSupersequence(refs: seq<string>, reps: seq<(string, string)>)
    ensures IsSubsequence(refs, Expand(refs, reps))
  {
    ExpandKeepsOriginals(refs, reps);
    var idx := Slots(refs, reps);
    assert |idx| == |refs|;
  }

  /** The variant of every reference, in order. */
  function Variants(refs: seq<string>, reps: seq<(string, string)>): (r: seq<string>)
    ensures |r| == |refs|
    ensures forall i :: 0 <= i < |refs| ==> r[i] == ApplyReplacements(refs[i], reps)
  {
    seq(|refs|, i requires 0 <= i < |refs| => ApplyReplacements(refs[i], reps))
  }

  /** The expanded list holds exactly the references and their variants. */
  lemma {:induction false} ExpandMembers(refs: seq<string>, reps: seq<(string, string)>, x: string)
    ensures x in Expand(refs, reps) <==> x in refs || x in Variants(refs, reps)
    decreases |refs|
  {
    if |refs| > 0 {
      var p := refs[..|refs| - 1];
      var last := refs[|refs| - 1];
      ExpandMembers(p, reps, x);
      assert refs == p + [last];
      assert Variants(refs, reps) == Variants(p, reps) + [ApplyReplacements(last, reps)];
      var out := Expand(p, reps);
      var r := Expand(refs, reps);
      assert r[..|out| + 1] == out + [last];
      if |r| == |out| + 1 {
        assert r == out + [last];
      } else {
        assert r == out + [last] + [ApplyReplacements(last, reps)];
      }
    }
  }

  /** When no substitution changes any reference, the expansion is the identity. */
  lemma {:induction false} ExpandUnchanged(refs: seq<string>, reps: seq<(string, string)>)
    requires forall i :: 0 <= i < |refs| ==> ApplyReplacements(refs[i], reps) == refs[i]
    ensures Expand(refs, reps) == refs
    decreases |refs|
  {
    if |refs| > 0 {
      var p := refs[..|refs| - 1];
      ExpandUnchanged(p, reps);
      assert refs == p + [refs[|refs| - 1]];
    }
  }

  /** Originals are appended even when the list already holds them: if the first reference's
      variant is the second reference, the second appears twice. */
  lemma ExpandRepeatsOriginals(a: string, b: string, reps: seq<(string, string)>)
    requires a != b && ApplyReplacements(a, reps) == b && ApplyReplacements(b, reps) == b
    ensures Expand([a, b], reps) == [a, b, b]
  {
  }
}

=== FILE: utils_flatten.dfy ===
/** The second copy of the flatteners, in utils.py. The gold rule reads the `entities` dict of a
    corpus item and has no case for dicts: a composite goes through `str()` like a scalar. The
    predicted rule is the metrics.py one except that composite values are not lower-cased. */
module UtilsFlatten {
  import opened Wrappers
  import opened Text
  import opened Values
  import opened MetricsFlatten

  /** The gold rule for one entity value: a list is lower-cased item by item; anything else
      becomes the tokens of `str(v)`. */
  function UtilsGoldValue(v: Value, other: Value -> string): (r: Result<Value>)
    ensures r.Ok? ==> r.value.List?
    ensures !v.Composite? ==> r == FlattenGoldValue(v, other)
    ensures v.Composite? ==> r == Ok(List(Strs(Tokens(other(v)))))
  {
    match v
    case List(xs) =>
      var ls :- LowerItems(xs);
      Ok(List(Strs(ls)))
    case _ => Ok(List(Strs(Tokens(PyStr(v, other)))))
  }

  /** `convert_gold_response_to_list` of utils.py with no entity to re-process: every entity not
      named in `ignore` is flattened, in key order; the first failure is the result. */
  function UtilsGoldDict(d: Dict, ignore: seq<string>, other: Value -> string): (r: Result<Dict>)
    ensures r.Ok? <==> forall i :: 0 <= i < |d| && d[i].key !in ignore ==> UtilsGoldValue(d[i].value, other).Ok?
    ensures r.Ok? ==> Keys(r.value) == Keys(d)
    ensures r.Ok? ==> forall i :: 0 <= i < |d| ==>
      r.value[i].value == if d[i].key in ignore then d[i].value else UtilsGoldValue(d[i].value, other).value
  {
    if |d| == 0 then Ok([])
    else
      var head :- if d[0].key in ignore then Ok(d[0].value) else UtilsGoldValue(d[0].value, other);
      var rest := UtilsGoldDict(d[1..], ignore, other);
      if rest.Err? then Err(rest.fault)
      else Ok([Field(d[0].key, head)] + rest.value)
  }

  /** Where no flattened entity is a composite, the two gold flatteners agree. */
  lemma {:induction false} UtilsGoldAgrees(d: Dict, ignore: seq<string>, other: Value -> string)
    requires forall i :: 0 <= i < |d| && d[i].key !in ignore ==> !d[i].value.Composite?
    ensures UtilsGoldDict(d, ignore, other) == FlattenGoldDict(d, ignore, other)
  {
    if |d| > 0 {
      UtilsGoldAgrees(d[1..], ignore, other);
    }
  }

  /** The values of a dict in key order, as they are. */
  function FieldValues(d: Dict): (r: seq<Value>)
    ensures |r| == |d|
    ensures forall i :: 0 <= i < |d| ==> r[i] == d[i].value
  {
    seq(|d|, i requires 0 <= i < |d| => d[i].value)
  }

  /** A string lower-cased; any other value as it is. */
  function LowerValue(v: Value): Value {
    if v.Str? then Str(LowerStr(v.s)) else v
  }

  /** The predicted rule of utils.py for one entity value: the metrics.py rule, except that a
      dict becomes its values unchanged. */
  function UtilsPredValue(v: Value): (r: Result<Value>)
    ensures !v.Composite? ==> r == FlattenPredValue(v)
    ensures v.Composite? ==> r == Ok(List(FieldValues(v.fields)))
  {
    match v
    case Composite(d) => Ok(List(FieldValues(d)))
    case _ => FlattenPredValue(v)
  }

  /** On a composite the metrics.py rule yields exactly the lower-cased items of the utils.py
      rule. */
  lemma CompositeDiffersOnlyInCase(d: Dict)
    ensures |FlattenPredValue(Composite(d)).value.items| == |UtilsPredValue(Composite(d)).value.items|
    ensures forall i :: 0 <= i < |d| ==>
      FlattenPredValue(Composite(d)).value.items[i] == LowerValue(UtilsPredValue(Composite(d)).value.items[i])
  {
  }

  /** Every string stored directly in a composite entity of `d` is already lower-case. */
  predicate CompositesLower(d: Dict) {
    forall i, j ::
      (0 <= i < |d| && d[i].value.Composite? && 0 <= j < |d[i].value.fields| && d[i].value.fields[j].value.Str?)
      ==> IsLowerStr(d[i].value.fields[j].value.s)
  }

  /** The predicted rule applied to every entity of one dict, in key order. */
  function UtilsPredDict(d: Dict): (r: Result<Dict>)
    ensures r.Ok? <==> forall i :: 0 <= i < |d| ==> UtilsPredValue(d[i].value).Ok?
    ensures r.Ok? ==> Keys(r.value) == Keys(d)
    ensures r.Ok? ==> forall i :: 0 <= i < |d| ==> r.value[i].value == UtilsPredValue(d[i].value).value
  {
    if |d| == 0 then Ok([])
    else
      var head :- UtilsPredValue(d[0].value);
      var rest := UtilsPredDict(d[1..]);
      if rest.Err? then Err(rest.fault)
      else Ok([Field(d[0].key, head)] + rest.value)
  }

  /** `convert_pred_response_to_list` of utils.py: flattens the first candidate dict, raising
      `IndexError` when there is none. */
  function UtilsPred(x: PredResponse): (r: Result<PredResponse>)
    ensures |x.entities| == 0 ==> r == Err(IndexError)
    ensures r.Ok? ==> r.value.intent == x.intent && |r.value.entities| == |x.entities|
    ensures r.Ok? ==> Keys(r.value.entities[0]) == Keys(x.entities[0])
    ensures r.Ok? ==> r.value.entities[1..] == x.entities[1..]
  {
    if |x.entities| == 0 then Err(IndexError)
    else
      var d :- UtilsPredDict(x.entities[0]);
      Ok(PredResponse(x.intent, [d] + x.entities[1..]))
  }

  /** One value: where a composite holds only lower-case strings, the two rules agree. */
  lemma PredValueAgrees(v: Value)
    requires v.Composite? ==> forall j :: 0 <= j < |v.fields| && v.fields[j].value.Str? ==> IsLowerStr(v.fields[j].value.s)
    ensures UtilsPredValue(v) == FlattenPredValue(v)
  {
    if v.Composite? {
      var d := v.fields;
      forall j | 0 <= j < |d|
        ensures LowerValues(d)[j] == FieldValues(d)[j]
      {
        if d[j].value.Str? {
          LowerStrOfLower(d[j].value.s);
        }
      }
      assert LowerValues(d) == FieldValues(d);
    }
  }

  /** Where every composite entity holds only lower-case strings, the two predicted flatteners
      agree; in particular they agree on responses without composite entities. */
  lemma {:induction false} UtilsPredDictAgrees(d: Dict)
    requires CompositesLower(d)
    ensures UtilsPredDict(d) == FlattenPredDict(d)
  {
    if |d| > 0 {
      PredValueAgrees(d[0].value);
      assert CompositesLower(d[1..]) by {
        forall i, j |
          0 <= i < |d[1..]| && d[1..][i].value.Composite? && 0 <= j < |d[1..][i].value.fields| &&
          d[1..][i].value.fields[j].value.Str?
          ensures IsLowerStr(d[1..][i].value.fields[j].value.s)
        {
          assert d[1..][i] == d[i + 1];
        }
      }
      UtilsPredDictAgrees(d[1..]);
    }
  }

  lemma UtilsPredAgrees(x: PredResponse)
    requires |x.entities| > 0 && CompositesLower(x.entities[0])
    ensures UtilsPred(x) == FlattenPred(x)
  {
    UtilsPredDictAgrees(x.entities[0]);
  }

  /** A composite holding an upper-case letter is where the two predicted flatteners part. */
  lemma PredFlattenersDiffer(key: string)
    ensures var v := Composite([Field(key, Str("A"))]);
      && UtilsPredValue(v) == Ok(List([Str("A")]))
      && FlattenPredValue(v) == Ok(List([Str("a")]))
  {
    assert LowerStr("A") == "a";
    assert LowerValues([Field(key, Str("A"))]) == [Str("a")];
    assert FieldValues([Field(key, Str("A"))]) == [Str("A")];
  }
}

=== FILE: values.dfy ===
/** The Python values that flow through the evaluation code: JSON-shaped entity values, ordered
    dictionaries of them, the gold and predicted NLU responses, and the parts of Python's object
    protocol (`==`, `len`, iteration, `in`, `str`) the code applies to them. */
module Values {
  import opened Wrappers
  import opened Text

  /** An entity value as the NLU backend or the labelled corpus supplies it. */
  datatype Value =
    | Str(s: string)
    | Int(i: int)
    | Float(x: real)
    | List(items: seq<Value>)
    | Composite(fields: Dict)

  /** One key/value pair of a dictionary. */
  datatype Field = Field(key: string, value: Value)

  /** A Python dict: its pairs in insertion order. The dicts the code builds never repeat a key
      (see `UniqueKeys`); `Assign` keeps that invariant. */
  type Dict = seq<Field>

  /** The keys of `d`, in iteration order. */
  function Keys(d: Dict): (r: seq<string>)
    ensures |r| == |d|
    ensures forall i :: 0 <= i < |d| ==> r[i] == d[i].key
  {
    seq(|d|, i requires 0 <= i < |d| => d[i].key)
  }

  /** No key occurs twice. */
  predicate UniqueKeys(d: Dict) {
    forall i, j :: 0 <= i < j < |d| ==> d[i].key != d[j].key
  }

  /** `k in d`. */
  predicate HasKey(d: Dict, k: string) {
    exists i :: 0 <= i < |d| && d[i].key == k
  }

  /** `d.get(k)`: the value stored under `k`, if any. */
  function Get(d: Dict, k: string): (r: Option<Value>)
    ensures r.Some? <==> HasKey(d, k)
    ensures r.Some? ==> exists i :: 0 <= i < |d| && d[i] == Field(k, r.value)
  {
    if |d| == 0 then None
    else if d[0].key == k then Some(d[0].value)
    else
      var r := Get(d[1..], k);
      assert r.Some? ==> exists i :: 0 <= i < |d[1..]| && d[1..][i] == Field(k, r.value);
      r
  }

  /** The value a key-unique dict stores at a position is what a lookup of that key returns. */
  lemma GetAt(d: Dict, i: nat)
    requires UniqueKeys(d) && i < |d|
    ensures Get(d, d[i].key) == Some(d[i].value)
  {
  }

  /** `d[k] = v`: an existing key keeps its position and takes the new value; a new key is
      appended. */
  function Assign(d: Dict, k: string, v: Value): (r: Dict)
    ensures |r| == if HasKey(d, k) then |d| else |d| + 1
    ensures forall i :: 0 <= i < |d| ==> r[i].key == d[i].key
    ensures !HasKey(d, k) ==> r == d + [Field(k, v)]
    ensures Get(r, k) == Some(v)
  {
    if |d| == 0 then [Field(k, v)]
    else if d[0].key == k then [Field(k, v)] + d[1..]
    else
      HasKeyTail(d, k);
      [d[0]] + Assign(d[1..], k, v)
  }

  lemma HasKeyTail(d: Dict, k: string)
    requires |d| > 0 && d[0].key != k
    ensures HasKey(d, k) <==> HasKey(d[1..], k)
    ensures d == [d[0]] + d[1..]
  {
  }

  /** A key is in a non-empty dict when it is the first key or in the rest. */
  lemma HasKeyCons(d: Dict, k: string)
    requires |d| > 0
    ensures HasKey(d, k) <==> d[0].key == k || HasKey(d[1..], k)
  {
  }

  /** After `d[k] = v` the keys are those of `d` plus `k`. */
  lemma AssignHasKey(d: Dict, k: string, v: Value, k': string)
    ensures HasKey(Assign(d, k, v), k') <==> k' == k || HasKey(d, k')
  {
    var r := Assign(d, k, v);
    if HasKey(d, k') {
      var i :| 0 <= i < |d| && d[i].key == k';
      assert r[i].key == k';
    }
    if k' == k {
      assert Get(r, k).Some?;
    }
    if HasKey(r, k') && k' != k {
      var i :| 0 <= i < |r| && r[i].key == k';
      if i < |d| {
        assert d[i].key == k';
      }
    }
  }

  /** Assignment keeps a dict's keys unique. */
  lemma AssignUnique(d: Dict, k: string, v: Value)
    requires UniqueKeys(d)
    ensures UniqueKeys(Assign(d, k, v))
  {
    var r := Assign(d, k, v);
    forall i, j | 0 <= i < j < |r| ensures r[i].key != r[j].key {
      if j >= |d| {
        assert !HasKey(d, k) && r[j].key == k && r[i].key == d[i].key;
      }
    }
  }

  /** Assigning one key leaves every other key's value as it was. */
  lemma {:induction false} AssignOther(d: Dict, k: string, v: Value, k': string)
    requires k' != k
    ensures Get(Assign(d, k, v), k') == Get(d, k')
  {
    if |d| > 0 && d[0].key != k && d[0].key != k' {
      AssignOther(d[1..], k, v, k');
      assert Assign(d, k, v)[1..] == Assign(d[1..], k, v);
    }
  }

  /** Python's `==` on values. Strings compare by content, an `int` equals the `float` of the same
      magnitude, lists compare element by element, and dicts compare as key sets with equal
      values per key, whatever the insertion order. */
  predicate PyEq(v: Value, w: Value)
    decreases v, 3
  {
    match v
    case Str(a) => w.Str? && w.s == a
    case Int(i) => (w.Int? && w.i == i) || (w.Float? && w.x == i as real)
    case Float(x) => (w.Int? && w.i as real == x) || (w.Float? && w.x == x)
    case List(xs) =>
      && w.List? && |xs| == |w.items|
      && forall k :: 0 <= k < |xs| ==> PyEq(xs[k], w.items[k])
    case Composite(f) => w.Composite? && DictCovers(f, w.fields) && DictCovered(f, w.fields)
  }

  /** Every key of `f` is a key of `g`, with an equal value. */
  predicate DictCovers(f: Dict, g: Dict)
    decreases f, 2
  {
    forall i :: 0 <= i < |f| ==> MatchedIn(f[i], g)
  }

  /** `fd` has a partner in `g`: same key, equal value. */
  predicate MatchedIn(fd: Field, g: Dict)
    decreases fd, 1
  {
    exists j :: 0 <= j < |g| && g[j].key == fd.key && PyEq(fd.value, g[j].value)
  }

  /** Every key of `g` is a key of `f`, with an equal value. */
  predicate DictCovered(f: Dict, g: Dict)
    decreases f, 2
  {
    forall j :: 0 <= j < |g| ==> MatchedBy(f, g[j])
  }

  /** `gd` has a partner in `f`: same key, equal value. */
  predicate MatchedBy(f: Dict, gd: Field)
    decreases f, 1
  {
    exists i :: 0 <= i < |f| && f[i].key == gd.key && PyEq(f[i].value, gd.value)
  }

  lemma {:induction false} PyEqReflexive(v: Value)
    ensures PyEq(v, v)
    decreases v
  {
    match v
    case List(xs) =>
      forall k | 0 <= k < |xs| ensures PyEq(xs[k], xs[k]) {
        PyEqReflexive(xs[k]);
      }
    case Composite(f) =>
      forall i | 0 <= i < |f| ensures MatchedIn(f[i], f) && MatchedBy(f, f[i]) {
        PyEqReflexive(f[i].value);
      }
    case _ =>
  }

  lemma {:induction false} PyEqSymmetric(v: Value, w: Value)
    requires PyEq(v, w)
    ensures PyEq(w, v)
    decreases v
  {
    match v
    case List(xs) =>
      forall k | 0 <= k < |xs| ensures PyEq(w.items[k], xs[k]) {
        PyEqSymmetric(xs[k], w.items[k]);
      }
    case Composite(f) =>
      var g := w.fields;
      assert DictCovers(f, g) && DictCovered(f, g);
      forall j | 0 <= j < |g| ensures MatchedIn(g[j], f) {
        assert MatchedBy(f, g[j]);
        var i :| 0 <= i < |f| && f[i].key == g[j].key && PyEq(f[i].value, g[j].value);
        PyEqSymmetric(f[i].value, g[j].value);
      }
      forall i | 0 <= i < |f| ensures MatchedBy(g, f[i]) {
        assert MatchedIn(f[i], g);
        var j :| 0 <= j < |g| && g[j].key == f[i].key && PyEq(f[i].value, g[j].value);
        PyEqSymmetric(f[i].value, g[j].value);
      }
    case _ =>
  }

  lemma {:induction false} PyEqTransitive(u: Value, v: Value, w: Value)
    requires PyEq(u, v) && PyEq(v, w)
    ensures PyEq(u, w)
    decreases u
  {
    match u
    case List(xs) =>
      forall k | 0 <= k < |xs| ensures PyEq(xs[k], w.items[k]) {
        PyEqTransitive(xs[k], v.items[k], w.items[k]);
      }
    case Composite(f) =>
      var g, h := v.fields, w.fields;
      forall i | 0 <= i < |f| ensures MatchedIn(f[i], h) {
        MatchedInTransitive(f[i], g, h);
      }
      forall l | 0 <= l < |h| ensures MatchedBy(f, h[l]) {
        MatchedByTransitive(f, g, h[l]);
      }
    case _ =>
  }

  /** A field matched in `g`, which `h` covers, is matched in `h`. */
  lemma {:induction false} MatchedInTransitive(fd: Field, g: Dict, h: Dict)
    requires MatchedIn(fd, g) && DictCovers(g, h)
    ensures MatchedIn(fd, h)
    decreases fd
  {
    var j :| 0 <= j < |g| && g[j].key == fd.key && PyEq(fd.value, g[j].value);
    assert MatchedIn(g[j], h);
    var l :| 0 <= l < |h| && h[l].key == g[j].key && PyEq(g[j].value, h[l].value);
    PyEqTransitive(fd.value, g[j].value, h[l].value);
  }

  /** A field of `h` matched by `g`, which `f` covers from the other side, is matched by `f`. */
  lemma {:induction false} MatchedByTransitive(f: Dict, g: Dict, hd: Field)
    requires MatchedBy(g, hd) && DictCovered(f, g)
    ensures MatchedBy(f, hd)
    decreases f
  {
    var j :| 0 <= j < |g| && g[j].key == hd.key && PyEq(g[j].value, hd.value);
    assert MatchedBy(f, g[j]);
    var i :| 0 <= i < |f| && f[i].key == g[j].key && PyEq(f[i].value, g[j].value);
    PyEqTransitive(f[i].value, g[j].value, hd.value);
  }

  /** `len(v)`: characters of a string, items of a list, keys of a dict; numbers have no length. */
  function Len(v: Value): (r: Result<nat>)
    ensures r.Err? <==> v.Int? || v.Float?
  {
    match v
    case Str(s) => Ok(|s|)
    case List(xs) => Ok(|xs|)
    case Composite(f) => Ok(|f|)
    case _ => Err(TypeError)
  }

  /** `for x in v`: a string yields its characters, a list its items, a dict its keys. */
  function Iterate(v: Value): (r: Result<seq<Value>>)
    ensures r.Ok? <==> !(v.Int? || v.Float?)
    ensures r.Ok? ==> Len(v) == Ok(|r.value|)
  {
    match v
    case Str(s) => Ok(seq(|s|, i requires 0 <= i < |s| => Str([s[i]])))
    case List(xs) => Ok(xs)
    case Composite(f) => Ok(seq(|f|, i requires 0 <= i < |f| => Str(f[i].key)))
    case _ => Err(TypeError)
  }

  /** `x in v` for a string `x`: substring of a string, equal item of a list, key of a dict. */
  function Contains(v: Value, x: string): (r: Result<bool>)
    ensures r.Err? <==> v.Int? || v.Float?
    ensures v.List? ==> r == Ok(Str(x) in v.items)
  {
    match v
    case Str(s) => Ok(IsSubstring(x, s))
    case List(xs) => Ok(Str(x) in xs)
    case Composite(f) => Ok(HasKey(f, x))
    case _ => Err(TypeError)
  }

  /** `str(v)`. A string is itself and an int is its decimal form; Python's formatting of floats,
      lists and dicts is supplied by `other`. */
  function PyStr(v: Value, other: Value -> string): (r: string)
    ensures v.Str? ==> r == v.s
    ensures v.Int? ==> r == IntToString(v.i)
  {
    match v
    case Str(s) => s
    case Int(i) => IntToString(i)
    case _ => other(v)
  }

  /** A labelled corpus item: its gold intent, its gold entities, and whether it carries the
      `index` key that the entity scorer reads whenever it logs an error. */
  datatype GoldResponse = GoldResponse(labeledIntent: string, labeledEntities: Dict, hasIndex: bool)

  /** An NLU response: the intent and a list of candidate entity dicts, of which the code reads the
      first. */
  datatype PredResponse = PredResponse(intent: string, entities: seq<Dict>)
}

=== FILE: wer.dfy ===
/** Word error rate: the word-level edit distance between a reference and a hypothesis divided by
    the number of reference words, and the best rate of a hypothesis over several references. */
module Wer {
  import opened Wrappers
  import opened Text

  function Min3(x: nat, y: nat, z: nat): (m: nat)
    ensures m <= x && m <= y && m <= z
    ensures m == x || m == y || m == z
  {
    if x <= y && x <= z then x else if y <= z then y else z
  }

  /** The cost of matching the last words of two non-empty word lists. */
  function Sub(x: string, y: string): nat {
    if x == y then 0 else 1
  }

  /** The Levenshtein distance between two word lists: the fewest insertions, deletions and
      substitutions of single words that turn `a` into `b`. */
  function Dist(a: seq<string>, b: seq<string>): nat
    decreases |a| + |b|
  {
    if |a| == 0 then |b|
    else if |b| == 0 then |a|
    else Min3(Dist(a[..|a| - 1], b) + 1,
              Dist(a, b[..|b| - 1]) + 1,
              Dist(a[..|a| - 1], b[..|b| - 1]) + Sub(a[|a| - 1], b[|b| - 1]))
  }

  /** The usual dynamic programme, one row of the distance table at a time. */
  method EditDistance(a: seq<string>, b: seq<string>) returns (d: nat)
    ensures d == Dist(a, b)
  {
    var prev: seq<nat> := seq(|b| + 1, j requires 0 <= j <= |b| => j);
    for i := 1 to |a| + 1
      invariant |prev| == |b| + 1
      invariant forall j :: 0 <= j <= |b| ==> prev[j] == Dist(a[..i - 1], b[..j])
    {
      prev := NextRow(a, b, i, prev);
    }
    assert a[..|a|] == a && b[..|b|] == b;
    d := prev[|b|];
  }

  /** Row `i` of the distance table from row `i - 1`. */
  method NextRow(a: seq<string>, b: seq<string>, i: nat, prev: seq<nat>) returns (cur: seq<nat>)
    requires 1 <= i <= |a| && |prev| == |b| + 1
    requires forall j :: 0 <= j <= |b| ==> prev[j] == Dist(a[..i - 1], b[..j])
    ensures |cur| == |b| + 1
    ensures forall j :: 0 <= j <= |b| ==> cur[j] == Dist(a[..i], b[..j])
  {
    cur := [i];
    for j := 1 to |b| + 1
      invariant |cur| == j
      invariant forall k :: 0 <= k < j ==> cur[k] == Dist(a[..i], b[..k])
    {
      var v := Min3(prev[j] + 1, cur[j - 1] + 1, prev[j - 1] + Sub(a[i - 1], b[j - 1]));
      DistCell(a, b, i, j, prev[j], cur[j - 1], prev[j - 1]);
      cur := cur + [v];
    }
  }

  /** One cell of the table from the values of its three neighbours. */
  lemma DistCell(a: seq<string>, b: seq<string>, i: nat, j: nat, up: nat, left: nat, diag: nat)
    requires 1 <= i <= |a| && 1 <= j <= |b|
    requires up == Dist(a[..i - 1], b[..j]) && left == Dist(a[..i], b[..j - 1])
    requires diag == Dist(a[..i - 1], b[..j - 1])
    ensures Min3(up + 1, left + 1, diag + Sub(a[i - 1], b[j - 1])) == Dist(a[..i], b[..j])
  {
    DistStep(a, b, i, j);
  }

  /** One cell of the table from its three neighbours. */
  lemma DistStep(a: seq<string>, b: seq<string>, i: nat, j: nat)
    requires 1 <= i <= |a| && 1 <= j <= |b|
    ensures Dist(a[..i], b[..j]) == Min3(Dist(a[..i - 1], b[..j]) + 1,
                                         Dist(a[..i], b[..j - 1]) + 1,
                                         Dist(a[..i - 1], b[..j - 1]) + Sub(a[i - 1], b[j - 1]))
  {
    assert a[..i][..i - 1] == a[..i - 1];
    assert b[..j][..j - 1] == b[..j - 1];
  }

  /** The distance is at least the difference in length, since each edit changes the length by
      at most one, and at most the longer length, since substituting along the shorter list and
      inserting or deleting the rest always works. */
  lemma {:induction false} DistBounds(a: seq<string>, b: seq<string>)
    ensures Dist(a, b) <= if |a| >= |b| then |a| else |b|
    ensures Dist(a, b) >= |a| - |b| && Dist(a, b) >= |b| - |a|
    decreases |a| + |b|
  {
    if |a| > 0 && |b| > 0 {
      DistBounds(a[..|a| - 1], b);
      DistBounds(a, b[..|b| - 1]);
      DistBounds(a[..|a| - 1], b[..|b| - 1]);
    }
  }

  /** A word list is at distance zero from itself. */
  lemma {:induction false} DistSelf(a: seq<string>)
    ensures Dist(a, a) == 0
    decreases |a|
  {
    if |a| > 0 {
      DistSelf(a[..|a| - 1]);
    }
  }

  /** Distance zero means equal word lists. */
  lemma {:induction false} DistZero(a: seq<string>, b: seq<string>)
    requires Dist(a, b) == 0
    ensures a == b
    decreases |a| + |b|
  {
    if |a| > 0 && |b| > 0 {
      DistZero(a[..|a| - 1], b[..|b| - 1]);
      assert a == a[..|a| - 1] + [a[|a| - 1]];
      assert b == b[..|b| - 1] + [b[|b| - 1]];
    }
  }

  /** Turning `a` into `b` costs what turning `b` into `a` costs. */
  lemma {:induction false} DistSymmetric(a: seq<string>, b: seq<string>)
    ensures Dist(a, b) == Dist(b, a)
    decreases |a| + |b|
  {
    if |a| > 0 && |b| > 0 {
      DistSymmetric(a[..|a| - 1], b);
      DistSymmetric(a, b[..|b| - 1]);
      DistSymmetric(a[..|a| - 1], b[..|b| - 1]);
    }
  }

  /** `jiwer.wer(reference, hypothesis)` on whitespace-separated words; an empty reference is an
      error. */
  function WordErrorRate(reference: string, hypothesis: string): (r: Result<real>)
    ensures r.Err? <==> |Split(reference)| == 0
    ensures r.Err? ==> r.fault == ValueError
    ensures r.Ok? ==> r.value >= 0.0
  {
    var ref := Split(reference);
    if |ref| == 0 then Err(ValueError)
    else Ok(Dist(ref, Split(hypothesis)) as real / |ref| as real)
  }

  /** The rate is zero exactly when the hypothesis has the reference's words. */
  lemma WordErrorRateZero(reference: string, hypothesis: string)
    requires |Split(reference)| > 0
    ensures WordErrorRate(reference, hypothesis) == Ok(0.0) <==> Split(reference) == Split(hypothesis)
  {
    RateZero(Split(reference), Split(hypothesis));
  }

  lemma RateZero(ref: seq<string>, hyp: seq<string>)
    requires |ref| > 0
    ensures Dist(ref, hyp) as real / |ref| as real == 0.0 <==> ref == hyp
  {
    if ref == hyp {
      DistSelf(ref);
    }
    if Dist(ref, hyp) as real / |ref| as real == 0.0 {
      QuotientZero(Dist(ref, hyp), |ref|);
      DistZero(ref, hyp);
    }
  }

  lemma QuotientZero(d: nat, n: nat)
    requires n > 0 && d as real / n as real == 0.0
    ensures d == 0
  {
  }

  /** The smallest rate over a non-empty list of references; the first failing reference fails the
      whole. */
  function MinRate(hypothesis: string, refs: seq<string>): (r: Result<real>)
    requires |refs| > 0
    ensures r.Ok? ==> forall i :: 0 <= i < |refs| ==>
      WordErrorRate(refs[i], hypothesis).Ok? && r.value <= WordErrorRate(refs[i], hypothesis).value
    ensures r.Ok? ==> exists i :: 0 <= i < |refs| && WordErrorRate(refs[i], hypothesis) == Ok(r.value)
    ensures r.Err? <==> exists i :: 0 <= i < |refs| && WordErrorRate(refs[i], hypothesis).Err?
    decreases |refs|
  {
    var w :- WordErrorRate(refs[0], hypothesis);
    if |refs| == 1 then Ok(w)
    else
      var rest := MinRate(hypothesis, refs[1..]);
      assert forall i :: 1 <= i < |refs| ==> refs[i] == refs[1..][i - 1];
      if rest.Err? then
        var i :| 0 <= i < |refs[1..]| && WordErrorRate(refs[1..][i], hypothesis).Err?;
        assert WordErrorRate(refs[i + 1], hypothesis).Err?;
        rest
      else
        var m := rest.value;
        if m < w then
          var i :| 0 <= i < |refs[1..]| && WordErrorRate(refs[1..][i], hypothesis) == Ok(m);
          assert WordErrorRate(refs[i + 1], hypothesis) == Ok(m);
          Ok(m)
        else Ok(w)
  }

  /** `get_best_wer`: the minimum of the rates against every reference. `min` of nothing and any
      failing reference are errors. */
  function BestWer(hypothesis: string, refs: seq<string>): (r: Result<real>)
    ensures r.Err? <==> |refs| == 0 || exists i :: 0 <= i < |refs| && WordErrorRate(refs[i], hypothesis).Err?
    ensures r.Err? ==> r.fault == ValueError
    ensures r.Ok? ==> forall i :: 0 <= i < |refs| ==> r.value <= WordErrorRate(refs[i], hypothesis).value
    ensures r.Ok? ==> exists i :: 0 <= i < |refs| && WordErrorRate(refs[i], hypothesis) == Ok(r.value)
  {
    if |refs| == 0 then Err(ValueError)
    else
      var r := MinRate(hypothesis, refs);
      assert r.Err? ==> r.fault == ValueError by {
        if r.Err? {
          MinRateFault(hypothesis, refs);
        }
      }
      r
  }

  lemma {:induction false} MinRateFault(hypothesis: string, refs: seq<string>)
    requires |refs| > 0 && MinRate(hypothesis, refs).Err?
    ensures MinRate(hypothesis, refs).fault == ValueError
    decreases |refs|
  {
    if WordErrorRate(refs[0], hypothesis).Ok? && |refs| > 1 {
      MinRateFault(hypothesis, refs[1..]);
    }
  }

  /** A hypothesis with exactly the words of one of the references has the best rate 0. */
  lemma BestWerOfExactMatch(hypothesis: string, refs: seq<string>, i: nat)
    requires i < |refs| && Split(refs[i]) == Split(hypothesis)
    requires forall j :: 0 <= j < |refs| ==> |Split(refs[j])| > 0
    ensures BestWer(hypothesis, refs) == Ok(0.0)
  {
    WordErrorRateZero(refs[i], hypothesis);
    RatesDefined(hypothesis, refs);
    BestOfZero(hypothesis, refs, i);
  }

  lemma RatesDefined(hypothesis: string, refs: seq<string>)
    requires forall j :: 0 <= j < |refs| ==> |Split(refs[j])| > 0
    ensures forall j :: 0 <= j < |refs| ==> WordErrorRate(refs[j], hypothesis).Ok?
  {
  }

  lemma BestOfZero(hypothesis: string, refs: seq<string>, i: nat)
    requires i < |refs| && WordErrorRate(refs[i], hypothesis) == Ok(0.0)
    requires forall j :: 0 <= j < |refs| ==> WordErrorRate(refs[j], hypothesis).Ok?
    ensures BestWer(hypothesis, refs) == Ok(0.0)
  {
    var r := BestWer(hypothesis, refs);
    assert r.value <= WordErrorRate(refs[i], hypothesis).value;
  }
}

=== FILE: wrappers.dfy ===
/** Failure-compatible wrappers shared by every module of the model.

    The Python code signals failure by raising; the model returns a `Result` whose error is the
    exception class the interpreter would raise at that point. */
module Wrappers {

  /** A value that may be absent: a dictionary lookup or an optional message field. */
  datatype Option<+T> = None | Some(value: T) {

    /** Python's `d.get(key, default)`. */
    function GetOr(default: T): T {
      match this
      case Some(v) => v
      case None => default
    }
  }

  /** The Python exception classes the modelled code can raise. */
  datatype Fault =
    | AttributeError      // a method such as `.lower()` called on a non-string
    | TypeError           // `len`, `in` or iteration on a value that does not support it
    | KeyError            // `d[key]` with an absent key
    | IndexError          // `xs[0]` on an empty list
    | ValueError          // an unseen label, `min` of an empty list, an empty WER reference
    | ZeroDivisionError   // a division whose denominator is zero

  /** Either the value the Python code returns or the exception it raises. */
  datatype Result<+T> = Ok(value: T) | Err(fault: Fault) {

    predicate IsFailure() {
      Err?
    }

    function PropagateFailure<U>(): Result<U>
      requires Err?
    {
      Err(fault)
    }

    function Extract(): T
      requires Ok?
    {
      value
    }
  }
}
